=== FILE: README.md ===
# dtkwidget logic core in Dafny

This project models the sequential logic inside five DTK widgets (the Deepin
Tool Kit widget library) and proves properties of it. Widget, printer, style
and window-manager queries are turned into plain inputs.

- **Print preview dialog** (`print_preview.dfy`, with the parser in
  `page_range.dfy`):
  - the custom page-range edit (`1,3,5-7,11-15`): its comma and dash
    splitting, `toInt`, the NullTip / FormatTip / MaxTip errors, the rewriting
    of reversed ranges, and the de-duplicated ascending page list handed to
    the preview;
  - the error display;
  - the turn-page button table;
  - the margin presets, the minimum-margin clamp and the remembered-margins
    check;
  - the paper-size and duplex selection given to the printer.
- **Flow layout** (`flow_layout.dfy`):
  - the four placement loops of `doLayout`: left to right and top to bottom,
    each in both layout directions;
  - line wrapping and the reported size;
  - the item list;
  - the cached size hint;
  - the idempotent property setters.
- **Stack widget** (`stack_widget.dfy`):
  - the widget list with its current index and widget;
  - push, insert, pop-n (immediate or deferred deletion into the trash list),
    clear, indexOf and getWidgetByIndex.
- **Title bar** (`titlebar.dfy`):
  - button visibility;
  - title saving and restoring;
  - the fullscreen hide/show of the bar height;
  - the maximise toggle;
  - the disable-flag sync;
  - addWidget dispatch;
  - centre-area geometry and the size hint;
  - tab-order chaining.
- **Styled item delegate** (`item_delegate.dfy`):
  - the exclusive colour type/role of an action;
  - `actionSize`;
  - the `doActionsLayout` placement and bounding size;
  - the edge-to-role mapping;
  - the clickable map;
  - the press/release state machine;
  - background-type margins.

`basics.dfy` holds the shared Qt value types:
- `QSize` and `QRect`, with `right = x + w - 1`;
- `qMax`, `qMin` and `qBound`;
- C++ truncating division.

Stateful parts are classes whose methods are proved against value-level
specification functions. Those functions carry the lemmas.

## Model

| member | source | states |
|---|---|---|
| Basics.CDiv | src/widgets/dtitlebar.cpp:427-439 | C++ integer division truncates toward zero: the remainder `a - q*b` has the sign of the dividend and is smaller than the divisor in magnitude |
| PageRange.Split | src/widgets/dprintpreviewdialog.cpp:1795 | QString::split gives at least one part, at least two when the separator occurs, and no part contains the separator |
| PageRange.JoinSplit | src/widgets/dprintpreviewdialog.cpp:1821-1823 | joining the parts of a split with the same separator gives back the original text |
| PageRange.SplitPrefix | src/widgets/dprintpreviewdialog.cpp:1795 | a separator-free prefix attaches to the first part of the split of the rest |
| PageRange.SplitJoin | src/widgets/dprintpreviewdialog.cpp:1821-1823 | splitting the join of separator-free parts gives back the parts |
| PageRange.DecimalString | src/widgets/dprintpreviewdialog.cpp:1803-1804 | the decimal spelling of a number is a non-empty digit string |
| PageRange.DecimalValueOfString | src/widgets/dprintpreviewdialog.cpp:1803-1804 | reading the decimal spelling of n gives n |
| PageRange.ToIntDecimalString | src/widgets/dprintpreviewdialog.cpp:1803 | `toInt(&ok)` on the spelling of any n up to INT_MAX succeeds with value n |
| PageRange.DigitsHaveNoSeparator | src/widgets/dprintpreviewdialog.cpp:1799 | a digit string contains neither separator, so a number token takes the single-number branch |
| PageRange.Range | src/widgets/dprintpreviewdialog.cpp:1804-1806 | the pages lo..hi in order: hi-lo+1 of them, the k-th being lo+k |
| PageRange.ScanTokens | src/widgets/dprintpreviewdialog.cpp:1797-1841 | the token loop keeps one (possibly rewritten) token per token read |
| PageRange.ScanStopsAtError | src/widgets/dprintpreviewdialog.cpp:1808-1809 | once a token is rejected, the pages and the error stay fixed and the remaining tokens are kept as they were |
| PageRange.EmptyOrUnfinishedText | src/widgets/dprintpreviewdialog.cpp:1792-1794 | empty text gives NullTip; text ending in `-` or `,` gives FormatTip; neither changes the text |
| PageRange.OneToken | src/widgets/dprintpreviewdialog.cpp:1795-1841 | a comma-free text is read as exactly one token, with that token's pages, rewrite or error |
| PageRange.SinglePage | src/widgets/dprintpreviewdialog.cpp:1833-1839 | a single number n is accepted as the page list [n] iff 0 < n <= totalPages; otherwise MaxTip |
| PageRange.RangeTokenSplit | src/widgets/dprintpreviewdialog.cpp:1799-1800 | the token `a-b` contains no comma and splits at the dash into the two spellings |
| PageRange.ForwardRange | src/widgets/dprintpreviewdialog.cpp:1799-1811 | `a-b` with a <= b gives exactly the pages a..b, or MaxTip when a is 0 or b exceeds totalPages |
| PageRange.ReversedRange | src/widgets/dprintpreviewdialog.cpp:1812-1831 | `b-a` with b > a is rewritten to `a-b` in the edit and gives a..b (page 0 included when a is 0), or MaxTip when b exceeds totalPages |
| PageRange.ScanPagesBounded | src/widgets/dprintpreviewdialog.cpp:1797-1841 | every page a scan gathers lies between 0 and totalPages |
| PageRange.AcceptedPagesBounded | src/widgets/dprintpreviewdialog.cpp:1783-1851 | every page of an accepted text lies between 0 and totalPages |
| PageRange.Insert | src/widgets/dprintpreviewdialog.cpp:1422 | inserting into a sorted list adds exactly the one value (as a multiset) |
| PageRange.InsertMembers | src/widgets/dprintpreviewdialog.cpp:1422 | the members after insertion are the old members and the new value |
| PageRange.ConsSorted | src/widgets/dprintpreviewdialog.cpp:1422 | a head no larger than every element of a sorted tail gives a sorted list |
| PageRange.ConsAscending | src/widgets/dprintpreviewdialog.cpp:1413-1425 | a head smaller than every element of a strictly ascending tail gives a strictly ascending list |
| PageRange.InsertSorted | src/widgets/dprintpreviewdialog.cpp:1422 | insertion keeps a list sorted |
| PageRange.InsertAscending | src/widgets/dprintpreviewdialog.cpp:1413-1425 | inserting a new value keeps a list strictly ascending |
| PageRange.Sort | src/widgets/dprintpreviewdialog.cpp:1422 | qSort returns a sorted permutation of its input, strictly ascending when the input has no duplicates |
| PageRange.CheckDuplication | src/widgets/dprintpreviewdialog.cpp:1413-1425 | the result is strictly ascending and holds exactly the input's values |
| PageRange.AscendingListingUnique | src/widgets/dprintpreviewdialog.cpp:1413-1425 | two strictly ascending lists with the same members are equal, so the result of checkDuplication is determined by the input's set of pages |
| PrintPreview.RaiseTo | src/widgets/dprintpreviewdialog.cpp:1316-1323 | a raised margin is at least the old value and the minimum, and is one of them |
| PrintPreview.ClampFixedPoint | src/widgets/dprintpreviewdialog.cpp:1314-1324 | clamped margins respect the minimum, and clamping changes nothing iff the margins already respect it |
| PrintPreview.ClampIdempotent | src/widgets/dprintpreviewdialog.cpp:1314-1324 | clamping twice is clamping once |
| PrintPreview.MarginPreset | src/widgets/dprintpreviewdialog.cpp:1690-1715 | index 1 gives Normal (31.8 / 25.4 mm), index 2 gives Moderate (19.1 / 25.4 mm), any other index gives the printer's minimum margins |
| PrintPreview.MinimumPresetIsLegal | src/widgets/dprintpreviewdialog.cpp:1703-1715 | the minimum preset is never moved by the minimum clamp |
| PrintPreview.RememberAsWritten | src/widgets/dprintpreviewdialog.cpp:1725-1728 | the remembered list is emptied only above four values, so it grows to eight |
| PrintPreview.RememberAsWrittenKeepsStaleValues | src/widgets/dprintpreviewdialog.cpp:1725-1728 | the dialog opens with the minimum margins remembered twice (eight values); choosing Normal clears the list to Normal's four, choosing Moderate then appends to eight with Normal in front, so Normal's margins (a clamp fixed point, unlike Moderate's) count as unchanged and typing them is not applied |
| PrintPreview.Remember | src/widgets/dprintpreviewdialog.cpp:1725-1728 | the corrected list holds exactly the four current margins, and the change check matches those margins and no others |
| PrintPreview.EditedMarginsReachPrinter | src/widgets/dprintpreviewdialog.cpp:1857-1873 | for any earlier history, once the applied margins are remembered, edited margins count as unchanged iff they equal those applied margins |
| PrintPreview.TurnPageOnAPage | src/widgets/dprintpreviewdialog.cpp:1446-1476 | on a page 1..total, first and previous are enabled iff cur > 1, and next and last iff cur < total |
| PrintPreview.TurnPageOutsideDocument | src/widgets/dprintpreviewdialog.cpp:1446-1476 | outside the document: page 1 enables only next and last; no pages (cur not 1) disables all; any other state leaves the buttons alone |
| PrintPreview.PaperSizeIsListedEntry | src/widgets/dprintpreviewdialog.cpp:1196-1227 | the printer gets the page size at the selected paper entry: the printer's own list for real printers, the fixed A3..16K list for the two file outputs |
| PrintPreview.DuplexIsSelectedEntry | src/widgets/dprintpreviewdialog.cpp:1228-1247 | with two-sided printing checked the printer gets the duplex mode of the selected entry of the combo filled for its supported modes; unchecked it gets DuplexNone |
| PrintPreview.PrintPreviewDialog.constructor | src/widgets/dprintpreviewdialog.cpp:896-922 | a new dialog shows all pages, has Print enabled and no alert, has the jump spin box at its default 0, an empty total-page label and every turn-page button disabled, and starts from the printer's minimum margins |
| PrintPreview.PrintPreviewDialog.SetPageIsLegal | src/widgets/dprintpreviewdialog.cpp:1387-1391 | Print is enabled and the alert cleared iff the range is legal; nothing else changes |
| PrintPreview.PrintPreviewDialog.PageRangeError | src/widgets/dprintpreviewdialog.cpp:2233-2239 | an error disables Print, raises the alert, shows the tip only if the edit had focus, and clears the focus mark |
| PrintPreview.PrintPreviewDialog.ReadForward | src/widgets/dprintpreviewdialog.cpp:1804-1811 | the forward page loop appends a..b, or stops with MaxTip iff a is 0 or b exceeds totalPages |
| PrintPreview.PrintPreviewDialog.ReadAll | src/widgets/dprintpreviewdialog.cpp:1828-1830 | the rewritten-range page loop appends exactly lo..hi |
| PrintPreview.PrintPreviewDialog.ReadToken | src/widgets/dprintpreviewdialog.cpp:1799-1840 | reading one token gives exactly the pages, rewritten token and error of the token's specification |
| PrintPreview.PrintPreviewDialog.ReadPageList | src/widgets/dprintpreviewdialog.cpp:1795-1841 | the comma split and the token loop leave the edit holding the rewritten tokens and returns the scan's pages or its first error |
| PrintPreview.PrintPreviewDialog.ScanList | src/widgets/dprintpreviewdialog.cpp:1797-1838 | the token loop returns the scanned list, each reversed range rewritten in its place and the tokens after a rejected one untouched, with the first rejection's tip, and the accepted pages when nothing is rejected |
| PrintPreview.PrintPreviewDialog.CustomPagesFinished | src/widgets/dprintpreviewdialog.cpp:1783-1852 | outside "Select pages" nothing changes; otherwise lastPageRange is recorded and either the preview gets a strictly ascending list with exactly the accepted pages, or the first error is reported and the preview keeps its pages |
| PrintPreview.PrintPreviewDialog.SetTurnPageBtnStatus | src/widgets/dprintpreviewdialog.cpp:1446-1476 | the buttons follow the case table for the current page and the count in the total label, and stay as they were where no case applies |
| PrintPreview.PrintPreviewDialog.PageRangeChanged | src/widgets/dprintpreviewdialog.cpp:1644-1676 | the combo index is stored and the edit emptied; all pages or the current page make the range legal and, with a loaded document, show the target count, put the whole document in the preview and (all pages) go to page 1; "Select pages" re-reads the last range as customPagesFinished does, is illegal without one, and an alerted edit is emptied; the turn-page buttons then follow their case table |
| PrintPreview.PrintPreviewDialog.WholeDocument | src/widgets/dprintpreviewdialog.cpp:1650-1660 | the all-pages and current-page branch: empty edit, Print enabled, no alert, and with a loaded document the target count, the whole document in the preview and page 1 for all pages |
| PrintPreview.PrintPreviewDialog.SelectPages | src/widgets/dprintpreviewdialog.cpp:1661-1674 | the select-pages branch: without a last range the edit is empty and illegal; otherwise the last range is re-read with customPagesFinished's outcome, and an alerted edit is emptied |
| PrintPreview.PrintPreviewDialog.SetMinimumMargins | src/widgets/dprintpreviewdialog.cpp:1314-1324 | each margin becomes the larger of itself and its minimum |
| PrintPreview.PrintPreviewDialog.PageMarginChanged | src/widgets/dprintpreviewdialog.cpp:1682-1729 | the spin boxes and the printer get the chosen preset and the preset is remembered; a page selection falls back to all pages through the page-range slot (empty edit, Print enabled, no alert, whole document in the preview at page 1, buttons refreshed), otherwise the page-range and turn-page state is unchanged |
| PrintPreview.PrintPreviewDialog.AdjustMargins | src/widgets/dprintpreviewdialog.cpp:1857-1873 | after the clamp the margins are applied and remembered iff they differ from the remembered ones, which (the list tracking the printer's margins before and after) means iff they differ from the printer's current margins; applied margins end a page selection through the page-range slot, with the same effects as a preset; otherwise the page-range and turn-page state is unchanged |
| Flow.Place | src/widgets/dflowlayout.cpp:72-76 | an item's geometry has exactly its size hint |
| Flow.Run | src/widgets/dflowlayout.cpp:55-150 | the line height (or width) and the widest line so far are never negative, and with non-negative spacing the lines only move away from the starting edge: a horizontal flow stays at or below the area's top, a vertical flow at or past its starting side |
| Flow.Rects | src/widgets/dflowlayout.cpp:96-97 | one rectangle per item, each of exactly that item's size hint |
| Flow.Hints | src/widgets/dflowlayout.cpp:85-86 | the size hints of the items, in order |
| Flow.RectAt | src/widgets/dflowlayout.cpp:85-101 | the k-th rectangle is placed where the cursor stands after the first k items |
| Flow.LineBreaking | src/widgets/dflowlayout.cpp:85-101 | left to right, an item that does not wrap sits horizontalSpacing after its predecessor on the same line and ends inside the edge unless it opens the line; it wraps only on a non-empty line past the right edge, and then starts at the left edge one line height plus verticalSpacing down |
| Flow.FirstItemAtCorner | src/widgets/dflowlayout.cpp:48-51 | the first item goes to the top-left corner of the effective rectangle |
| Flow.NoWrapNoWidth | src/widgets/dflowlayout.cpp:87-89 | a left-to-right pass that never wraps reports width 0 |
| Flow.LineHeightCoversItems | src/widgets/dflowlayout.cpp:99-103 | the last line height covers the last item, which lies on the last line |
| Flow.MinimumOfIsMaximum | src/widgets/dflowlayout.cpp:420-423 | the expanded size bounds every item's minimum size and is attained by one of them in each dimension, or stays -1 |
| Flow.FlowLayout.constructor | src/widgets/dflowlayout.cpp:181-193 | a new layout has no items, flows left to right and has the given spacings |
| Flow.FlowLayout.Count | src/widgets/dflowlayout.cpp:403-406 | the count is the number of items |
| Flow.FlowLayout.Arrange | src/widgets/dflowlayout.cpp:55-150 | the pass for the flow and direction gives the specified cursor and rectangles |
| Flow.FlowLayout.ArrangeLeftToRight | src/widgets/dflowlayout.cpp:85-103 | the left-to-right loop gives the specified cursor and rectangles |
| Flow.FlowLayout.ArrangeLeftToRightMirrored | src/widgets/dflowlayout.cpp:60-83 | the right-to-left row loop gives the specified cursor and rectangles |
| Flow.FlowLayout.ArrangeTopToBottom | src/widgets/dflowlayout.cpp:130-148 | the top-to-bottom loop gives the specified cursor and rectangles |
| Flow.FlowLayout.ArrangeTopToBottomMirrored | src/widgets/dflowlayout.cpp:110-128 | the right-to-left column loop gives the specified cursor and rectangles |
| Flow.FlowLayout.DoLayout | src/widgets/dflowlayout.cpp:32-160 | a test pass with no width, or a real pass without a visible parent, reports an empty size; otherwise the size of the items' placement; only a real pass sets item geometry and the cached hint, signalling only a change |
| Flow.FlowLayout.HeightForWidth | src/widgets/dflowlayout.cpp:386-397 | the parent's own width gives the cached height; any other width gives the height of a test pass, changing nothing |
| Flow.FlowLayout.SetGeometry | src/widgets/dflowlayout.cpp:433-440 | the same geometry does nothing; a new one keeps its top-left corner; without a visible parent its size is -1 by -1 and the items, cached hint and signals are unchanged; otherwise each item gets its placement rectangle, the size is the reported one, the cached hint becomes it, and a signal is emitted only when the hint changed |
| Flow.FlowLayout.MinimumSize | src/widgets/dflowlayout.cpp:416-428 | the componentwise largest of the items' minimum sizes and QSize()'s -1 by -1, widened by twice the margin: at least each item's minimum and -1, and equal to one of them |
| Flow.FlowLayout.InsertItem | src/widgets/dflowlayout.cpp:215-220 | the item goes in at the index and the new count is signalled |
| Flow.FlowLayout.AddItem | src/widgets/dflowlayout.cpp:362-365 | the item is appended and the new count is signalled |
| Flow.FlowLayout.TakeAt | src/widgets/dflowlayout.cpp:454-473 | an index outside the list returns nothing and changes nothing; otherwise exactly that item is removed and returned |
| Flow.FlowLayout.SetHorizontalSpacing | src/widgets/dflowlayout.cpp:521-533 | the spacing is stored; a new value is signalled and invalidates, the same value emits nothing |
| Flow.FlowLayout.SetVerticalSpacing | src/widgets/dflowlayout.cpp:541-553 | the same, for the vertical spacing |
| Flow.FlowLayout.SetFlow | src/widgets/dflowlayout.cpp:573-584 | the same, for the flow direction |
| Stacks.IndexOf | src/widgets/dstackwidget.cpp:399-404 | the first position holding the widget, or -1 exactly when it is not on the stack |
| Stacks.WidgetByIndexOf | src/widgets/dstackwidget.cpp:399-416 | getWidgetByIndex(indexOf(w)) == w for every widget on the stack |
| Stacks.SetIndex | src/widgets/dstackwidget.cpp:141-158 | an index in the list selects that widget, any other gives -1 and no widget; the index and widget stay coherent and the lists do not change |
| Stacks.SetIndexAgreement | src/widgets/dstackwidget.cpp:143-144 | on a coherent stack the early return of the setter as written makes no difference |
| Stacks.PushMakesTopCurrent | src/widgets/dstackwidget.cpp:306-311 | pushing grows the stack by one, with the pushed widget on top and current |
| Stacks.InsertBelowTopKeepsCurrent | src/widgets/dstackwidget.cpp:327-333 | inserting below the top keeps the current widget, at its new position |
| Stacks.DiscardedMembers | src/widgets/dstackwidget.cpp:361-365 | the widgets deleted by the loop are exactly the popped ones other than the current one |
| Stacks.PopOutsideDoesNothing | src/widgets/dstackwidget.cpp:351-354 | a start index outside the stack makes popWidget change nothing |
| Stacks.RemoveRunKeeps | src/widgets/dstackwidget.cpp:358-368 | the removal loop keeps the widgets around the run, the current index and the earlier deletions |
| Stacks.RemoveRunDeletes | src/widgets/dstackwidget.cpp:361-365 | with isDelete, every popped widget other than the current one is deleted |
| Stacks.PopEffect | src/widgets/dstackwidget.cpp:347-380 | popWidget removes exactly the count widgets at the start index, leaves the top current (or -1 on an empty stack), keeps earlier deletions and, with isDelete, deletes the popped widgets other than the current one |
| Stacks.PopDisposesCurrent | src/widgets/dstackwidget.cpp:370-377 | with isDelete, a popped current widget goes to the trash when a transition runs over a stack that keeps widgets, and is otherwise deleted and cleared; a current widget not popped, or not deleted, stays current until the new top is selected |
| Stacks.PopAgreesWhenCurrentOnTop | src/widgets/dstackwidget.cpp:379 | with the current widget on top, popWidget as written and corrected agree |
| Stacks.PopAsWrittenLosesCurrent | src/widgets/dstackwidget.cpp:141-144 | on [1, 2] with 1 current, popping 1 as written leaves index 0 with no widget; the corrected pop makes 2 current |
| Stacks.Cleared | src/widgets/dstackwidget.cpp:385-392 | clear deletes every widget and leaves depth 0, index -1 and no widget |
| Stacks.OperationsKeepCoherent | src/widgets/dstackwidget.cpp:141-392 | set-index, insert, push, pop and clear all keep the index and widget coherent |
| Stacks.StackWidget.constructor | src/widgets/dstackwidget.cpp:131-139 | a new stack is empty with index -1 and no widget |
| Stacks.StackWidget.Depth | src/widgets/dstackwidget.cpp:217-222 | the depth is the list length |
| Stacks.StackWidget.IndexOfWidget | src/widgets/dstackwidget.cpp:399-404 | a listed widget has an index that getWidgetByIndex maps back to it; -1 iff unlisted |
| Stacks.StackWidget.SetIndexPrivate | src/widgets/dstackwidget.cpp:141-158 | the new state is the corrected setter's |
| Stacks.StackWidget.SetCurrentIndex | src/widgets/dstackwidget.cpp:476-504 | without a transition, the new state is the setter's |
| Stacks.StackWidget.InsertWidget | src/widgets/dstackwidget.cpp:323-334 | the new state is Insert's |
| Stacks.StackWidget.PushWidget | src/widgets/dstackwidget.cpp:306-311 | the new state is Push's and the returned index is the pushed widget's, now current |
| Stacks.StackWidget.PopWidget | src/widgets/dstackwidget.cpp:347-380 | the new state is the corrected Pop's |
| Stacks.StackWidget.RemoveWidgets | src/widgets/dstackwidget.cpp:358-368 | the run leaves the list and, when deletion is asked for, every widget of it but the current one is deleted; nothing else changes, and the result says whether the run held the current widget |
| Stacks.StackWidget.TakeRun | src/widgets/dstackwidget.cpp:358-368 | taking `count` widgets at `i` leaves the list without that run, reports whether it held the current widget, and gives the rest of the run for deletion when asked |
| Stacks.StackWidget.DisposeRemoved | src/widgets/dstackwidget.cpp:370-377 | a removed current widget, when deletion is asked for, goes to the trash during a transition over a non-empty stack and is deleted otherwise; in every other case nothing changes |
| Stacks.PopInside | src/widgets/dstackwidget.cpp:356-379 | the removal loop, the disposal of the current widget and the selection of the new top together give the corrected Pop |
| Stacks.StackWidget.Clear | src/widgets/dstackwidget.cpp:385-392 | the new state is Cleared's |
| Stacks.StackWidget.TransitionFinished | src/widgets/dstackwidget.cpp:435-438 | the trash is emptied into the deleted widgets |
| Titlebar.ButtonsStateRules | src/widgets/dtitlebar.cpp:351-393 | min and max hide without DXcb, in embed mode or fullscreen, and otherwise follow the hints (max also needs resize); close ignores embed mode and fullscreen; quit shows only in fullscreen; no button shows without DXcb |
| Titlebar.HideThenShowRestoresTitle | src/widgets/dtitlebar.cpp:363-371 | hiding and then showing the title restores its text; showing twice is showing once |
| Titlebar.HidingTwiceLosesTitle | src/widgets/dtitlebar.cpp:367-369 | hiding twice saves the cleared label, so showing restores an empty title |
| Titlebar.FullscreenRoundTrip | src/widgets/dtitlebar.cpp:297-319 | showing after hiding restores a visible bar's height; hiding twice is hiding once; hide leaves height 0; show leaves the bar visible and is a no-op on a visible bar |
| Titlebar.ToggleWindowStateRules | src/widgets/dtitlebar.cpp:464-478 | with maximising allowed and shown, the toggle flips maximised outside fullscreen and toggling twice from any window neither maximised nor fullscreen ends in the normal state; a disabled maximise or non-maximised fullscreen is left alone; maximised always goes normal |
| Titlebar.SetFlag | src/widgets/dtitlebar.cpp:521-523 | QFlags::setFlag sets the one bit as asked and keeps the rest |
| Titlebar.SyncedFlags | src/widgets/dtitlebar.cpp:515-523 | each min/max/close bit of disableFlags is set iff that button is disabled; other bits are kept |
| Titlebar.NoMaximizeWithoutResize | src/widgets/dtitlebar.cpp:516-517 | once the window manager withholds maximise or resize, the toggle changes nothing |
| Titlebar.CenterAreaBetweenPaddings | src/widgets/dtitlebar.cpp:427-439 | the centre area is as wide as the bar less twice the wider side, leaves exactly that padding on both sides, and is as tall as the bar |
| Titlebar.SizeHint | src/widgets/dtitlebar.cpp:1395-1407 | unless the centre is hidden the hint is 50 high, and its width less twice the wider side hint is the centre hint plus twice the spacing |
| Titlebar.HintedWidthFitsCenter | src/widgets/dtitlebar.cpp:1395-1407 | at its hinted width the centre area is as wide as the centre hint plus twice the spacing |
| Titlebar.FocusableMembers | src/widgets/dtitlebar.cpp:661-666 | a widget is collected iff its layout holds it with tab focus |
| Titlebar.ChainReachesAll | src/widgets/dtitlebar.cpp:674-677 | the chain's links reach every collected widget in order |
| Titlebar.FocusOrderMembers | src/widgets/dtitlebar.cpp:656-667 | a widget is in the tab order iff one of the left, centre and right layouts collects it |
| Titlebar.TitleBar.constructor | src/widgets/dtitlebar.cpp:142-288 | init ends with setEmbedMode(!isDXcbPlatform): embed mode is on exactly off the DXcb platform, and the updateButtonsState it runs leaves the title label empty (the application name is saved unless the title is shown, when the empty saved title is shown instead) and the buttons by the visibility rules; the bar has the default height 50, empty layouts and no disable flags |
| Titlebar.TitleBar.UpdateButtonsState | src/widgets/dtitlebar.cpp:351-399 | the title follows the title hint outside embed mode and the buttons follow the visibility rules, with fullscreen read from the bar's window state; the quit button is left alone in the tablet environment; every other field is unchanged |
| Titlebar.TitleBar.OnMotifHintsChanged | src/widgets/dtitlebar.cpp:492-529 | without DXcb the bar changes nothing; with it, the title label visibility follows the decoration (when there is a label), the title and all four buttons are recomputed as updateButtonsState does, their enabled state follows the Motif functions, disableFlags is synced to it, and every other field is unchanged |
| Titlebar.TitleBar.ApplyMotifHints | src/widgets/dtitlebar.cpp:506-529 | the DXcb branch of the handler: label visibility, title, buttons, enabled state and disableFlags as above, every other field unchanged |
| Titlebar.TitleBar.ButtonsUpdate | src/widgets/dtitlebar.cpp:351-399 | the title follows the title hint outside embed mode; the buttons are the visibility rules' state, keeping the old quit button in the tablet environment |
| Titlebar.TitleBar.SyncButtonFlags | src/widgets/dtitlebar.cpp:519-523 | the three setFlag calls yield the synced flags: each button bit set iff that button is disabled |
| Titlebar.TitleBar.ToggleWindowState | src/widgets/dtitlebar.cpp:464-478 | the window state becomes the toggle's, unchanged when maximising is disabled; every other field is unchanged |
| Titlebar.TitleBar.HideOnFullscreen | src/widgets/dtitlebar.cpp:303-310 | the bar is hidden (height 0), remembering a positive height; it is hidden afterwards iff it had height or was already hidden; only the bar's height and remembered height change |
| Titlebar.TitleBar.ShowOnFullscreen | src/widgets/dtitlebar.cpp:312-319 | the remembered height is restored and the bar counts as visible; only the bar's height and remembered height change |
| Titlebar.TitleBar.UpdateCenterArea | src/widgets/dtitlebar.cpp:427-439 | a shown centre area gets the geometry between the paddings; a hidden one is left alone; only the centre geometry changes |
| Titlebar.TitleBar.AppendItem | src/widgets/dtitlebar.cpp:1005-1013 | the layout step of addWidget: the item goes to exactly one layout by the alignment rules, a tab-focusable widget joins the focus order, and the tab links and every other field are unchanged |
| Titlebar.TitleBar.AddWidget | src/widgets/dtitlebar.cpp:1001-1017 | a left alignment (winning over right) appends to the left layout without its left bit, a right one to the right layout without its right bit, anything else to the centre, dropping the title label; the tab order is rebuilt and reaches a tab-focusable widget; title settings, buttons, window, bar and centre geometry are unchanged |
| Titlebar.TitleBar.UpdateTabOrder | src/widgets/dtitlebar.cpp:647-678 | the bar is chained to the first tab-focusable widget of left, centre and right, and each to the next; nothing is set when there are none; only the tab links change |
| Titlebar.TitleBar.CollectFocusable | src/widgets/dtitlebar.cpp:651-667 | the nested loops collect exactly the tab-focusable widgets, layout after layout |
| Titlebar.TitleBar.ChainTabOrder | src/widgets/dtitlebar.cpp:674-677 | the setTabOrder calls form the chain from the bar through every widget |
| ItemDelegate.Int8 | src/widgets/dstyleditemdelegate.cpp:60-61 | storing in a qint8 keeps values in -128..127 unchanged and agrees with any value modulo 256 |
| ItemDelegate.ViewItemAction.constructor | src/widgets/dstyleditemdelegate.cpp:60-61 | a new action has neither a colour type nor a colour role |
| ItemDelegate.ViewItemAction.SetTextColorType | src/widgets/dstyleditemdelegate.cpp:552-558 | setting a DPalette type stores it and clears the role, so a type and a role are never both in effect |
| ItemDelegate.ViewItemAction.SetTextColorRole | src/widgets/dstyleditemdelegate.cpp:564-570 | setting a QPalette role stores it and clears the type, so a type and a role are never both in effect |
| ItemDelegate.ActionSizeRules | src/widgets/dstyleditemdelegate.cpp:74-102 | a widget action takes the widget's size; an empty text gives the icon size bounded by the maximum, a negative maximum meaning unbounded; with text the spacing is dropped for an invalid icon |
| ItemDelegate.LaneOf | src/widgets/dstyleditemdelegate.cpp:159-181 | every action joins one of three alignment lanes |
| ItemDelegate.Sizes | src/widgets/dstyleditemdelegate.cpp:159-165 | one action size per action, in order |
| ItemDelegate.Place | src/widgets/dstyleditemdelegate.cpp:165-181 | the placement loop gives one rectangle per action and keeps three lanes |
| ItemDelegate.PlacePrefix | src/widgets/dstyleditemdelegate.cpp:165-181 | each action's rectangle does not depend on the actions after it |
| ItemDelegate.MaxBottomBounds | src/widgets/dstyleditemdelegate.cpp:176-180 | the reach is at least the start and every rectangle's reach, and equals one of them |
| ItemDelegate.DoActionsLayout | src/widgets/dstyleditemdelegate.cpp:120-235 | no actions give no rectangles and a 0x0 bounding size; otherwise one rectangle per action, the placed ones, and the bounding size from the lane sums (qBound(max(top, centre), bottom, base) plus the spacings) and the reach |
| ItemDelegate.MeasureActions | src/widgets/dstyleditemdelegate.cpp:140-157 | the first loop gives every action's size and the summed extent of each lane |
| ItemDelegate.PlaceActions | src/widgets/dstyleditemdelegate.cpp:159-181 | the second loop gives the placed rectangles and their reach |
| ItemDelegate.PlaceOne | src/widgets/dstyleditemdelegate.cpp:166-180 | one pass of the second loop extends the placement of the first `i` actions to the first `i + 1`, and the reach to their rectangles |
| ItemDelegate.ActionPositionRoleInverse | src/widgets/dstyleditemdelegate.cpp:1165-1181 | the four edges map one-to-one onto the four action-list roles, and any other edge maps to the left role |
| ItemDelegate.FirstHit | src/widgets/dstyleditemdelegate.cpp:1138-1147 | the first enabled clickable entry containing the point, or none iff no entry is hit |
| ItemDelegate.ClickRules | src/widgets/dstyleditemdelegate.cpp:1128-1163 | a press then a release at the same point triggers the hit action; a hit consumes the event; a press clears the pressed action; a miss passes through |
| ItemDelegate.UpdatedClickable | src/widgets/dstyleditemdelegate.cpp:768-772 | the item's entry is the list iff the list is non-empty, and other entries are kept |
| ItemDelegate.UpdatedClickableKeepsNoEmpty | src/widgets/dstyleditemdelegate.cpp:768-772 | painting never leaves an item with an empty clickable list |
| ItemDelegate.BackgroundMargins | src/widgets/dstyleditemdelegate.cpp:1040-1050 | no background gives zero margins; any other gives the frame radius on all four sides |
| ItemDelegate.StyledItemDelegate.constructor | src/widgets/dstyleditemdelegate.cpp:690-699 | a new delegate has the rounded background with frame-radius margins and an empty clickable map |
| ItemDelegate.StyledItemDelegate.SetBackgroundType | src/widgets/dstyleditemdelegate.cpp:1031-1051 | the same type changes nothing; a new type is stored with its margins |
| ItemDelegate.StyledItemDelegate.UpdateClickable | src/widgets/dstyleditemdelegate.cpp:768-772 | the map is updated as specified and stays free of empty lists |
| ItemDelegate.StyledItemDelegate.EventFilter | src/widgets/dstyleditemdelegate.cpp:1128-1163 | the outcome, the pressed action and the triggered actions follow the click state machine over the item's clickable entries |

## Left out

- Widget construction, painting, palettes, fonts, translations and
  animations are not modelled. They draw or assemble widgets and decide
  nothing the model states. Signal connections are modelled where a slot
  changes modelled state: a page-range combo change runs
  PrintPreview.PrintPreviewDialog.PageRangeChanged.
- Emitted signals appear only in the flow layout, as an event list. Elsewhere
  they are left out.
- Printer, CUPS and window-manager queries are inputs:
  - the supported page sizes and duplex modes;
  - the minimum margins;
  - DXcb;
  - Motif functions and decorations;
  - the tablet environment;
  - the target window's flags (its minimised, maximised and fullscreen
    state is the title bar's `window` field).
- Font metrics, `QStyle::alignedRect` and pixel metrics are parameters of the
  delegate functions. The bounding size pointer of `doActionsLayout` is
  always non-null.
- `QString::toInt` is modelled for strings of ASCII digits only. The
  line-edit validator (src/widgets/dprintpreviewdialog.cpp:335) admits
  nothing else in the page-range text. Values above INT_MAX fail, as in Qt.
- PageRange.ReversedRange: a reversed range such as `3-0` is accepted with page
  0, because line 1824 checks only the upper ends. It is modelled as written.
  It is not a finding: the validator rules out a leading 0.
- Margins are `real` and compared exactly. `qFuzzyCompare` and spin-box
  rounding are not modelled.
- `_q_marginEditFinished` (restoring a spin box's default on empty text, and
  the focus check before `adjustMargins`) is user-interface plumbing and is
  not modelled.
- Watermark, colour, scaling, output naming and printing in the print preview
  are not part of this model.
- PrintPreview.PrintPreviewDialog.PageRangeChanged: the preview widget is not
  part of this model. Its page counts (`targetPageCount`, `originPageCount`)
  are inputs, `setPageRange(1, n)` is modelled as the preview receiving the
  pages 1..n, and `setCurrentPage(1)` as the jump page becoming 1 through the
  preview's page-changed signal. The dialog is taken as initialised (the
  call during construction is folded into the constructor). The placeholder
  text and the edit's enabled state are not modelled.
- PrintPreview.PrintPreviewDialog.PageMarginChanged and AdjustMargins use the
  corrected margin bookkeeping (see Findings). They do not model the stale
  list as written.
- Stacks.StackWidget.SetCurrentIndex: the slide transition, hiding and
  showing of the widgets, and the signals are not modelled. It is modelled
  without a transition.
- Stacks.StackWidget.PopWidget: a popped run must end inside the list, as
  the unchecked `widgetList[i]` demands. The transition is only a flag that
  routes the current widget to the trash.
- Stacks: deferred `deleteLater` is modelled as an append to a list of
  deleted widgets.
- Titlebar.TitleBar.UpdateButtonsState: `forceShow` is false on every
  platform, so it is dropped. The null-window check becomes the
  `allowResize` input.
- Titlebar.TitleBar.OnMotifHintsChanged: without DXcb the handler returns
  with no change, as modelled; the disconnection of later events it also
  does there is left out, and so is the window-id check (the call models an
  event for this bar's own window).
- Titlebar.CenterAreaBetweenPaddings: stated only for non-negative side
  widths and a centre of at least one pixel, because QRect::center is not
  symmetric for empty rectangles.
- Titlebar: the menus, the blur widget, and the mouse and window events are
  left out.
- Titlebar.TitleBar.ToggleWindowState: the maximise button's `isVisible` is
  read as the visibility last set by updateButtonsState, without its
  parents' visibility.
- ItemDelegate.BackgroundType: the header's enum values are not part of this
  model, so the type is a kind plus the NoNormalState bit rather than a bit
  mask.
- ItemDelegate.ActionSizeRules: an invalid icon keeps its -1 width in the
  text case, as written; drawAction compensates for it.
- ItemDelegate.DoActionsLayout: in the vertical orientation the reported
  width stays 0, as written.
- The flow layout's `itemAt`, `expandingDirections` and `sizeHint` getters
  are plain reads of the modelled state. `hasHeightForWidth` is the predicate
  `Flow.FlowLayout.HasHeightForWidth`.
- Flow.FlowLayout.DoLayout and Flow.FlowLayout.HeightForWidth: a test pass
  with a positive width requires a parent widget, because dflowlayout.cpp:48
  reads `parentWidget()->layoutDirection()` with no null check (the real
  pass checks for a parent first, the test pass does not). A call of
  heightForWidth with a positive width on a layout without a parent widget
  dereferences null in the source and is not modelled.
- PrintPreview.PrintPreviewDialog.constructor: the jump spin box's initial
  0 is the default of a Qt spin box; DSpinBox is not part of this model.
- Titlebar.TitleBar.constructor: the bar's window flags, the DXcb platform
  and window checks, the resize permission and the tablet environment at
  construction are inputs; the top separator's visibility is not modelled.
- Flow.FlowLayout.constructor: the spacings and contents margins are
  parameters; the header's defaults are not part of this model.
- Integer overflow of C++ `int` is not modelled anywhere; all widget
  coordinates are unbounded integers.

## Findings

| source | as written | input that shows it | evidently intended | confidence | as-written member | corrected member |
|---|---|---|---|---|---|---|
| src/widgets/dstackwidget.cpp:141-144 | the private setCurrentIndex returns early whenever the index equals the current index, even though the list shifted under it | list [A, B], setCurrentIndex(0), then popWidget(A, true, 1, false): the index stays 0 but the current widget is cleared, so B is on top with no current widget | the setter compares the target widget too, so the new top becomes current | high (not executed) | Stacks.PopAsWrittenLosesCurrent | Stacks.Pop |
| src/widgets/dprintpreviewdialog.cpp:1725-1728 | the remembered margins are cleared only above four values, so after a clear the next preset change appends and leaves the previous preset's values in front | open the dialog (the minimum preset is remembered twice, at dprintpreviewdialog.cpp:912 and through :913, :1634 and :1338, so eight values), choose Normal (cleared to Normal's four values), choose Moderate (appended: eight values with Normal's first, the printer holding Moderate), then type Normal's margins: adjustMargins compares against Normal's stale values and does not apply them | keep only the current four values (clear at four or more) | medium (not executed) | PrintPreview.RememberAsWrittenKeepsStaleValues | PrintPreview.EditedMarginsReachPrinter |

=== FILE: basics.dfy ===
/** Shared vocabulary of the widget models: optional values, the integer
    helpers Qt uses (qMax, qMin, qBound, C++ truncating division) and the
    value types QSize and QRect. */
module Basics {

  datatype Option<T> = None | Some(value: T)

  function Max(a: int, b: int): int { if a >= b then a else b }

  function Min(a: int, b: int): int { if a <= b then a else b }

  /** qBound(lo, v, hi) is qMax(lo, qMin(hi, v)). */
  function QBound(lo: int, v: int, hi: int): int { Max(lo, Min(hi, v)) }

  /** C++ integer division, which truncates toward zero (Dafny's `/` is Euclidean). */
  function CDiv(a: int, b: int): (q: int)
    requires b > 0
    ensures var r := a - q * b; (a >= 0 ==> 0 <= r < b) && (a < 0 ==> -b < r <= 0)
  {
    if a >= 0 then a / b else -((-a) / b)
  }

  /** QWIDGETSIZE_MAX, the largest widget extent Qt allows. */
  const WidgetSizeMax: int := 16777215

  /** QSize. A default-constructed QSize is (-1, -1) and is not valid. */
  datatype Size = Size(w: int, h: int) {
    predicate IsValid() { w >= 0 && h >= 0 }
    predicate IsNull() { w == 0 && h == 0 }
    function BoundedTo(o: Size): Size { Size(Min(w, o.w), Min(h, o.h)) }
    function ExpandedTo(o: Size): Size { Size(Max(w, o.w), Max(h, o.h)) }
  }

  const InvalidSize: Size := Size(-1, -1)

  /** QRect as (x, y, width, height); right() and bottom() are inclusive. */
  datatype Rect = Rect(x: int, y: int, w: int, h: int) {
    function Right(): int { x + w - 1 }
    function Bottom(): int { y + h - 1 }
    /** QRect::adjusted(dx1, dy1, dx2, dy2) moves each edge independently. */
    function Adjusted(dx1: int, dy1: int, dx2: int, dy2: int): Rect {
      Rect(x + dx1, y + dy1, w - dx1 + dx2, h - dy1 + dy2)
    }
    /** QRect::setLeft keeps the right edge where it is. */
    function SetLeft(l: int): Rect { Rect(l, y, Right() - l + 1, h) }
    /** QRect::setTop keeps the bottom edge where it is. */
    function SetTop(t: int): Rect { Rect(x, t, w, Bottom() - t + 1) }
  }
}

=== FILE: flow_layout.dfy ===
/** DFlowLayout: a layout that places its items one after another along
    a line (left to right, or top to bottom) and starts a new line when the
    next item would cross the edge of the available area. Items are values
    owned by the layout; laying out assigns each its geometry. */
module Flow {
  import opened Basics

  /** DFlowLayout::Flow. */
  datatype Direction = LeftToRight | TopToBottom

  /** The flow together with the parent widget's layout direction. */
  datatype Mode = Mode(flow: Direction, rightToLeft: bool)

  datatype LayoutItem = LayoutItem(sizeHint: Size, minimumSize: Size, geometry: Rect)

  /** What the layout needs to know about its parent widget. */
  datatype Parent = Parent(hidden: bool, rightToLeft: bool, width: int)

  datatype ContentsMargins = ContentsMargins(left: int, top: int, right: int, bottom: int)

  /** Signals emitted by the layout, and calls to invalidate(). */
  datatype Event =
    | CountChanged(count: int)
    | HorizontalSpacingChanged(spacing: int)
    | VerticalSpacingChanged(spacing: int)
    | FlowChanged(flow: Direction)
    | SizeHintChanged(size: Size)
    | Invalidated

  /** The area items are placed in and the spacings between them. */
  datatype Area = Area(eff: Rect, hs: int, vs: int)

  /** The running state of a layout pass: the position of the next item,
      the extent of the current line across the flow (its height for a
      left-to-right flow, its width for a top-to-bottom one) and the largest
      position reached along the flow when a line was broken. */
  datatype Cursor = Cursor(x: int, y: int, line: int, extent: int)

  function Start(m: Mode, a: Area): Cursor
  {
    Cursor(if m.rightToLeft then a.eff.Right() else a.eff.x, a.eff.y, 0, 0)
  }

  /** Whether an item of size `s` starts a new line: it would cross the edge
      of the area and the current line already holds something. */
  predicate Wraps(m: Mode, a: Area, c: Cursor, s: Size)
  {
    c.line > 0 &&
    match m
      case Mode(LeftToRight, false) => c.x + s.w + a.hs - a.hs > a.eff.Right()
      case Mode(LeftToRight, true) => c.x - s.w - a.hs + a.hs < a.eff.x
      case Mode(TopToBottom, _) => c.y + s.h + a.vs - a.vs > a.eff.Bottom()
  }

  /** The cursor at which an item is placed: the current one, or the start
      of the next line. */
  function At(m: Mode, a: Area, c: Cursor, s: Size): Cursor
  {
    if !Wraps(m, a, c, s) then c
    else match m
      case Mode(LeftToRight, false) => Cursor(a.eff.x, c.y + c.line + a.vs, 0, Max(c.x, c.extent))
      case Mode(LeftToRight, true) => Cursor(a.eff.Right(), c.y + c.line + a.vs, 0, Max(a.eff.Right() - c.x, c.extent))
      case Mode(TopToBottom, false) => Cursor(c.x + c.line + a.hs, a.eff.y, 0, Max(c.y, c.extent))
      case Mode(TopToBottom, true) => Cursor(c.x - c.line - a.hs, a.eff.y, 0, Max(c.y, c.extent))
  }

  /** The geometry of an item placed at cursor `p`. Right to left, a
      horizontal flow puts the item's top-right corner at the cursor and a
      vertical flow puts its top-left corner one item width left of it. */
  function Place(m: Mode, p: Cursor, s: Size): (r: Rect)
    ensures r.w == s.w && r.h == s.h
  {
    match m
      case Mode(LeftToRight, false) => Rect(p.x, p.y, s.w, s.h)
      case Mode(LeftToRight, true) => Rect(p.x - s.w + 1, p.y, s.w, s.h)
      case Mode(TopToBottom, false) => Rect(p.x, p.y, s.w, s.h)
      case Mode(TopToBottom, true) => Rect(p.x - s.w, p.y, s.w, s.h)
  }

  /** The cursor after an item is placed. */
  function Next(m: Mode, a: Area, c: Cursor, s: Size): Cursor
  {
    var p := At(m, a, c, s);
    match m
      case Mode(LeftToRight, false) => Cursor(p.x + s.w + a.hs, p.y, Max(p.line, s.h), p.extent)
      case Mode(LeftToRight, true) => Cursor(p.x - s.w - a.hs, p.y, Max(p.line, s.h), p.extent)
      case Mode(TopToBottom, _) => Cursor(p.x, p.y + s.h + a.vs, Max(p.line, s.w), p.extent)
  }

  /** The cursor after the items of the given sizes are placed in order.
      Lines only move away from the edge where the pass starts: with
      non-negative spacing a horizontal flow never rises above the area's
      top, and a vertical flow never goes back past its starting side.
      Where each item lands is stated by RectAt and LineBreaking. */
  function Run(m: Mode, a: Area, sizes: seq<Size>): (c: Cursor)
    ensures c.line >= 0 && c.extent >= 0
    ensures m.flow == LeftToRight && a.vs >= 0 ==> c.y >= a.eff.y
    ensures m.flow == TopToBottom && !m.rightToLeft && a.hs >= 0 ==> c.x >= a.eff.x
    ensures m.flow == TopToBottom && m.rightToLeft && a.hs >= 0 ==> c.x <= a.eff.Right()
  {
    if |sizes| == 0 then Start(m, a)
    else Next(m, a, Run(m, a, sizes[..|sizes| - 1]), sizes[|sizes| - 1])
  }

  /** The geometry given to each item: one rectangle per item, in order,
      each of exactly the item's size hint. */
  function Rects(m: Mode, a: Area, sizes: seq<Size>): (r: seq<Rect>)
    ensures |r| == |sizes|
    ensures forall k :: 0 <= k < |r| ==> r[k].w == sizes[k].w && r[k].h == sizes[k].h
  {
    if |sizes| == 0 then []
    else
      var pre := sizes[..|sizes| - 1];
      var s := sizes[|sizes| - 1];
      Rects(m, a, pre) + [Place(m, At(m, a, Run(m, a, pre), s), s)]
  }

  /** The size a layout pass reports, from the final cursor. */
  function Reported(m: Mode, rect: Rect, cm: ContentsMargins, c: Cursor): Size
  {
    match m
      case Mode(LeftToRight, _) => Size(c.extent, c.y + c.line - rect.y + cm.bottom)
      case Mode(TopToBottom, false) => Size(c.x + c.line - rect.x + cm.right, c.extent)
      case Mode(TopToBottom, true) => Size(rect.Right() - c.x + c.line + cm.right + 1, c.extent)
  }

  function AreaOf(rect: Rect, cm: ContentsMargins, hs: int, vs: int): Area
  {
    Area(rect.Adjusted(cm.left, cm.top, -cm.right, -cm.bottom), hs, vs)
  }

  function Hints(items: seq<LayoutItem>): (r: seq<Size>)
    ensures |r| == |items| && forall k :: 0 <= k < |r| ==> r[k] == items[k].sizeHint
  {
    if |items| == 0 then [] else Hints(items[..|items| - 1]) + [items[|items| - 1].sizeHint]
  }

  // ---------------------------------------------------------------------
  // Properties of a left-to-right pass in a left-to-right widget

  const Ltr: Mode := Mode(LeftToRight, false)

  /** One step of a layout pass: the item at `i` is placed at the cursor
      the earlier items leave, and moves it on. */
  lemma StepRun(m: Mode, a: Area, sizes: seq<Size>, i: nat)
    requires i < |sizes|
    ensures Run(m, a, sizes[..i + 1]) == Next(m, a, Run(m, a, sizes[..i]), sizes[i])
    ensures Rects(m, a, sizes[..i + 1]) ==
            Rects(m, a, sizes[..i]) + [Place(m, At(m, a, Run(m, a, sizes[..i]), sizes[i]), sizes[i])]
  {
    assert sizes[..i + 1][..i] == sizes[..i];
  }

  /** The rectangle of item k is placed where the cursor stands after the
      first k items, moved to a new line if the item wraps. */
  lemma {:induction false} RectAt(m: Mode, a: Area, sizes: seq<Size>, k: nat)
    requires k < |sizes|
    ensures Rects(m, a, sizes)[k] == Place(m, At(m, a, Run(m, a, sizes[..k]), sizes[k]), sizes[k])
  {
    var n := |sizes| - 1;
    if k < n {
      RectAt(m, a, sizes[..n], k);
      assert sizes[..n][..k] == sizes[..k];
    } else {
      assert sizes[..n] == sizes[..k];
    }
  }

  /** Line breaking, left to right: the first item starts at the top-left
      corner of the area; an item that does not wrap follows the previous
      one on the same line exactly `hs` further right and ends before the
      right edge (or is the first of its line); an item wraps only when the
      line is not empty and it would end past the right edge, and then
      starts the next line at the left edge, one line height plus `vs` down. */
  lemma LineBreaking(a: Area, sizes: seq<Size>, k: nat)
    requires 0 < k < |sizes|
    ensures var r := Rects(Ltr, a, sizes);
            var c := Run(Ltr, a, sizes[..k]);
            && (!Wraps(Ltr, a, c, sizes[k]) ==>
                  r[k].x == r[k - 1].x + r[k - 1].w + a.hs && r[k].y == r[k - 1].y &&
                  (c.line == 0 || r[k].x + r[k].w <= a.eff.Right()))
            && (Wraps(Ltr, a, c, sizes[k]) ==>
                  c.line > 0 && r[k - 1].x + r[k - 1].w + a.hs + r[k].w > a.eff.Right() &&
                  r[k].x == a.eff.x && r[k].y == r[k - 1].y + c.line + a.vs)
  {
    RectAt(Ltr, a, sizes, k);
    RectAt(Ltr, a, sizes, k - 1);
    assert sizes[..k][..k - 1] == sizes[..k - 1];
    var c := Run(Ltr, a, sizes[..k]);
    var r := Rects(Ltr, a, sizes);
    if !Wraps(Ltr, a, c, sizes[k]) {
      assert r[k] == Rect(c.x, c.y, sizes[k].w, sizes[k].h);
      assert c.line == 0 || c.x + sizes[k].w <= a.eff.Right();
    }
  }

  /** The first item goes to the top-left corner of the area. */
  lemma FirstItemAtCorner(a: Area, sizes: seq<Size>)
    requires |sizes| > 0
    ensures Rects(Ltr, a, sizes)[0] == Rect(a.eff.x, a.eff.y, sizes[0].w, sizes[0].h)
  {
    RectAt(Ltr, a, sizes, 0);
  }

  /** The reported width is the largest x reached at a line break, so a
      pass that never breaks a line reports width 0. */
  lemma {:induction false} NoWrapNoWidth(a: Area, sizes: seq<Size>)
    requires forall k :: 0 <= k < |sizes| ==> !Wraps(Ltr, a, Run(Ltr, a, sizes[..k]), sizes[k])
    ensures Run(Ltr, a, sizes).extent == 0
  {
    if |sizes| > 0 {
      var n := |sizes| - 1;
      forall k | 0 <= k < n ensures !Wraps(Ltr, a, Run(Ltr, a, sizes[..n][..k]), sizes[..n][k]) {
        assert sizes[..n][..k] == sizes[..k];
      }
      NoWrapNoWidth(a, sizes[..n]);
    }
  }

  /** Every line height stays at least as large as the tallest item placed
      on the line so far. */
  lemma {:induction false} LineHeightCoversItems(a: Area, sizes: seq<Size>)
    requires |sizes| > 0
    ensures Run(Ltr, a, sizes).line >= sizes[|sizes| - 1].h
    ensures Run(Ltr, a, sizes).y == Rects(Ltr, a, sizes)[|sizes| - 1].y
  {
    RectAt(Ltr, a, sizes, |sizes| - 1);
    assert sizes[..|sizes| - 1] == sizes[..|sizes| - 1];
  }

  // ---------------------------------------------------------------------
  // minimumSize

  /** The component-wise maximum of the items' minimum sizes, starting from
      the invalid size (-1, -1). */
  function MinimumOf(items: seq<LayoutItem>): Size
  {
    if |items| == 0 then InvalidSize
    else MinimumOf(items[..|items| - 1]).ExpandedTo(items[|items| - 1].minimumSize)
  }

  /** MinimumOf bounds every item's minimum size and is attained by one of
      them in each dimension, or stays -1 there. */
  lemma {:induction false} MinimumOfIsMaximum(items: seq<LayoutItem>)
    ensures var s := MinimumOf(items);
            && (forall k :: 0 <= k < |items| ==> s.w >= items[k].minimumSize.w && s.h >= items[k].minimumSize.h)
            && (s.w == -1 || exists k :: 0 <= k < |items| && s.w == items[k].minimumSize.w)
            && (s.h == -1 || exists k :: 0 <= k < |items| && s.h == items[k].minimumSize.h)
            && s.w >= -1 && s.h >= -1
  {
    if |items| > 0 {
      var n := |items| - 1;
      MinimumOfIsMaximum(items[..n]);
      var s := MinimumOf(items[..n]);
      if s.w != -1 && s.w >= items[n].minimumSize.w {
        var k :| 0 <= k < n && s.w == items[..n][k].minimumSize.w;
        assert items[k] == items[..n][k];
      }
      if s.h != -1 && s.h >= items[n].minimumSize.h {
        var k :| 0 <= k < n && s.h == items[..n][k].minimumSize.h;
        assert items[k] == items[..n][k];
      }
      forall k | 0 <= k < n ensures items[k] == items[..n][k] { }
    }
  }

  class FlowLayout {
    var items: seq<LayoutItem>
    var flow: Direction
    var horizontalSpacing: int
    var verticalSpacing: int
    var contents: ContentsMargins
    /** The size hint cached by the last real layout pass. */
    var cachedSizeHint: Size
    /** The layout's own geometry. */
    var geometry: Rect
    /** Signals emitted so far, oldest first. */
    var events: seq<Event>

    constructor (hs: int, vs: int, cm: ContentsMargins)
      ensures items == [] && flow == LeftToRight && events == []
      ensures horizontalSpacing == hs && verticalSpacing == vs && contents == cm
      ensures cachedSizeHint == InvalidSize && geometry == Rect(0, 0, 0, 0)
    {
      items, flow, events := [], LeftToRight, [];
      horizontalSpacing, verticalSpacing, contents := hs, vs, cm;
      cachedSizeHint, geometry := InvalidSize, Rect(0, 0, 0, 0);
    }

    function Count(): (n: nat)
      reads this
      ensures n == |items|
    {
      |items|
    }

    /** Height for width is offered exactly for the left-to-right flow. */
    predicate HasHeightForWidth()
      reads this
    {
      flow == LeftToRight
    }

    /** One layout pass over items of the given sizes: the loop of the
        source for the flow and direction at hand places the items in order. */
    static method Arrange(m: Mode, a: Area, sizes: seq<Size>) returns (c: Cursor, rects: seq<Rect>)
      ensures c == Run(m, a, sizes) && rects == Rects(m, a, sizes)
    {
      match m
      case Mode(LeftToRight, false) => c, rects := ArrangeLeftToRight(a, sizes);
      case Mode(LeftToRight, true) => c, rects := ArrangeLeftToRightMirrored(a, sizes);
      case Mode(TopToBottom, false) => c, rects := ArrangeTopToBottom(a, sizes);
      case Mode(TopToBottom, true) => c, rects := ArrangeTopToBottomMirrored(a, sizes);
    }

    static method ArrangeLeftToRight(a: Area, sizes: seq<Size>) returns (c: Cursor, rects: seq<Rect>)
      ensures c == Run(Ltr, a, sizes) && rects == Rects(Ltr, a, sizes)
    {
      var x, y := a.eff.x, a.eff.y;
      var maxWidth, lineHeight := 0, 0;
      rects := [];
      for i := 0 to |sizes|
        invariant Cursor(x, y, lineHeight, maxWidth) == Run(Ltr, a, sizes[..i])
        invariant rects == Rects(Ltr, a, sizes[..i])
      {
        StepRun(Ltr, a, sizes, i);
        var s := sizes[i];
        ghost var c0 := Cursor(x, y, lineHeight, maxWidth);
        var nextX := x + s.w + a.hs;
        if nextX - a.hs > a.eff.Right() && lineHeight > 0 {
          maxWidth := Max(x, maxWidth);
          x := a.eff.x;
          y := y + lineHeight + a.vs;
          nextX := x + s.w + a.hs;
          lineHeight := 0;
        }
        assert Cursor(x, y, lineHeight, maxWidth) == At(Ltr, a, c0, s);
        rects := rects + [Rect(x, y, s.w, s.h)];
        x := nextX;
        lineHeight := Max(lineHeight, s.h);
      }
      assert sizes[..|sizes|] == sizes;
      c := Cursor(x, y, lineHeight, maxWidth);
    }

    static method ArrangeLeftToRightMirrored(a: Area, sizes: seq<Size>) returns (c: Cursor, rects: seq<Rect>)
      ensures c == Run(Mode(LeftToRight, true), a, sizes) && rects == Rects(Mode(LeftToRight, true), a, sizes)
    {
      var m := Mode(LeftToRight, true);
      var x, y := a.eff.Right(), a.eff.y;
      var maxWidth, lineHeight := 0, 0;
      rects := [];
      for i := 0 to |sizes|
        invariant Cursor(x, y, lineHeight, maxWidth) == Run(m, a, sizes[..i])
        invariant rects == Rects(m, a, sizes[..i])
      {
        StepRun(m, a, sizes, i);
        var s := sizes[i];
        ghost var c0 := Cursor(x, y, lineHeight, maxWidth);
        var nextX := x - s.w - a.hs;
        if nextX + a.hs < a.eff.x && lineHeight > 0 {
          maxWidth := Max(a.eff.Right() - x, maxWidth);
          x := a.eff.Right();
          y := y + lineHeight + a.vs;
          nextX := x - s.w - a.hs;
          lineHeight := 0;
        }
        // the item's top-right corner goes to (x, y)
        assert Cursor(x, y, lineHeight, maxWidth) == At(m, a, c0, s);
        rects := rects + [Rect(x - s.w + 1, y, s.w, s.h)];
        x := nextX;
        lineHeight := Max(lineHeight, s.h);
      }
      assert sizes[..|sizes|] == sizes;
      c := Cursor(x, y, lineHeight, maxWidth);
    }

    static method ArrangeTopToBottom(a: Area, sizes: seq<Size>) returns (c: Cursor, rects: seq<Rect>)
      ensures c == Run(Mode(TopToBottom, false), a, sizes) && rects == Rects(Mode(TopToBottom, false), a, sizes)
    {
      var m := Mode(TopToBottom, false);
      var x, y := a.eff.x, a.eff.y;
      var maxHeight, lineWidth := 0, 0;
      rects := [];
      for i := 0 to |sizes|
        invariant Cursor(x, y, lineWidth, maxHeight) == Run(m, a, sizes[..i])
        invariant rects == Rects(m, a, sizes[..i])
      {
        StepRun(m, a, sizes, i);
        var s := sizes[i];
        ghost var c0 := Cursor(x, y, lineWidth, maxHeight);
        var nextY := y + s.h + a.vs;
        if nextY - a.vs > a.eff.Bottom() && lineWidth > 0 {
          maxHeight := Max(y, maxHeight);
          y := a.eff.y;
          x := x + lineWidth + a.hs;
          nextY := y + s.h + a.vs;
          lineWidth := 0;
        }
        assert Cursor(x, y, lineWidth, maxHeight) == At(m, a, c0, s);
        rects := rects + [Rect(x, y, s.w, s.h)];
        y := nextY;
        lineWidth := Max(lineWidth, s.w);
      }
      assert sizes[..|sizes|] == sizes;
      c := Cursor(x, y, lineWidth, maxHeight);
    }

    static method ArrangeTopToBottomMirrored(a: Area, sizes: seq<Size>) returns (c: Cursor, rects: seq<Rect>)
      ensures c == Run(Mode(TopToBottom, true), a, sizes) && rects == Rects(Mode(TopToBottom, true), a, sizes)
    {
      var m := Mode(TopToBottom, true);
      var x, y := a.eff.Right(), a.eff.y;
      var maxHeight, lineWidth := 0, 0;
      rects := [];
      for i := 0 to |sizes|
        invariant Cursor(x, y, lineWidth, maxHeight) == Run(m, a, sizes[..i])
        invariant rects == Rects(m, a, sizes[..i])
      {
        StepRun(m, a, sizes, i);
        var s := sizes[i];
        ghost var c0 := Cursor(x, y, lineWidth, maxHeight);
        var nextY := y + s.h + a.vs;
        if nextY - a.vs > a.eff.Bottom() && lineWidth > 0 {
          maxHeight := Max(y, maxHeight);
          y := a.eff.y;
          x := x - lineWidth - a.hs;
          nextY := y + s.h + a.vs;
          lineWidth := 0;
        }
        assert Cursor(x, y, lineWidth, maxHeight) == At(m, a, c0, s);
        rects := rects + [Rect(x - s.w, y, s.w, s.h)];
        y := nextY;
        lineWidth := Max(lineWidth, s.w);
      }
      assert sizes[..|sizes|] == sizes;
      c := Cursor(x, y, lineWidth, maxHeight);
    }

    /** A layout pass over `rect`. A real pass needs a visible parent,
        gives every item its rectangle and refreshes the cached size hint,
        signalling only a change; a test pass needs a positive width and
        changes nothing. Both report the size the items take. */
    method DoLayout(rect: Rect, testOnly: bool, parent: Option<Parent>) returns (size: Size)
      requires testOnly && rect.w > 0 ==> parent.Some?
      modifies this
      ensures (flow, horizontalSpacing, verticalSpacing, contents, geometry) ==
              old((flow, horizontalSpacing, verticalSpacing, contents, geometry))
      ensures testOnly ==> (items, cachedSizeHint, events) == old((items, cachedSizeHint, events))
      ensures !testOnly && (parent.None? || parent.value.hidden) ==>
                size == InvalidSize && (items, cachedSizeHint, events) == old((items, cachedSizeHint, events))
      ensures testOnly && rect.w <= 0 ==> size == InvalidSize
      ensures (if testOnly then rect.w > 0 else parent.Some? && !parent.value.hidden) ==>
                var m := Mode(flow, parent.value.rightToLeft);
                var a := AreaOf(rect, contents, horizontalSpacing, verticalSpacing);
                var rects := Rects(m, a, Hints(old(items)));
                && size == Reported(m, rect, contents, Run(m, a, Hints(old(items))))
                && (!testOnly ==>
                      && |items| == |old(items)|
                      && (forall k :: 0 <= k < |items| ==> items[k] == old(items[k]).(geometry := rects[k]))
                      && cachedSizeHint == size
                      && events == old(events) + (if old(cachedSizeHint) != size then [SizeHintChanged(size)] else []))
    {
      if !testOnly {
        if parent.None? || parent.value.hidden {
          return InvalidSize;
        }
      } else if rect.w <= 0 {
        return InvalidSize;
      }
      var m := Mode(flow, parent.value.rightToLeft);
      var a := AreaOf(rect, contents, horizontalSpacing, verticalSpacing);
      var c, rects := Arrange(m, a, Hints(items));
      size := Reported(m, rect, contents, c);
      if !testOnly {
        var placed := SetGeometries(items, rects);
        var hint, signalled := cachedSizeHint, events;
        if hint != size {
          hint := size;
          signalled := signalled + [SizeHintChanged(size)];
        }
        items, cachedSizeHint, events := placed, hint, signalled;
      }
    }

    /** Each item gets the rectangle at its own position. */
    static method SetGeometries(items: seq<LayoutItem>, rects: seq<Rect>) returns (placed: seq<LayoutItem>)
      requires |rects| == |items|
      ensures |placed| == |items|
      ensures forall k :: 0 <= k < |items| ==> placed[k] == items[k].(geometry := rects[k])
    {
      placed := [];
      for i := 0 to |items|
        invariant |placed| == i
        invariant forall k :: 0 <= k < i ==> placed[k] == items[k].(geometry := rects[k])
      {
        placed := placed + [items[i].(geometry := rects[i])];
      }
    }

    /** Height for a given width: the cached hint when the width is the
        parent's own, otherwise the height of a test pass. */
    method HeightForWidth(width: int, parent: Option<Parent>) returns (h: int)
      requires width > 0 ==> parent.Some?
      modifies this
      ensures (items, flow, horizontalSpacing, verticalSpacing, contents, cachedSizeHint, geometry, events) ==
              old((items, flow, horizontalSpacing, verticalSpacing, contents, cachedSizeHint, geometry, events))
      ensures parent.Some? && width == parent.value.width ==> h == cachedSizeHint.h
      ensures !(parent.Some? && width == parent.value.width) ==>
                if width <= 0 then h == -1
                else
                  var m := Mode(flow, parent.value.rightToLeft);
                  var a := AreaOf(Rect(0, 0, width, 0), contents, horizontalSpacing, verticalSpacing);
                  h == Reported(m, Rect(0, 0, width, 0), contents, Run(m, a, Hints(items))).h
    {
      if parent.Some? && width == parent.value.width {
        return cachedSizeHint.h;
      }
      var s := DoLayout(Rect(0, 0, width, 0), true, parent);
      h := s.h;
    }

    /** A new geometry lays the items out in it (a real pass) and keeps its
        top-left corner with the reported size; the same geometry does nothing. */
    method SetGeometry(rect: Rect, parent: Option<Parent>)
      modifies this
      ensures rect == old(geometry) ==> (items, cachedSizeHint, events, geometry) == old((items, cachedSizeHint, events, geometry))
      ensures rect != old(geometry) ==>
                if parent.None? || parent.value.hidden then
                  geometry == Rect(rect.x, rect.y, -1, -1) && (items, cachedSizeHint, events) == old((items, cachedSizeHint, events))
                else
                  var m := Mode(flow, parent.value.rightToLeft);
                  var a := AreaOf(rect, contents, horizontalSpacing, verticalSpacing);
                  var rects := Rects(m, a, Hints(old(items)));
                  var size := Reported(m, rect, contents, Run(m, a, Hints(old(items))));
                  && geometry == Rect(rect.x, rect.y, size.w, size.h)
                  && |items| == |old(items)|
                  && (forall k :: 0 <= k < |items| ==> items[k] == old(items[k]).(geometry := rects[k]))
                  && cachedSizeHint == size
                  && events == old(events) + (if old(cachedSizeHint) != size then [SizeHintChanged(size)] else [])
      ensures (flow, horizontalSpacing, verticalSpacing, contents) == old((flow, horizontalSpacing, verticalSpacing, contents))
    {
      if rect == geometry {
        return;
      }
      var size := DoLayout(rect, false, parent);
      geometry := Rect(rect.x, rect.y, size.w, size.h);
    }

    /** The component-wise largest minimum size of the items, widened by
        twice the layout margin. */
    method MinimumSize(margin: int) returns (s: Size)
      ensures forall k :: 0 <= k < |items| ==>
                s.w >= items[k].minimumSize.w + 2 * margin && s.h >= items[k].minimumSize.h + 2 * margin
      ensures s.w >= -1 + 2 * margin && s.h >= -1 + 2 * margin
      ensures s.w == -1 + 2 * margin || exists k :: 0 <= k < |items| && s.w == items[k].minimumSize.w + 2 * margin
      ensures s.h == -1 + 2 * margin || exists k :: 0 <= k < |items| && s.h == items[k].minimumSize.h + 2 * margin
    {
      var size := InvalidSize;
      for i := 0 to |items|
        invariant size == MinimumOf(items[..i])
      {
        assert items[..i + 1][..i] == items[..i];
        size := size.ExpandedTo(items[i].minimumSize);
      }
      assert items[..|items|] == items;
      MinimumOfIsMaximum(items);
      s := Size(size.w + 2 * margin, size.h + 2 * margin);
    }

    /** The item goes in at `index`; the count is signalled. */
    method InsertItem(index: int, item: LayoutItem)
      requires 0 <= index <= |items|
      modifies this
      ensures items == old(items)[..index] + [item] + old(items)[index..]
      ensures events == old(events) + [CountChanged(|items|)]
      ensures (flow, horizontalSpacing, verticalSpacing, contents, cachedSizeHint, geometry) ==
              old((flow, horizontalSpacing, verticalSpacing, contents, cachedSizeHint, geometry))
    {
      items := items[..index] + [item] + items[index..];
      events := events + [CountChanged(|items|)];
    }

    /** Appends the item at the end. */
    method AddItem(item: LayoutItem)
      modifies this
      ensures items == old(items) + [item]
      ensures events == old(events) + [CountChanged(|items|)]
      ensures (flow, horizontalSpacing, verticalSpacing, contents, cachedSizeHint, geometry) ==
              old((flow, horizontalSpacing, verticalSpacing, contents, cachedSizeHint, geometry))
    {
      InsertItem(Count(), item);
      assert old(items)[|old(items)|..] == [];
    }

    /** Removes and returns the item at `index`; an index outside the list
        returns nothing and changes nothing. */
    method TakeAt(index: int) returns (r: Option<LayoutItem>)
      modifies this
      ensures !(0 <= index < |old(items)|) ==> r == None && items == old(items) && events == old(events)
      ensures 0 <= index < |old(items)| ==>
                && r == Some(old(items)[index])
                && items == old(items)[..index] + old(items)[index + 1..]
                && events == old(events) + [CountChanged(|items|)]
      ensures (flow, horizontalSpacing, verticalSpacing, contents, cachedSizeHint, geometry) ==
              old((flow, horizontalSpacing, verticalSpacing, contents, cachedSizeHint, geometry))
    {
      if index < 0 || index >= |items| {
        return None;
      }
      r := Some(items[index]);
      items := items[..index] + items[index + 1..];
      events := events + [CountChanged(|items|)];
    }

    /** A new spacing is stored, signalled and invalidates the layout; the
        current spacing changes nothing. */
    method SetHorizontalSpacing(spacing: int)
      modifies this
      ensures horizontalSpacing == spacing
      ensures events == old(events) + (if spacing == old(horizontalSpacing) then [] else [HorizontalSpacingChanged(spacing), Invalidated])
      ensures (items, flow, verticalSpacing, contents, cachedSizeHint, geometry) ==
              old((items, flow, verticalSpacing, contents, cachedSizeHint, geometry))
    {
      if spacing == horizontalSpacing {
        return;
      }
      horizontalSpacing := spacing;
      events := events + [HorizontalSpacingChanged(spacing), Invalidated];
    }

    method SetVerticalSpacing(spacing: int)
      modifies this
      ensures verticalSpacing == spacing
      ensures events == old(events) + (if spacing == old(verticalSpacing) then [] else [VerticalSpacingChanged(spacing), Invalidated])
      ensures (items, flow, horizontalSpacing, contents, cachedSizeHint, geometry) ==
              old((items, flow, horizontalSpacing, contents, cachedSizeHint, geometry))
    {
      if spacing == verticalSpacing {
        return;
      }
      verticalSpacing := spacing;
      events := events + [VerticalSpacingChanged(spacing), Invalidated];
    }

    method SetFlow(direction: Direction)
      modifies this
      ensures flow == direction
      ensures events == old(events) + (if direction == old(flow) then [] else [FlowChanged(direction), Invalidated])
      ensures (items, horizontalSpacing, verticalSpacing, contents, cachedSizeHint, geometry) ==
              old((items, horizontalSpacing, verticalSpacing, contents, cachedSizeHint, geometry))
    {
      if flow == direction {
        return;
      }
      flow := direction;
      events := events + [FlowChanged(direction), Invalidated];
    }
  }
}

=== FILE: item_delegate.dfy ===
/** DStyledItemDelegate and DViewItemAction: item-view actions shown along
    the edges of an item. The model covers the action's text colour
    setters, the size an action asks for, the layout of a list of actions
    and its bounding size, the press/release state machine that triggers
    clickable actions, the map of clickable areas kept per item, the edge
    to data-role mapping and the background type with its margins. */
module ItemDelegate {
  import opened Basics

  /** Qt::Alignment bits. */
  const AlignLeft: bv32 := 0x1
  const AlignRight: bv32 := 0x2
  const AlignHCenter: bv32 := 0x4
  const AlignTop: bv32 := 0x20
  const AlignBottom: bv32 := 0x40
  const AlignVCenter: bv32 := 0x80

  /** Storing a value in a qint8 keeps its low eight bits, read as signed. */
  function Int8(v: int): (r: int)
    ensures -128 <= r < 128
    ensures -128 <= v < 128 ==> r == v
    ensures (r - v) % 256 == 0
  {
    (v + 128) % 256 - 128
  }

  // ---------------------------------------------------------------------
  // Text colour of an action

  /** The colour fields of DViewItemAction: a DPalette colour type and a
      QPalette colour role, each -1 when unset. */
  class ViewItemAction {
    var colorType: int
    var colorRole: int

    /** At most one of the two is set. */
    predicate Valid()
      reads this
    {
      -128 <= colorType < 128 && -128 <= colorRole < 128 && (colorType == -1 || colorRole == -1)
    }

    constructor ()
      ensures colorType == -1 && colorRole == -1 && Valid()
    {
      colorType, colorRole := -1, -1;
    }

    /** setTextColorRole(DPalette::ColorType). */
    method SetTextColorType(t: nat)
      modifies this
      ensures colorType == Int8(t) && colorRole == -1 && Valid()
      ensures !(colorType >= 0 && colorRole >= 0)
    {
      colorRole := -1;
      colorType := Int8(t);
    }

    /** setTextColorRole(QPalette::ColorRole). */
    method SetTextColorRole(role: nat)
      modifies this
      ensures colorRole == Int8(role) && colorType == -1 && Valid()
      ensures !(colorType >= 0 && colorRole >= 0)
    {
      colorType := -1;
      colorRole := Int8(role);
    }
  }

  // ---------------------------------------------------------------------
  // Action size

  /** What the layout reads from an action: its alignment, icon size (may
      be invalid), whether it has an icon, its text with the size its font
      measures for it, its maximum size and the size of its widget if any. */
  datatype ActionInfo = ActionInfo(alignment: bv32, iconSize: Size, hasIcon: bool, text: string,
                                   textSize: Size, maxSize: Size, widgetSize: Option<Size>)

  /** The icon size an action is drawn with: its own, or the fallback when
      it has an icon but no valid size. */
  function IconSizeOf(a: ActionInfo, fallback: Size): Size
  {
    if !a.iconSize.IsValid() && a.hasIcon then fallback else a.iconSize
  }

  /** A negative maximum extent means unbounded. */
  function MaxExtent(m: int): int
  {
    if m >= 0 then m else WidgetSizeMax
  }

  /** DStyledItemDelegatePrivate::actionSize. */
  function ActionSize(a: ActionInfo, fallback: Size, spacing: int): Size
  {
    if a.widgetSize.Some? then a.widgetSize.value
    else
      var icon := IconSizeOf(a, fallback);
      var max := Size(MaxExtent(a.maxSize.w), MaxExtent(a.maxSize.h));
      if |a.text| == 0 then icon.BoundedTo(max)
      else
        var sp := if icon.IsValid() then spacing else 0;
        Size(icon.w + a.textSize.w + sp, Max(icon.h, a.textSize.h))
  }

  /** An action with a widget takes the widget's size; one without text
      takes its icon size, never above a non-negative maximum and unchanged
      by a negative one (up to QWIDGETSIZE_MAX); one with text sets its
      icon and text side by side, the spacing between them only when the
      icon size is valid, as tall as the taller of the two. */
  lemma ActionSizeRules(a: ActionInfo, fallback: Size, spacing: int)
    ensures a.widgetSize.Some? ==> ActionSize(a, fallback, spacing) == a.widgetSize.value
    ensures a.widgetSize.None? && |a.text| == 0 ==>
              var r := ActionSize(a, fallback, spacing);
              var icon := IconSizeOf(a, fallback);
              && r.w <= icon.w && r.h <= icon.h
              && (a.maxSize.w >= 0 ==> r.w <= a.maxSize.w)
              && (a.maxSize.h >= 0 ==> r.h <= a.maxSize.h)
              && (a.maxSize.w < 0 && icon.w <= WidgetSizeMax ==> r.w == icon.w)
              && (a.maxSize.h < 0 && icon.h <= WidgetSizeMax ==> r.h == icon.h)
    ensures a.widgetSize.None? && |a.text| > 0 ==>
              var r := ActionSize(a, fallback, spacing);
              var icon := IconSizeOf(a, fallback);
              && r.w - a.textSize.w - icon.w == (if icon.IsValid() then spacing else 0)
              && r.h >= a.textSize.h && r.h >= icon.h && (r.h == a.textSize.h || r.h == icon.h)
  {
  }

  // ---------------------------------------------------------------------
  // Layout of an action list

  datatype Orientation = Horizontal | Vertical

  /** The lane an action joins: for a row, top (0), vertically centred (1)
      or bottom (2); for a column, left (0), horizontally centred (1) or
      right (2). Centring wins over the far edge. */
  function LaneOf(o: Orientation, alignment: bv32): (lane: nat)
    ensures lane < 3
  {
    if o == Horizontal then
      if alignment & AlignVCenter != 0 then 1 else if alignment & AlignBottom != 0 then 2 else 0
    else
      if alignment & AlignHCenter != 0 then 1 else if alignment & AlignRight != 0 then 2 else 0
  }

  /** The extent along the layout direction. */
  function Extent(o: Orientation, s: Size): int
  {
    if o == Horizontal then s.w else s.h
  }

  /** The sizes of the actions, in order. */
  function Sizes(actions: seq<ActionInfo>, fallback: Size, spacing: int): (r: seq<Size>)
    ensures |r| == |actions|
    ensures forall i :: 0 <= i < |actions| ==> r[i] == ActionSize(actions[i], fallback, spacing)
  {
    seq(|actions|, i requires 0 <= i < |actions| => ActionSize(actions[i], fallback, spacing))
  }

  /** The summed extent of the actions in one lane. */
  function LaneSum(o: Orientation, actions: seq<ActionInfo>, sizes: seq<Size>, lane: nat): int
    requires |sizes| == |actions|
  {
    if |actions| == 0 then 0
    else
      var n := |actions| - 1;
      LaneSum(o, actions[..n], sizes[..n], lane) + (if LaneOf(o, actions[n].alignment) == lane then Extent(o, sizes[n]) else 0)
  }

  /** Measuring one more action appends its size. */
  lemma SizesSnoc(actions: seq<ActionInfo>, a: ActionInfo, fallback: Size, spacing: int)
    ensures Sizes(actions + [a], fallback, spacing) == Sizes(actions, fallback, spacing) + [ActionSize(a, fallback, spacing)]
  {
    assert forall i :: 0 <= i < |actions| ==> (actions + [a])[i] == actions[i];
  }

  /** One more action adds its extent to its own lane only. */
  lemma LaneSumSnoc(o: Orientation, actions: seq<ActionInfo>, sizes: seq<Size>, a: ActionInfo, s: Size, lane: nat)
    requires |sizes| == |actions|
    ensures LaneSum(o, actions + [a], sizes + [s], lane) ==
            LaneSum(o, actions, sizes, lane) + (if LaneOf(o, a.alignment) == lane then Extent(o, s) else 0)
  {
    assert (actions + [a])[..|actions|] == actions && (sizes + [s])[..|sizes|] == sizes;
  }

  /** The extent of the whole layout: the larger of the first two lane
      sums, or the last lane's sum bounded by the base rectangle if that is
      larger, plus the spacing between consecutive actions. */
  function LayoutExtent(o: Orientation, actions: seq<ActionInfo>, sizes: seq<Size>, base: Rect, spacing: int): int
    requires |sizes| == |actions|
  {
    QBound(Max(LaneSum(o, actions, sizes, 0), LaneSum(o, actions, sizes, 1)),
           LaneSum(o, actions, sizes, 2),
           Extent(o, Size(base.w, base.h))) + (|actions| - 1) * spacing
  }

  /** The rectangles placed so far and the rectangle left in each lane. */
  datatype Placement = Placement(rects: seq<Rect>, lanes: seq<Rect>)

  /** After placing `rect` in a lane, the lane starts past it by the spacing. */
  function Advance(o: Orientation, lane: Rect, rect: Rect, spacing: int): Rect
  {
    if o == Horizontal then lane.SetLeft(rect.Right() + spacing) else lane.SetTop(rect.Bottom() + spacing)
  }

  /** The placement loop of doActionsLayout: each action is aligned by
      `aligned` (QStyle::alignedRect for the layout direction) inside what
      is left of its lane, which then moves past it. */
  function Place(o: Orientation, aligned: (bv32, Size, Rect) -> Rect, actions: seq<ActionInfo>,
                 sizes: seq<Size>, base: Rect, spacing: int): (p: Placement)
    requires |sizes| == |actions|
    ensures |p.rects| == |actions| && |p.lanes| == 3
  {
    if |actions| == 0 then Placement([], [base, base, base])
    else
      var n := |actions| - 1;
      var p := Place(o, aligned, actions[..n], sizes[..n], base, spacing);
      var lane := LaneOf(o, actions[n].alignment);
      var rect := aligned(actions[n].alignment, sizes[n], p.lanes[lane]);
      Placement(p.rects + [rect], p.lanes[lane := Advance(o, p.lanes[lane], rect, spacing)])
  }

  /** Every action gets its rectangle in its own position: placing a
      prefix of the list places those actions exactly as placing the whole
      list does, and each one is aligned with its own alignment and size. */
  lemma {:induction false} PlacePrefix(o: Orientation, aligned: (bv32, Size, Rect) -> Rect, actions: seq<ActionInfo>,
                                       sizes: seq<Size>, base: Rect, spacing: int, k: nat)
    requires |sizes| == |actions| && k <= |actions|
    ensures Place(o, aligned, actions[..k], sizes[..k], base, spacing).rects ==
            Place(o, aligned, actions, sizes, base, spacing).rects[..k]
  {
    if k < |actions| {
      var n := |actions| - 1;
      assert actions[..n][..k] == actions[..k] && sizes[..n][..k] == sizes[..k];
      PlacePrefix(o, aligned, actions[..n], sizes[..n], base, spacing, k);
      assert Place(o, aligned, actions, sizes, base, spacing).rects[..n] ==
             Place(o, aligned, actions[..n], sizes[..n], base, spacing).rects;
    } else {
      assert actions[..k] == actions && sizes[..k] == sizes;
    }
  }

  /** One step of the placement loop, from the placement of the first `i`
      actions. */
  lemma PlaceNext(o: Orientation, aligned: (bv32, Size, Rect) -> Rect, actions: seq<ActionInfo>,
                  sizes: seq<Size>, base: Rect, spacing: int, i: nat, done: Placement, rect: Rect)
    requires |sizes| == |actions| && i < |actions|
    requires Place(o, aligned, actions[..i], sizes[..i], base, spacing) == done
    requires rect == aligned(actions[i].alignment, sizes[i], done.lanes[LaneOf(o, actions[i].alignment)])
    ensures var lane := LaneOf(o, actions[i].alignment);
            Place(o, aligned, actions[..i + 1], sizes[..i + 1], base, spacing) ==
              Placement(done.rects + [rect], done.lanes[lane := Advance(o, done.lanes[lane], rect, spacing)])
  {
    assert actions[..i + 1][..i] == actions[..i] && sizes[..i + 1][..i] == sizes[..i];
  }

  /** The height the actions reach below `top`, starting from `start`. */
  function MaxBottom(rects: seq<Rect>, top: int, start: int): int
  {
    if |rects| == 0 then start
    else
      var n := |rects| - 1;
      Max(MaxBottom(rects[..n], top, start), rects[n].Bottom() - top + 1)
  }

  /** The reach is the largest of the start and the rectangles' reaches. */
  lemma {:induction false} MaxBottomBounds(rects: seq<Rect>, top: int, start: int)
    ensures var r := MaxBottom(rects, top, start);
            && r >= start
            && (forall i :: 0 <= i < |rects| ==> r >= rects[i].Bottom() - top + 1)
            && (r == start || exists i :: 0 <= i < |rects| && r == rects[i].Bottom() - top + 1)
  {
    if |rects| > 0 {
      var n := |rects| - 1;
      MaxBottomBounds(rects[..n], top, start);
      assert forall i :: 0 <= i < n ==> rects[..n][i] == rects[i];
    }
  }

  /** One step of the reach computation. */
  lemma MaxBottomNext(rects: seq<Rect>, rect: Rect, top: int, start: int)
    ensures MaxBottom(rects + [rect], top, start) == Max(MaxBottom(rects, top, start), rect.Bottom() - top + 1)
  {
    assert (rects + [rect])[..|rects|] == rects;
  }

  /** The base rectangle resized along the layout direction. */
  function Resized(o: Orientation, base: Rect, extent: int): Rect
  {
    if o == Horizontal then base.(w := extent) else base.(h := extent)
  }

  /** doActionsLayout: no actions give no rectangles and a 0x0 bounding
      size; otherwise one rectangle per action, placed in order inside the
      base resized to the layout's extent. A row's bounding size is that
      extent by the lowest reach of its rectangles; a column's is 0 wide
      and at least the extent tall, reaching every rectangle. */
  method DoActionsLayout(base: Rect, actions: seq<ActionInfo>, o: Orientation, fallback: Size, spacing: int,
                         aligned: (bv32, Size, Rect) -> Rect) returns (rects: seq<Rect>, bounding: Size)
    ensures |actions| == 0 ==> rects == [] && bounding == Size(0, 0)
    ensures |rects| == |actions|
    ensures |actions| > 0 ==>
              var sizes := Sizes(actions, fallback, spacing);
              var extent := LayoutExtent(o, actions, sizes, base, spacing);
              && rects == Place(o, aligned, actions, sizes, Resized(o, base, extent), spacing).rects
              && bounding == (if o == Horizontal then Size(extent, MaxBottom(rects, base.y, 0))
                              else Size(0, MaxBottom(rects, base.y, extent)))
  {
    if |actions| == 0 {
      return [], Size(0, 0);
    }
    var sizes, first, middle, last := MeasureActions(actions, o, fallback, spacing);
    var extent := QBound(Max(first, middle), last, Extent(o, Size(base.w, base.h))) + (|actions| - 1) * spacing;
    var maxWidth, maxHeight := 0, 0;
    var laid := base;
    if o == Horizontal {
      maxWidth := extent;
      laid := base.(w := extent);
    } else {
      maxHeight := extent;
      laid := base.(h := extent);
    }
    rects, maxHeight := PlaceActions(o, aligned, actions, sizes, laid, spacing, maxHeight);
    bounding := Size(maxWidth, maxHeight);
  }

  /** The first loop of doActionsLayout: the size of each action and the
      summed extent of each lane. */
  method MeasureActions(actions: seq<ActionInfo>, o: Orientation, fallback: Size, spacing: int)
    returns (sizes: seq<Size>, first: int, middle: int, last: int)
    ensures sizes == Sizes(actions, fallback, spacing)
    ensures first == LaneSum(o, actions, sizes, 0)
    ensures middle == LaneSum(o, actions, sizes, 1)
    ensures last == LaneSum(o, actions, sizes, 2)
  {
    sizes, first, middle, last := [], 0, 0, 0;
    for i := 0 to |actions|
      invariant sizes == Sizes(actions[..i], fallback, spacing)
      invariant first == LaneSum(o, actions[..i], sizes, 0)
      invariant middle == LaneSum(o, actions[..i], sizes, 1)
      invariant last == LaneSum(o, actions[..i], sizes, 2)
    {
      var s := ActionSize(actions[i], fallback, spacing);
      var lane := LaneOf(o, actions[i].alignment);
      assert actions[..i + 1] == actions[..i] + [actions[i]];
      SizesSnoc(actions[..i], actions[i], fallback, spacing);
      LaneSumSnoc(o, actions[..i], sizes, actions[i], s, 0);
      LaneSumSnoc(o, actions[..i], sizes, actions[i], s, 1);
      LaneSumSnoc(o, actions[..i], sizes, actions[i], s, 2);
      sizes := sizes + [s];
      if lane == 1 {
        middle := middle + Extent(o, s);
      } else if lane == 2 {
        last := last + Extent(o, s);
      } else {
        first := first + Extent(o, s);
      }
    }
    assert actions[..|actions|] == actions;
  }

  /** The second loop of doActionsLayout: each action aligned in its lane,
      and the lowest reach below the base's top. */
  method PlaceActions(o: Orientation, aligned: (bv32, Size, Rect) -> Rect, actions: seq<ActionInfo>,
                      sizes: seq<Size>, base: Rect, spacing: int, start: int)
    returns (rects: seq<Rect>, maxHeight: int)
    requires |sizes| == |actions|
    ensures rects == Place(o, aligned, actions, sizes, base, spacing).rects
    ensures maxHeight == MaxBottom(rects, base.y, start)
  {
    // p.lanes holds firstRect, middleRect and lastRect, in that order.
    var p := Placement([], [base, base, base]);
    maxHeight := start;
    for i := 0 to |actions|
      invariant Place(o, aligned, actions[..i], sizes[..i], base, spacing) == p
      invariant maxHeight == MaxBottom(p.rects, base.y, start)
    {
      p, maxHeight := PlaceOne(o, aligned, actions, sizes, base, spacing, start, i, p, maxHeight);
    }
    rects := p.rects;
    assert actions[..|actions|] == actions && sizes[..|sizes|] == sizes;
  }

  /** One pass of the placement loop: the action at `i` is aligned in its
      lane, the lane advances past it, and the reach takes it in. */
  method PlaceOne(o: Orientation, aligned: (bv32, Size, Rect) -> Rect, actions: seq<ActionInfo>,
                  sizes: seq<Size>, base: Rect, spacing: int, start: int, i: nat, p: Placement, maxHeight: int)
    returns (next: Placement, nextHeight: int)
    requires |sizes| == |actions| && i < |actions|
    requires Place(o, aligned, actions[..i], sizes[..i], base, spacing) == p
    requires maxHeight == MaxBottom(p.rects, base.y, start)
    ensures Place(o, aligned, actions[..i + 1], sizes[..i + 1], base, spacing) == next
    ensures nextHeight == MaxBottom(next.rects, base.y, start)
  {
    var lane := LaneOf(o, actions[i].alignment);
    var rect := aligned(actions[i].alignment, sizes[i], p.lanes[lane]);
    PlaceNext(o, aligned, actions, sizes, base, spacing, i, p, rect);
    MaxBottomNext(p.rects, rect, base.y, start);
    next := Placement(p.rects + [rect], p.lanes[lane := Advance(o, p.lanes[lane], rect, spacing)]);
    nextHeight := Max(maxHeight, rect.Bottom() - base.y + 1);
  }

  // ---------------------------------------------------------------------
  // Edges and roles

  /** Qt::Edge values. */
  const TopEdge: int := 0x1
  const LeftEdge: int := 0x2
  const RightEdge: int := 0x4
  const BottomEdge: int := 0x8

  /** The item data roles that hold the action lists of the four edges. */
  datatype ActionRole = LeftActionListRole | TopActionListRole | RightActionListRole | BottomActionListRole

  /** getActionPositionRole. */
  function ActionPositionRole(edge: int): ActionRole
  {
    if edge == TopEdge then TopActionListRole
    else if edge == RightEdge then RightActionListRole
    else if edge == LeftEdge then LeftActionListRole
    else if edge == BottomEdge then BottomActionListRole
    else LeftActionListRole
  }

  /** The edge whose action list a role holds. */
  function EdgeOfRole(role: ActionRole): int
  {
    match role
    case LeftActionListRole => LeftEdge
    case TopActionListRole => TopEdge
    case RightActionListRole => RightEdge
    case BottomActionListRole => BottomEdge
  }

  /** Each of the four edges has its own role and every role is reached
      from its edge; any other edge value falls back to the left role. */
  lemma ActionPositionRoleInverse(edge: int, role: ActionRole)
    ensures ActionPositionRole(EdgeOfRole(role)) == role
    ensures edge in {TopEdge, LeftEdge, RightEdge, BottomEdge} ==> EdgeOfRole(ActionPositionRole(edge)) == edge
    ensures !(edge in {TopEdge, LeftEdge, RightEdge, BottomEdge}) ==> ActionPositionRole(edge) == LeftActionListRole
  {
  }

  // ---------------------------------------------------------------------
  // Clicks

  type ActionId = nat
  type ItemIndex = nat

  datatype EventKind = MouseButtonPress | MouseButtonRelease | OtherEvent

  /** QRect::contains(point, true): strictly inside, for a rectangle of
      either orientation. */
  predicate ContainsProper(r: Rect, px: int, py: int)
  {
    var l := if r.w < 0 then r.x + r.w - 1 else r.x;
    var rr := if r.w < 0 then r.x else r.x + r.w - 1;
    var t := if r.h < 0 then r.y + r.h - 1 else r.y;
    var b := if r.h < 0 then r.y else r.y + r.h - 1;
    l < px < rr && t < py < b
  }

  /** A clickable entry the press or release hits. */
  predicate Hits(entry: (ActionId, Rect), enabled: set<ActionId>, px: int, py: int)
  {
    entry.0 in enabled && ContainsProper(entry.1, px, py)
  }

  /** The first entry hit, if any. */
  function FirstHit(entries: seq<(ActionId, Rect)>, enabled: set<ActionId>, px: int, py: int): (r: Option<nat>)
    ensures r.Some? ==> r.value < |entries| && Hits(entries[r.value], enabled, px, py)
                        && forall j :: 0 <= j < r.value ==> !Hits(entries[j], enabled, px, py)
    ensures r.None? ==> forall j :: 0 <= j < |entries| ==> !Hits(entries[j], enabled, px, py)
  {
    if |entries| == 0 then None
    else if Hits(entries[0], enabled, px, py) then Some(0)
    else
      var r := FirstHit(entries[1..], enabled, px, py);
      assert forall j :: 1 <= j < |entries| ==> entries[j] == entries[1..][j - 1];
      if r.None? then None else Some(r.value + 1)
  }

  /** The outcome of one event: whether it is consumed, the pressed action
      afterwards and the action triggered, if any. */
  datatype Outcome = Outcome(consumed: bool, pressed: Option<ActionId>, triggered: Option<ActionId>)

  /** eventFilter on a press or release over the item's clickable entries:
      a press first forgets the pressed action; the first enabled entry
      containing the point consumes the event, triggering its action on a
      release that follows a press on it and otherwise becoming the pressed
      action; other events pass through untouched. */
  function Filter(kind: EventKind, entries: seq<(ActionId, Rect)>, enabled: set<ActionId>,
                  pressed: Option<ActionId>, px: int, py: int): Outcome
  {
    if kind == OtherEvent then Outcome(false, pressed, None)
    else
      var p := if kind == MouseButtonPress then None else pressed;
      var hit := FirstHit(entries, enabled, px, py);
      if hit.None? then Outcome(false, p, None)
      else
        var a := entries[hit.value].0;
        if kind == MouseButtonRelease && p == Some(a) then Outcome(true, p, Some(a))
        else Outcome(true, Some(a), None)
  }

  /** A press and a release at the same point over an enabled clickable
      action trigger it, whatever was pressed before; a release alone
      triggers nothing unless its action was pressed; an event that hits
      nothing is not consumed and triggers nothing. */
  lemma ClickRules(entries: seq<(ActionId, Rect)>, enabled: set<ActionId>, pressed: Option<ActionId>,
                   kind: EventKind, px: int, py: int)
    ensures var down := Filter(MouseButtonPress, entries, enabled, pressed, px, py);
            var up := Filter(MouseButtonRelease, entries, enabled, down.pressed, px, py);
            (exists k :: 0 <= k < |entries| && Hits(entries[k], enabled, px, py)) ==>
              down.consumed && up.consumed && up.triggered.Some? && up.triggered == down.pressed
    ensures var r := Filter(kind, entries, enabled, pressed, px, py);
            r.triggered.Some? ==> kind == MouseButtonRelease && r.triggered == pressed
    ensures var r := Filter(kind, entries, enabled, pressed, px, py);
            r.consumed <==> kind != OtherEvent && exists k :: 0 <= k < |entries| && Hits(entries[k], enabled, px, py)
    ensures var r := Filter(kind, entries, enabled, pressed, px, py);
            r.triggered.Some? ==> exists k :: 0 <= k < |entries| && Hits(entries[k], enabled, px, py) && entries[k].0 == r.triggered.value
  {
    var hit := FirstHit(entries, enabled, px, py);
    if hit.Some? {
      assert Hits(entries[hit.value], enabled, px, py);
    }
  }

  /** The clickable map after painting an item: its entry holds the item's
      clickable list when that list is non-empty and is removed otherwise. */
  function UpdatedClickable(m: map<ItemIndex, seq<(ActionId, Rect)>>, index: ItemIndex,
                            list: seq<(ActionId, Rect)>): (r: map<ItemIndex, seq<(ActionId, Rect)>>)
    ensures index in r <==> |list| > 0
    ensures |list| > 0 ==> r[index] == list
    ensures forall j :: j != index ==> (j in r <==> j in m) && (j in m ==> r[j] == m[j])
  {
    if |list| > 0 then m[index := list] else m - {index}
  }

  /** No item is kept with an empty clickable list. */
  predicate NoEmptyEntries(m: map<ItemIndex, seq<(ActionId, Rect)>>)
  {
    forall j :: j in m ==> |m[j]| > 0
  }

  /** Painting keeps the map free of empty lists. */
  lemma UpdatedClickableKeepsNoEmpty(m: map<ItemIndex, seq<(ActionId, Rect)>>, index: ItemIndex, list: seq<(ActionId, Rect)>)
    requires NoEmptyEntries(m)
    ensures NoEmptyEntries(UpdatedClickable(m, index, list))
  {
  }

  // ---------------------------------------------------------------------
  // Background

  datatype BackgroundKind = NoBackground | ClipCornerBackground | RoundedBackground

  /** A background type: the kind under the type mask, and the NoNormalState
      flag outside it. */
  datatype BackgroundType = BackgroundType(kind: BackgroundKind, noNormalState: bool)

  /** QMargins. */
  datatype Margins = Margins(left: int, top: int, right: int, bottom: int)

  /** The margins a newly set background type gives: none without a
      background, the style's frame radius on every side otherwise. */
  function BackgroundMargins(t: BackgroundType, frameRadius: int): (m: Margins)
    ensures t.kind == NoBackground ==> m == Margins(0, 0, 0, 0)
    ensures t.kind != NoBackground ==> m.left == m.top == m.right == m.bottom == frameRadius
  {
    var zero := Margins(0, 0, 0, 0);
    if t.kind != NoBackground then
      Margins(zero.left + frameRadius, zero.top + frameRadius, zero.right + frameRadius, zero.bottom + frameRadius)
    else zero
  }

  class StyledItemDelegate {
    var backgroundType: BackgroundType
    var margins: Margins
    var clickable: map<ItemIndex, seq<(ActionId, Rect)>>
    var pressedAction: Option<ActionId>
    var triggered: seq<ActionId>

    /** The constructor sets the rounded background. */
    constructor (frameRadius: int)
      ensures backgroundType == BackgroundType(RoundedBackground, false)
      ensures margins == Margins(frameRadius, frameRadius, frameRadius, frameRadius)
      ensures clickable == map[] && pressedAction.None? && triggered == []
    {
      backgroundType := BackgroundType(NoBackground, false);
      margins := Margins(0, 0, 0, 0);
      clickable := map[];
      pressedAction := None;
      triggered := [];
      new;
      SetBackgroundType(BackgroundType(RoundedBackground, false), frameRadius);
    }

    /** backgroundType(): the type under the mask. */
    function BackgroundKind(): BackgroundKind
      reads this
    {
      backgroundType.kind
    }

    /** setBackgroundType: setting the current type changes nothing;
        another type resets the margins to those it calls for. */
    method SetBackgroundType(t: BackgroundType, frameRadius: int)
      modifies this
      ensures backgroundType == t
      ensures margins == (if old(backgroundType) == t then old(margins) else BackgroundMargins(t, frameRadius))
      ensures (clickable, pressedAction, triggered) == old((clickable, pressedAction, triggered))
    {
      if backgroundType == t {
        return;
      }
      backgroundType := t;
      margins := Margins(0, 0, 0, 0);
      if BackgroundKind() != NoBackground {
        margins := Margins(margins.left + frameRadius, margins.top + frameRadius,
                           margins.right + frameRadius, margins.bottom + frameRadius);
      }
    }

    /** The clickable-map update at the end of paint. */
    method UpdateClickable(index: ItemIndex, list: seq<(ActionId, Rect)>)
      modifies this
      ensures clickable == UpdatedClickable(old(clickable), index, list)
      ensures NoEmptyEntries(old(clickable)) ==> NoEmptyEntries(clickable)
      ensures (backgroundType, margins, pressedAction, triggered) == old((backgroundType, margins, pressedAction, triggered))
    {
      if |list| > 0 {
        clickable := clickable[index := list];
      } else {
        clickable := clickable - {index};
      }
    }

    /** eventFilter for an event at (px, py) over the item `index`;
        `enabled` holds the actions that are enabled. */
    method EventFilter(kind: EventKind, index: ItemIndex, px: int, py: int, enabled: set<ActionId>) returns (consumed: bool)
      modifies this
      ensures var entries := if index in old(clickable) then old(clickable)[index] else [];
              var r := Filter(kind, entries, enabled, old(pressedAction), px, py);
              && consumed == r.consumed
              && pressedAction == r.pressed
              && triggered == old(triggered) + (if r.triggered.Some? then [r.triggered.value] else [])
      ensures (backgroundType, margins, clickable) == old((backgroundType, margins, clickable))
    {
      if kind == OtherEvent {
        return false;
      }
      if kind == MouseButtonPress {
        pressedAction := None;
      }
      var entries := if index in clickable then clickable[index] else [];
      var i := 0;
      while i < |entries|
        invariant 0 <= i <= |entries|
        invariant forall j :: 0 <= j < i ==> !Hits(entries[j], enabled, px, py)
      {
        var (action, rect) := entries[i];
        if action in enabled && ContainsProper(rect, px, py) {
          assert FirstHit(entries, enabled, px, py) == Some(i);
          if kind == MouseButtonRelease && pressedAction == Some(action) {
            triggered := triggered + [action];
          } else {
            pressedAction := Some(action);
          }
          return true;
        }
        i := i + 1;
      }
      return false;
    }
  }
}

=== FILE: page_range.dfy ===
/** The custom page-range language of the print preview dialog
    (`1,3,5-7,11-15`): the string operations it is built from, the meaning of
    one comma-separated token, the scan over all tokens, and the
    de-duplicating sort applied to the accepted pages. */
module PageRange {
  import opened Basics

  /** The alert tips of the page-range edit. */
  datatype Tip = NullTip | MaxTip | CommaTip | FormatTip

  /** INT_MAX: QString::toInt fails on anything larger. */
  const IntMax: int := 2147483647

  // ---------------------------------------------------------------------
  // QString::split (empty parts kept) and QStringList::join

  function Split(s: string, sep: char): (parts: seq<string>)
    ensures |parts| >= 1
    ensures sep in s ==> |parts| >= 2
    ensures forall k :: 0 <= k < |parts| ==> sep !in parts[k]
  {
    if |s| == 0 then [""]
    else
      var rest := Split(s[1..], sep);
      if s[0] == sep then [""] + rest
      else [[s[0]] + rest[0]] + rest[1..]
  }

  function Join(parts: seq<string>, sep: char): string
    requires |parts| >= 1
  {
    if |parts| == 1 then parts[0] else parts[0] + [sep] + Join(parts[1..], sep)
  }

  /** Joining the parts of a split gives back the original string. */
  lemma {:induction false} JoinSplit(s: string, sep: char)
    ensures Join(Split(s, sep), sep) == s
  {
    if |s| > 0 {
      var rest := Split(s[1..], sep);
      JoinSplit(s[1..], sep);
      if s[0] == sep {
        assert ([""] + rest)[1..] == rest;
      } else {
        var head := [s[0]] + rest[0];
        var parts := [head] + rest[1..];
        if |rest| == 1 {
          assert Join(parts, sep) == head;
        } else {
          assert parts[1..] == rest[1..];
          assert Join(rest, sep) == rest[0] + [sep] + Join(rest[1..], sep);
          assert Join(parts, sep) == head + [sep] + Join(rest[1..], sep);
        }
        assert s == [s[0]] + s[1..];
      }
    }
  }

  /** Splitting a string that starts with a separator-free prefix: the
      prefix is glued to the first part of the rest. */
  lemma {:induction false} SplitPrefix(a: string, rest: string, sep: char)
    requires sep !in a
    ensures Split(a + rest, sep) == [a + Split(rest, sep)[0]] + Split(rest, sep)[1..]
  {
    if |a| > 0 {
      SplitPrefix(a[1..], rest, sep);
      assert (a + rest)[1..] == a[1..] + rest;
      assert (a + rest)[0] == a[0];
      assert [a[0]] + (a[1..] + Split(rest, sep)[0]) == a + Split(rest, sep)[0];
    } else {
      var parts := Split(rest, sep);
      assert a + rest == rest;
      assert a + parts[0] == parts[0];
      assert parts == [parts[0]] + parts[1..];
    }
  }

  /** Splitting the join of separator-free parts gives back the parts. */
  lemma {:induction false} SplitJoin(parts: seq<string>, sep: char)
    requires |parts| >= 1
    requires forall k :: 0 <= k < |parts| ==> sep !in parts[k]
    ensures Split(Join(parts, sep), sep) == parts
  {
    if |parts| == 1 {
      SplitPrefix(parts[0], "", sep);
      assert parts[0] + "" == parts[0];
    } else {
      var tail := Join(parts[1..], sep);
      SplitJoin(parts[1..], sep);
      SplitPrefix(parts[0], [sep] + tail, sep);
      assert ([sep] + tail)[1..] == tail;
      assert Split([sep] + tail, sep) == [""] + parts[1..];
      assert parts[0] + [sep] + tail == parts[0] + ([sep] + tail);
      assert parts[0] + "" == parts[0];
    }
  }

  // ---------------------------------------------------------------------
  // QString::toInt for decimal digit strings

  predicate IsDigit(c: char) { '0' <= c <= '9' }

  predicate AllDigits(s: string) { forall k :: 0 <= k < |s| ==> IsDigit(s[k]) }

  function DecimalValue(s: string): nat
    requires AllDigits(s)
  {
    if |s| == 0 then 0
    else 10 * DecimalValue(s[..|s| - 1]) + ((s[|s| - 1] as int) - ('0' as int))
  }

  /** The result of `toInt(&ok)`: the value, which is 0 when `ok` is false. */
  datatype Conversion = Conversion(value: int, ok: bool)

  function ToInt(s: string): Conversion
  {
    if |s| > 0 && AllDigits(s) && DecimalValue(s) <= IntMax then Conversion(DecimalValue(s), true)
    else Conversion(0, false)
  }

  /** The decimal spelling of a number, the inverse of ToInt. */
  function DecimalString(n: nat): (s: string)
    ensures |s| > 0 && AllDigits(s)
  {
    var d := (('0' as int) + n % 10) as char;
    if n < 10 then [d] else DecimalString(n / 10) + [d]
  }

  lemma {:induction false} DecimalValueOfString(n: nat)
    ensures DecimalValue(DecimalString(n)) == n
  {
    var s := DecimalString(n);
    if n >= 10 {
      DecimalValueOfString(n / 10);
      assert s[..|s| - 1] == DecimalString(n / 10);
    }
  }

  /** toInt reads back every number it could have been given. */
  lemma ToIntDecimalString(n: nat)
    requires n <= IntMax
    ensures ToInt(DecimalString(n)) == Conversion(n, true)
  {
    DecimalValueOfString(n);
  }

  lemma DigitsHaveNoSeparator(s: string, sep: char)
    requires AllDigits(s) && !IsDigit(sep)
    ensures sep !in s
  {
    forall k | 0 <= k < |s| ensures s[k] != sep {
      assert IsDigit(s[k]);
    }
  }

  // ---------------------------------------------------------------------
  // Pages named by the text

  /** The pages lo, lo + 1, ..., hi in order. */
  function Range(lo: int, hi: int): (r: seq<int>)
    decreases hi - lo
    ensures |r| == if lo <= hi then hi - lo + 1 else 0
    ensures forall k :: 0 <= k < |r| ==> r[k] == lo + k
  {
    if lo > hi then [] else Range(lo, hi - 1) + [hi]
  }

  /** One comma-separated token after it is read: the pages it names, or the
      tip it raises; in both cases with the token as it now stands in the
      edit (a reversed range is rewritten lowest end first). */
  datatype TokenResult = Accepted(pages: seq<int>, token: string) | Rejected(tip: Tip, token: string)

  function EvalToken(tok: string, total: int): TokenResult
  {
    if '-' in tok then
      var ends := Split(tok, '-');
      var first := ToInt(ends[0]);
      var second := ToInt(ends[1]);
      if first.value <= second.value && first.ok && second.ok then
        // the page loop stops at the first page that is 0 or past the end
        if first.value == 0 || second.value > total then Rejected(MaxTip, tok)
        else Accepted(Range(first.value, second.value), tok)
      else if !first.ok || !second.ok then Rejected(MaxTip, tok)
      else
        var swapped := Join([ends[1], ends[0]] + ends[2..], '-');
        if second.value > total || first.value > total then Rejected(MaxTip, swapped)
        else Accepted(Range(second.value, first.value), swapped)
    else
      var n := ToInt(tok);
      if n.value != 0 && n.value <= total then Accepted([n.value], tok) else Rejected(MaxTip, tok)
  }

  /** The state of the scan after a prefix of the tokens: the pages gathered,
      the tokens as they stand in the edit, and the tip that stopped the scan. */
  datatype Scan = Scan(pages: seq<int>, tokens: seq<string>, error: Option<Tip>)

  function ScanTokens(toks: seq<string>, total: int): (r: Scan)
    ensures |r.tokens| == |toks|
  {
    if |toks| == 0 then Scan([], [], None)
    else ScanNext(ScanTokens(toks[..|toks| - 1], total), toks[|toks| - 1], total)
  }

  /** One token more: after an error it is kept as it is; otherwise it is
      evaluated, and its pages and rewritten text are added. */
  function ScanNext(prev: Scan, tok: string, total: int): (r: Scan)
    ensures |r.tokens| == |prev.tokens| + 1
  {
    if prev.error.Some? then Scan(prev.pages, prev.tokens + [tok], prev.error)
    else match EvalToken(tok, total)
      case Accepted(p, t) => Scan(prev.pages + p, prev.tokens + [t], None)
      case Rejected(tip, t) => Scan(prev.pages, prev.tokens + [t], Some(tip))
  }

  /** The scan of a prefix one token longer. */
  lemma ScanStep(toks: seq<string>, i: nat, total: int)
    requires i < |toks|
    ensures ScanTokens(toks[..i + 1], total) == ScanNext(ScanTokens(toks[..i], total), toks[i], total)
  {
    assert toks[..i + 1][..i] == toks[..i];
  }

  /** Once a token is rejected, the remaining tokens are left as they are
      and contribute nothing. */
  lemma {:induction false} ScanStopsAtError(toks: seq<string>, k: nat, total: int)
    requires k <= |toks|
    requires ScanTokens(toks[..k], total).error.Some?
    ensures var p := ScanTokens(toks[..k], total);
            ScanTokens(toks, total) == Scan(p.pages, p.tokens + toks[k..], p.error)
  {
    if k < |toks| {
      var n := |toks| - 1;
      assert toks[..n][..k] == toks[..k];
      ScanStopsAtError(toks[..n], k, total);
      assert toks[..n][k..] + [toks[n]] == toks[k..];
    } else {
      assert toks[..k] == toks;
    }
  }

  /** What the user's text means: the accepted pages (before duplicates are
      removed) or the tip to raise. */
  datatype Parsed = Pages(pages: seq<int>) | Error(tip: Tip)

  datatype ParseOutcome = ParseOutcome(result: Parsed, text: string)

  function CustomPages(text: string, total: int): ParseOutcome
  {
    if |text| == 0 then ParseOutcome(Error(NullTip), text)
    else if text[|text| - 1] == '-' || text[|text| - 1] == ',' then ParseOutcome(Error(FormatTip), text)
    else
      var s := ScanTokens(Split(text, ','), total);
      ParseOutcome(if s.error.Some? then Error(s.error.value) else Pages(s.pages), Join(s.tokens, ','))
  }

  /** The checks made before any token is read. */
  lemma EmptyOrUnfinishedText(text: string, total: int)
    ensures |text| == 0 ==> CustomPages(text, total) == ParseOutcome(Error(NullTip), text)
    ensures |text| > 0 && text[|text| - 1] in {'-', ','} ==>
              CustomPages(text, total) == ParseOutcome(Error(FormatTip), text)
  {
  }

  /** A text of one token leaves the comma split with that token only. */
  lemma OneToken(tok: string, total: int)
    requires |tok| > 0 && ',' !in tok && tok[|tok| - 1] != '-'
    ensures var r := EvalToken(tok, total);
            CustomPages(tok, total) ==
              ParseOutcome(if r.Rejected? then Error(r.tip) else Pages(r.pages), r.token)
  {
    SplitJoin([tok], ',');
    assert Join([tok], ',') == tok;
    assert Split(tok, ',') == [tok];
    assert [tok][..0] == [];
    assert ScanTokens([tok][..0], total) == Scan([], [], None);
    var r := EvalToken(tok, total);
    var s := ScanTokens([tok], total);
    assert s == if r.Accepted? then Scan([] + r.pages, [] + [r.token], None)
                else Scan([], [] + [r.token], Some(r.tip));
    if r.Accepted? { assert [] + r.pages == r.pages; }
    assert [] + [r.token] == [r.token];
    assert s.tokens == [r.token];
    assert Join(s.tokens, ',') == r.token;
    assert tok[|tok| - 1] != ',' by { assert tok[|tok| - 1] in tok; }
  }

  /** A single page number is accepted exactly when it names an existing page. */
  lemma SinglePage(n: nat, total: int)
    requires n <= IntMax
    ensures CustomPages(DecimalString(n), total) ==
              ParseOutcome(if 1 <= n <= total then Pages([n]) else Error(MaxTip), DecimalString(n))
  {
    var s := DecimalString(n);
    DigitsHaveNoSeparator(s, ',');
    DigitsHaveNoSeparator(s, '-');
    assert IsDigit(s[|s| - 1]);
    ToIntDecimalString(n);
    OneToken(s, total);
  }

  lemma RangeTokenSplit(a: nat, b: nat)
    ensures var tok := DecimalString(a) + "-" + DecimalString(b);
            '-' in tok && ',' !in tok && |tok| > 0 && tok[|tok| - 1] != '-' &&
            Split(tok, '-') == [DecimalString(a), DecimalString(b)]
  {
    var x, y := DecimalString(a), DecimalString(b);
    var tok := x + "-" + y;
    DigitsHaveNoSeparator(x, '-');
    DigitsHaveNoSeparator(y, '-');
    SplitJoin([x, y], '-');
    assert Join([y], '-') == y;
    assert Join([x, y], '-') == tok;
    assert tok[|x|] == '-';
    DashJoinedDigits(x, y);
  }

  /** Two digit strings joined by a dash hold no comma and do not end in
      the dash. */
  lemma DashJoinedDigits(x: string, y: string)
    requires AllDigits(x) && AllDigits(y) && |y| > 0
    ensures var tok := x + "-" + y;
            ',' !in tok && tok[|tok| - 1] != '-'
  {
    var tok := x + "-" + y;
    forall k | 0 <= k < |tok| ensures tok[k] != ',' {
      if k < |x| { assert tok[k] == x[k]; }
      else if k > |x| { assert tok[k] == y[k - |x| - 1]; }
    }
    assert tok[|tok| - 1] == y[|y| - 1];
  }

  /** `a-b` with a <= b names the pages a..b, or raises MaxTip when it
      reaches page 0 or passes the last page; the text is left as it is. */
  lemma ForwardRange(a: nat, b: nat, total: int)
    requires a <= b <= IntMax
    ensures var tok := DecimalString(a) + "-" + DecimalString(b);
            CustomPages(tok, total) ==
              ParseOutcome(if 1 <= a && b <= total then Pages(Range(a, b)) else Error(MaxTip), tok)
  {
    RangeTokenSplit(a, b);
    ToIntDecimalString(a);
    ToIntDecimalString(b);
    OneToken(DecimalString(a) + "-" + DecimalString(b), total);
  }

  /** `b-a` with b > a is rewritten to `a-b` in the edit and names the pages
      a..b, or raises MaxTip when b passes the last page. Unlike the forward
      form there is no test for page 0, so `3-0` gives the pages 0..3. */
  lemma ReversedRange(a: nat, b: nat, total: int)
    requires a < b <= IntMax
    ensures var tok := DecimalString(b) + "-" + DecimalString(a);
            CustomPages(tok, total) ==
              ParseOutcome(if b <= total then Pages(Range(a, b)) else Error(MaxTip),
                           DecimalString(a) + "-" + DecimalString(b))
  {
    var tok := DecimalString(b) + "-" + DecimalString(a);
    RangeTokenSplit(b, a);
    RangeTokenSplit(a, b);
    ToIntDecimalString(a);
    ToIntDecimalString(b);
    var ends := [DecimalString(b), DecimalString(a)];
    assert [ends[1], ends[0]] + ends[2..] == [DecimalString(a), DecimalString(b)];
    assert Join([DecimalString(b)], '-') == DecimalString(b);
    assert Join([DecimalString(a), DecimalString(b)], '-') == DecimalString(a) + "-" + DecimalString(b);
    OneToken(tok, total);
  }

  /** Every page a scan accepts lies between 0 and the page count. */
  lemma {:induction false} ScanPagesBounded(toks: seq<string>, total: int)
    ensures forall p :: p in ScanTokens(toks, total).pages ==> 0 <= p <= total
  {
    if |toks| > 0 {
      var prefix := toks[..|toks| - 1];
      ScanPagesBounded(prefix, total);
      var prev := ScanTokens(prefix, total);
      if prev.error.None? {
        var r := EvalToken(toks[|toks| - 1], total);
        if r.Accepted? {
          forall p | p in r.pages ensures 0 <= p <= total {
            var k :| 0 <= k < |r.pages| && r.pages[k] == p;
          }
        }
      }
    }
  }

  /** Every page of an accepted text lies between 0 and the page count. */
  lemma AcceptedPagesBounded(text: string, total: int)
    requires CustomPages(text, total).result.Pages?
    ensures forall p :: p in CustomPages(text, total).result.pages ==> 0 <= p <= total
  {
    ScanPagesBounded(Split(text, ','), total);
  }

  // ---------------------------------------------------------------------
  // checkDuplication

  predicate Sorted(s: seq<int>) { forall a, b :: 0 <= a < b < |s| ==> s[a] <= s[b] }

  predicate StrictlyAscending(s: seq<int>) { forall a, b :: 0 <= a < b < |s| ==> s[a] < s[b] }

  predicate Distinct(s: seq<int>) { forall a, b :: 0 <= a < b < |s| ==> s[a] != s[b] }

  /** Inserting one value into a sorted sequence. */
  function Insert(s: seq<int>, x: int): (r: seq<int>)
    ensures multiset(r) == multiset(s) + multiset{x}
  {
    if s == [] || x <= s[0] then [x] + s
    else
      assert s == [s[0]] + s[1..];
      [s[0]] + Insert(s[1..], x)
  }

  lemma InsertMembers(s: seq<int>, x: int)
    ensures forall y :: y in Insert(s, x) <==> y == x || y in s
  {
    forall y ensures y in Insert(s, x) <==> y == x || y in s {
      assert y in Insert(s, x) <==> y in multiset(Insert(s, x));
      assert y in s <==> y in multiset(s);
    }
  }

  lemma ConsSorted(h: int, t: seq<int>)
    requires Sorted(t) && forall y :: y in t ==> h <= y
    ensures Sorted([h] + t)
  {
    var r := [h] + t;
    forall a, b | 0 <= a < b < |r| ensures r[a] <= r[b] {
      assert r[b] == t[b - 1] && t[b - 1] in t;
      if a > 0 { assert r[a] == t[a - 1]; }
    }
  }

  lemma ConsAscending(h: int, t: seq<int>)
    requires StrictlyAscending(t) && forall y :: y in t ==> h < y
    ensures StrictlyAscending([h] + t)
  {
    var r := [h] + t;
    forall a, b | 0 <= a < b < |r| ensures r[a] < r[b] {
      assert r[b] == t[b - 1] && t[b - 1] in t;
      if a > 0 { assert r[a] == t[a - 1]; }
    }
  }

  /** Insertion keeps a sorted sequence sorted. */
  lemma {:induction false} InsertSorted(s: seq<int>, x: int)
    requires Sorted(s)
    ensures Sorted(Insert(s, x))
  {
    InsertMembers(s, x);
    if s == [] || x <= s[0] {
      forall y | y in s ensures x <= y {
        var k :| 0 <= k < |s| && s[k] == y;
        assert s[0] <= s[k];
      }
      ConsSorted(x, s);
    } else {
      InsertSorted(s[1..], x);
      InsertMembers(s[1..], x);
      forall y | y in Insert(s[1..], x) ensures s[0] <= y {
        if y != x {
          var k :| 0 <= k < |s[1..]| && s[1..][k] == y;
          assert s[0] <= s[k + 1];
        }
      }
      ConsSorted(s[0], Insert(s[1..], x));
    }
  }

  /** Insertion of a new value keeps a strictly ascending sequence strictly
      ascending. */
  lemma {:induction false} InsertAscending(s: seq<int>, x: int)
    requires StrictlyAscending(s) && x !in s
    ensures StrictlyAscending(Insert(s, x))
  {
    InsertMembers(s, x);
    if s == [] || x <= s[0] {
      forall y | y in s ensures x < y {
        var k :| 0 <= k < |s| && s[k] == y;
        assert s[0] <= s[k];
        assert s[0] != x by { assert s[0] in s; }
      }
      ConsAscending(x, s);
    } else {
      assert x !in s[1..];
      InsertAscending(s[1..], x);
      InsertMembers(s[1..], x);
      forall y | y in Insert(s[1..], x) ensures s[0] < y {
        if y != x {
          var k :| 0 <= k < |s[1..]| && s[1..][k] == y;
          assert s[0] < s[k + 1];
        }
      }
      ConsAscending(s[0], Insert(s[1..], x));
    }
  }

  /** qSort: an ascending permutation of its input; a sequence without
      duplicates comes out strictly ascending. */
  method Sort(s: seq<int>) returns (r: seq<int>)
    ensures Sorted(r) && multiset(r) == multiset(s)
    ensures Distinct(s) ==> StrictlyAscending(r)
  {
    r := [];
    for k := 0 to |s|
      invariant Sorted(r) && multiset(r) == multiset(s[..k])
      invariant Distinct(s) ==> StrictlyAscending(r)
    {
      assert s[..k + 1] == s[..k] + [s[k]];
      if Distinct(s) {
        assert s[k] !in multiset(s[..k]);
        assert s[k] !in multiset(r);
      }
      InsertSorted(r, s[k]);
      if Distinct(s) {
        InsertAscending(r, s[k]);
      }
      r := Insert(r, s[k]);
    }
    assert s[..|s|] == s;
  }

  /** checkDuplication: removes later copies of each value in place, then
      sorts. The result lists each value of the input once, in ascending order. */
  method CheckDuplication(input: seq<int>) returns (data: seq<int>)
    ensures StrictlyAscending(data)
    ensures forall x :: x in data <==> x in input
  {
    data := input;
    var i := 0;
    while i < |data|
      invariant 0 <= i <= |data|
      decreases |data| - i
      invariant forall x :: x in data <==> x in input
      invariant forall a, b :: 0 <= a < i && a < b < |data| ==> data[a] != data[b]
    {
      var j := i + 1;
      ghost var before := |data|;
      while j < |data|
        invariant i < j <= |data| <= before
        invariant forall x :: x in data <==> x in input
        invariant forall a, b :: 0 <= a < i && a < b < |data| ==> data[a] != data[b]
        invariant forall b :: i < b < j ==> data[i] != data[b]
        decreases |data| - j
      {
        if data[i] == data[j] {
          data := data[..j] + data[j + 1..];
          j := j - 1;
        }
        j := j + 1;
      }
      i := i + 1;
    }
    assert Distinct(data);
    var sorted := Sort(data);
    forall x ensures x in sorted <==> x in data {
      assert x in sorted <==> x in multiset(sorted);
      assert x in data <==> x in multiset(data);
    }
    data := sorted;
  }

  /** The result of checkDuplication is the only strictly ascending sequence
      holding exactly the values of its input. */
  lemma HeadIsMember(s: seq<int>)
    ensures |s| > 0 ==> s[0] in s
  {
  }

  /** The head of a strictly ascending sequence is its least value, and
      the tail holds exactly the other values, still ascending. */
  lemma AscendingTail(a: seq<int>)
    requires StrictlyAscending(a) && |a| > 0
    ensures forall x :: x in a ==> a[0] <= x
    ensures forall x :: x in a[1..] <==> x in a && x != a[0]
    ensures StrictlyAscending(a[1..])
  {
    forall x | x in a[1..] ensures x in a && x != a[0] {
      var k :| 0 <= k < |a| - 1 && a[1..][k] == x;
      assert a[k + 1] == x;
    }
    forall x | x in a ensures a[0] <= x && (x != a[0] ==> x in a[1..]) {
      var k :| 0 <= k < |a| && a[k] == x;
      if k > 0 {
        assert a[1..][k - 1] == x;
      }
    }
  }

  lemma {:induction false} AscendingListingUnique(a: seq<int>, b: seq<int>)
    requires StrictlyAscending(a) && StrictlyAscending(b)
    requires forall x :: x in a <==> x in b
    ensures a == b
  {
    if |a| == 0 || |b| == 0 {
      HeadIsMember(a);
      HeadIsMember(b);
    } else {
      AscendingTail(a);
      AscendingTail(b);
      assert a[0] in a && b[0] in b;
      assert a[0] == b[0];
      AscendingListingUnique(a[1..], b[1..]);
      assert a == [a[0]] + a[1..];
      assert b == [b[0]] + b[1..];
    }
  }
}

=== FILE: print_preview.dfy ===
/** The print preview dialog's settings logic: the custom page-range edit
    and its error display, the turn-page buttons, the margin presets and
    their minimum, and the paper-size and duplex choices handed to the
    printer. Widgets are reduced to the values they hold. */
module PrintPreview {
  import opened Basics
  import opened PageRange

  /** Indices of "All pages", "Current page" and "Select pages" in the
      page-range combo; the first two are also the preview widget's range
      modes of the same name. */
  const PageRangeAll: int := 0
  const PageRangeCurrent: int := 1
  const PageRangeSelect: int := 2

  // ---------------------------------------------------------------------
  // Margins (millimetres)

  datatype Margins = Margins(left: real, top: real, right: real, bottom: real)

  const NormalLeftRight: real := 31.8
  const NormalModerateTopBottom: real := 25.4
  const ModerateLeftRight: real := 19.1

  /** A value raised to a minimum if it is below it. */
  function RaiseTo(v: real, min: real): (r: real)
    ensures r >= v && r >= min
    ensures r == v || r == min
  {
    if v < min then min else v
  }

  /** The margins after each is raised to its minimum. */
  function ClampMargins(m: Margins, min: Margins): Margins
  {
    Margins(RaiseTo(m.left, min.left), RaiseTo(m.top, min.top),
            RaiseTo(m.right, min.right), RaiseTo(m.bottom, min.bottom))
  }

  predicate AtLeast(m: Margins, min: Margins)
  {
    m.left >= min.left && m.top >= min.top && m.right >= min.right && m.bottom >= min.bottom
  }

  /** Clamping leaves margins alone exactly when they already respect the
      minimum, and its result always respects the minimum. */
  lemma ClampFixedPoint(m: Margins, min: Margins)
    ensures AtLeast(ClampMargins(m, min), min)
    ensures ClampMargins(m, min) == m <==> AtLeast(m, min)
  {
  }

  /** Clamping twice is clamping once. */
  lemma ClampIdempotent(m: Margins, min: Margins)
    ensures ClampMargins(ClampMargins(m, min), min) == ClampMargins(m, min)
  {
    ClampFixedPoint(m, min);
    ClampFixedPoint(ClampMargins(m, min), min);
  }

  /** The margins chosen by the margin combo: Normal, Moderate, or else the
      printer's minimum margins. */
  function MarginPreset(index: int, printerMin: Margins): (r: Margins)
    ensures index == 1 ==> r.left == r.right == NormalLeftRight && r.top == r.bottom == NormalModerateTopBottom
    ensures index == 2 ==> r.left == r.right == ModerateLeftRight && r.top == r.bottom == NormalModerateTopBottom
    ensures index != 1 && index != 2 ==> r == printerMin
  {
    if index == 1 then Margins(NormalLeftRight, NormalModerateTopBottom, NormalLeftRight, NormalModerateTopBottom)
    else if index == 2 then Margins(ModerateLeftRight, NormalModerateTopBottom, ModerateLeftRight, NormalModerateTopBottom)
    else printerMin
  }

  /** Every preset other than Normal and Moderate is already at the
      minimum, so the minimum clamp never moves it. */
  lemma MinimumPresetIsLegal(index: int, printerMin: Margins)
    requires index != 1 && index != 2
    ensures ClampMargins(MarginPreset(index, printerMin), printerMin) == MarginPreset(index, printerMin)
  {
    ClampFixedPoint(printerMin, printerMin);
  }

  /** The four values the dialog remembers to detect a change in the spin
      boxes, in the order top, left, right, bottom. */
  function Remembered(m: Margins): seq<real>
  {
    [m.top, m.left, m.right, m.bottom]
  }

  /** The remembered-margins list as the preset handler updates it: it is
      emptied only when it holds more than four values, then the new four
      are appended. */
  function RememberAsWritten(history: seq<real>, m: Margins): (r: seq<real>)
    ensures |r| == (if |history| > 4 then 4 else |history| + 4)
  {
    (if |history| > 4 then [] else history) + Remembered(m)
  }

  /** Opening the dialog remembers the minimum preset twice (once when the
      dialog is set up and once when the printer is first chosen), so the
      list holds eight values. Choosing Normal then clears it, but choosing
      Moderate next only appends, leaving Normal's values in front: once
      the printer holds Moderate, typing Normal's margins back into the
      spin boxes looks like no change and is never applied. */
  lemma RememberAsWrittenKeepsStaleValues(printerMin: Margins)
    requires AtLeast(MarginPreset(1, printerMin), printerMin)
    ensures var normal := MarginPreset(1, printerMin);
            var moderate := MarginPreset(2, printerMin);
            var atOpen := RememberAsWritten(RememberAsWritten([], printerMin), printerMin);
            var history := RememberAsWritten(RememberAsWritten(atOpen, normal), moderate);
            && |atOpen| == 8 && |history| == 8
            && ClampMargins(normal, printerMin) == normal
            && normal != moderate
            && MarginsUnchanged(history, normal)
  {
    var normal := MarginPreset(1, printerMin);
    var moderate := MarginPreset(2, printerMin);
    var atOpen := RememberAsWritten(RememberAsWritten([], printerMin), printerMin);
    var chosen := RememberAsWritten(atOpen, normal);
    assert chosen == Remembered(normal);
    var history := RememberAsWritten(chosen, moderate);
    assert history[..4] == Remembered(normal);
    ClampFixedPoint(normal, printerMin);
  }

  /** The check made before the edited margins are applied: whether they
      equal the first four remembered values. */
  predicate MarginsUnchanged(history: seq<real>, m: Margins)
  {
    |history| >= 4 && history[..4] == Remembered(m)
  }

  /** The remembered-margins list as intended: exactly the current four. */
  function Remember(history: seq<real>, m: Margins): (r: seq<real>)
    ensures |r| == 4
    ensures MarginsUnchanged(r, m)
    ensures forall other: Margins :: MarginsUnchanged(r, other) ==> other == m
  {
    Remembered(m)
  }

  // ---------------------------------------------------------------------
  // Turn-page buttons

  datatype Buttons = Buttons(first: bool, prev: bool, next: bool, last: bool)

  /** The enable flags of the first/previous/next/last buttons for the
      current page and the page count; None leaves the buttons as they are. */
  function TurnPageStatus(cur: int, total: int): Option<Buttons>
  {
    if cur > 1 && cur < total then Some(Buttons(true, true, true, true))
    else if cur == 1 && cur == total then Some(Buttons(false, false, false, false))
    else if cur == 1 then Some(Buttons(false, false, true, true))
    else if total == 0 then Some(Buttons(false, false, false, false))
    else if cur == total then Some(Buttons(true, true, false, false))
    else None
  }

  /** On a page of the document, going back is possible exactly when the
      page is not the first, and going forward exactly when it is not the
      last. */
  lemma TurnPageOnAPage(cur: int, total: int)
    requires 1 <= cur <= total
    ensures TurnPageStatus(cur, total) == Some(Buttons(cur > 1, cur > 1, cur < total, cur < total))
  {
  }

  /** The states outside the document: no pages at all disables everything
      except on page 1, where next and last stay enabled; any other current
      page outside 1..total leaves the buttons alone. */
  lemma TurnPageOutsideDocument(cur: int, total: int)
    requires cur < 1 || cur > total
    ensures total == 0 && cur != 1 ==> TurnPageStatus(cur, total) == Some(Buttons(false, false, false, false))
    ensures cur == 1 ==> TurnPageStatus(cur, total) == Some(Buttons(false, false, true, true))
    ensures total != 0 && cur != 1 && cur != total ==> TurnPageStatus(cur, total) == None
  {
  }

  // ---------------------------------------------------------------------
  // Paper size and duplex

  datatype PageSize = A3 | A4 | A5 | B4 | B5 | CustomMM(width: int, height: int) | PrinterSize(key: string)

  /** The paper sizes listed for the two file outputs (PDF and image). */
  const FilePaperSizes: seq<PageSize> := [A3, A4, A5, B4, B5, CustomMM(270, 390), CustomMM(195, 270)]

  /** The page size set on the printer; None sets nothing. A real printer
      (any device entry but the last two) takes the size it reported at the
      paper index; the file outputs use the fixed list. */
  function PaperSizeFor(device: int, deviceCount: int, paper: int, supported: seq<PageSize>): Option<PageSize>
    requires device != deviceCount - 1 && device != deviceCount - 2 ==> 0 <= paper < |supported|
  {
    if device != deviceCount - 1 && device != deviceCount - 2 then Some(supported[paper])
    else if paper == 0 then Some(A3)
    else if paper == 1 then Some(A4)
    else if paper == 2 then Some(A5)
    else if paper == 3 then Some(B4)
    else if paper == 4 then Some(B5)
    else if paper == 5 then Some(CustomMM(270, 390))
    else if paper == 6 then Some(CustomMM(195, 270))
    else None
  }

  /** The page size given to the printer is the one shown at the selected
      entry of the paper combo, for real printers and file outputs alike. */
  lemma PaperSizeIsListedEntry(device: int, deviceCount: int, paper: int, supported: seq<PageSize>)
    requires device != deviceCount - 1 && device != deviceCount - 2 ==> 0 <= paper < |supported|
    ensures var listed := if device != deviceCount - 1 && device != deviceCount - 2 then supported else FilePaperSizes;
            PaperSizeFor(device, deviceCount, paper, supported) ==
              if 0 <= paper < |listed| then Some(listed[paper]) else None
  {
  }

  datatype Duplex = DuplexNone | DuplexLongSide | DuplexShortSide

  /** The duplex mode set on the printer; None sets nothing. */
  function DuplexFor(checked: bool, comboCount: int, comboIndex: int, supportedDuplexFlag: bool): Option<Duplex>
  {
    if !checked then Some(DuplexNone)
    else if comboCount == 1 then Some(if supportedDuplexFlag then DuplexLongSide else DuplexShortSide)
    else if comboIndex == 0 then Some(DuplexLongSide)
    else if comboIndex == 1 then Some(DuplexShortSide)
    else None
  }

  /** The duplex combo entries offered for the printer's supported modes,
      and the flag recorded with them (unchanged when both are offered). */
  function DuplexEntries(longSide: bool, shortSide: bool, oldFlag: bool): (seq<Duplex>, bool)
  {
    if !longSide && !shortSide then ([], oldFlag)
    else if !longSide then ([DuplexShortSide], false)
    else if !shortSide then ([DuplexLongSide], true)
    else ([DuplexLongSide, DuplexShortSide], oldFlag)
  }

  /** With two-sided printing checked, the printer receives exactly the
      duplex mode of the selected combo entry; unchecked, it prints one-sided. */
  lemma DuplexIsSelectedEntry(longSide: bool, shortSide: bool, oldFlag: bool, checked: bool, index: int)
    requires longSide || shortSide
    requires 0 <= index < |DuplexEntries(longSide, shortSide, oldFlag).0|
    ensures var (entries, flag) := DuplexEntries(longSide, shortSide, oldFlag);
            DuplexFor(checked, |entries|, index, flag) == Some(if checked then entries[index] else DuplexNone)
  {
  }

  // ---------------------------------------------------------------------
  // The dialog

  /** Replacing the first of the unread tokens: the read prefix grows by
      the replacement and the rest is unchanged. */
  lemma ReplaceHead(read: seq<string>, rest: seq<string>, t: string)
    requires |rest| > 0
    ensures (read + rest)[|read| := t] == read + [t] + rest[1..]
  {
    assert forall k :: 0 <= k < |read| ==> (read + rest)[|read| := t][k] == read[k];
  }

  class PrintPreviewDialog {
    // page-range edit and its effects
    var pageRangeIndex: int
    var pageRangeText: string
    var lastPageRange: string
    var totalPages: int
    var printEnabled: bool
    var alert: bool
    var isOnFocus: bool
    /** Tips shown so far, oldest first. */
    var shownTips: seq<Tip>
    /** The page list last handed to the preview widget. */
    var previewPages: Option<seq<int>>
    // turn-page controls
    var jumpPage: int
    var totalPageText: string
    var buttons: Buttons
    // margins
    var margins: Margins
    var minMargins: Margins
    var printerMargins: Margins
    var marginOld: seq<real>

    ghost function RangeView(): (int, string, string, int, bool, bool, bool, seq<Tip>, Option<seq<int>>)
      reads this
    {
      (pageRangeIndex, pageRangeText, lastPageRange, totalPages, printEnabled, alert, isOnFocus, shownTips, previewPages)
    }

    ghost function TurnPageView(): (int, string, Buttons)
      reads this
    {
      (jumpPage, totalPageText, buttons)
    }

    ghost function MarginView(): (Margins, Margins, Margins, seq<real>)
      reads this
    {
      (margins, minMargins, printerMargins, marginOld)
    }

    /** The preview widget is in its "select pages" range mode: the last
        page-range change chose neither all pages nor the current page. */
    predicate SelectingPages()
      reads this
    {
      pageRangeIndex != PageRangeAll && pageRangeIndex != PageRangeCurrent
    }

    /** The remembered margins are those last given to the printer. */
    predicate MarginsTracked()
      reads this
    {
      marginOld == Remembered(printerMargins)
    }

    /** A freshly built dialog: all pages, empty edit, Print enabled, the
        printer's minimum margins. No document has been reported yet, so
        the jump spin box holds its default 0, the total-page label is
        empty, and the turn-page buttons are all disabled. */
    constructor (printerMin: Margins)
      ensures pageRangeIndex == 0 && pageRangeText == "" && lastPageRange == "" && totalPages == 0
      ensures printEnabled && !alert && !isOnFocus && shownTips == [] && previewPages == None
      ensures jumpPage == 0 && totalPageText == "" && buttons == Buttons(false, false, false, false)
      ensures margins == printerMin == minMargins == printerMargins && marginOld == Remembered(printerMin)
      ensures MarginsTracked()
    {
      pageRangeIndex, pageRangeText, lastPageRange, totalPages := 0, "", "", 0;
      printEnabled, alert, isOnFocus, shownTips, previewPages := true, false, false, [], None;
      jumpPage, totalPageText, buttons := 0, "", Buttons(false, false, false, false);
      margins, minMargins, printerMargins := printerMin, printerMin, printerMin;
      marginOld := Remembered(printerMin);
    }

    /** Print is enabled and the alert cleared exactly for a legal range. */
    method SetPageIsLegal(legal: bool)
      modifies this
      ensures printEnabled == legal && alert == !legal
      ensures (pageRangeIndex, pageRangeText, lastPageRange, totalPages, isOnFocus, shownTips, previewPages) ==
              old((pageRangeIndex, pageRangeText, lastPageRange, totalPages, isOnFocus, shownTips, previewPages))
      ensures TurnPageView() == old(TurnPageView()) && MarginView() == old(MarginView())
    {
      printEnabled := legal;
      alert := !legal;
    }

    /** An error disables Print, raises the alert, shows the tip only while
        the edit has just had focus, and clears that focus mark. */
    method PageRangeError(tip: Tip)
      modifies this
      ensures !printEnabled && alert && !isOnFocus
      ensures shownTips == old(shownTips) + (if old(isOnFocus) then [tip] else [])
      ensures (pageRangeIndex, pageRangeText, lastPageRange, totalPages, previewPages) ==
              old((pageRangeIndex, pageRangeText, lastPageRange, totalPages, previewPages))
      ensures TurnPageView() == old(TurnPageView()) && MarginView() == old(MarginView())
    {
      SetPageIsLegal(false);
      if isOnFocus {
        shownTips := shownTips + [tip];
      }
      isOnFocus := false;
    }

    /** The page loop of a forward range `a-b`: each page is appended
        until one is 0 or past the last page, which raises MaxTip. */
    static method ReadForward(acc: seq<int>, a: int, b: int, total: int) returns (pages: seq<int>, error: Option<Tip>)
      requires 0 <= a <= b
      ensures error == (if a == 0 || b > total then Some(MaxTip) else None)
      ensures error == None ==> pages == acc + Range(a, b)
    {
      pages, error := acc, None;
      var page := a;
      while page <= b
        invariant a <= page <= b + 1
        invariant pages == acc + Range(a, page - 1)
        invariant page > a ==> a != 0 && page - 1 <= total
      {
        if page != 0 && page <= total {
          pages := pages + [page];
        } else {
          error := Some(MaxTip);
          return;
        }
        page := page + 1;
      }
    }

    /** The page loop of a rewritten range: every page from lo to hi. */
    static method ReadAll(acc: seq<int>, lo: int, hi: int) returns (pages: seq<int>)
      requires lo <= hi
      ensures pages == acc + Range(lo, hi)
    {
      pages := acc;
      var page := lo;
      while page <= hi
        invariant lo <= page <= hi + 1
        invariant pages == acc + Range(lo, page - 1)
      {
        pages := pages + [page];
        page := page + 1;
      }
    }

    /** Reads one token, appending the pages it names to `acc`: a forward
        range checks each page, a reversed one is rewritten lowest end first
        and checks only its ends, a single number must name a page. */
    static method ReadToken(acc: seq<int>, tok: string, total: int) returns (pages: seq<int>, token: string, error: Option<Tip>)
      ensures match EvalToken(tok, total)
                case Accepted(p, t) => pages == acc + p && token == t && error == None
                case Rejected(tip, t) => token == t && error == Some(tip)
    {
      pages, token, error := acc, tok, None;
      if '-' in tok {
        var ends := Split(tok, '-');
        var first := ToInt(ends[0]);
        var second := ToInt(ends[1]);
        if first.value <= second.value && first.ok && second.ok {
          pages, error := ReadForward(acc, first.value, second.value, total);
        } else if !first.ok || !second.ok {
          error := Some(MaxTip);
        } else {
          var swapped := [ends[1], ends[0]] + ends[2..];
          token := Join(swapped, '-');
          if second.value > total || first.value > total {
            error := Some(MaxTip);
          } else {
            pages := ReadAll(acc, second.value, first.value);
          }
        }
      } else {
        var n := ToInt(tok).value;
        if n != 0 && n <= total {
          pages := pages + [n];
        } else {
          error := Some(MaxTip);
        }
      }
    }

    /** Editing of the custom page range finished: outside "Select pages"
        nothing happens; otherwise the text is remembered, read token by
        token, reversed ranges are rewritten in the edit, and either the
        de-duplicated ascending page list goes to the preview or the error
        of the first bad token is reported. */
    method CustomPagesFinished()
      modifies this
      ensures old(pageRangeIndex) != PageRangeSelect ==> RangeView() == old(RangeView())
      ensures old(pageRangeIndex) == PageRangeSelect ==>
                var out := CustomPages(old(pageRangeText), old(totalPages));
                && lastPageRange == old(pageRangeText)
                && pageRangeText == out.text
                && (pageRangeIndex, totalPages) == old((pageRangeIndex, totalPages))
                && match out.result
                   case Pages(p) =>
                     && printEnabled && !alert && isOnFocus == old(isOnFocus) && shownTips == old(shownTips)
                     && previewPages.Some? && StrictlyAscending(previewPages.value)
                     && (forall x :: x in previewPages.value <==> x in p)
                   case Error(tip) =>
                     && !printEnabled && alert && !isOnFocus && previewPages == old(previewPages)
                     && shownTips == old(shownTips) + (if old(isOnFocus) then [tip] else [])
      ensures TurnPageView() == old(TurnPageView()) && MarginView() == old(MarginView())
    {
      if pageRangeIndex != PageRangeSelect {
        return;
      }
      var cuspages := pageRangeText;
      lastPageRange := cuspages;
      SetPageIsLegal(true);
      if |cuspages| == 0 {
        PageRangeError(NullTip);
        return;
      }
      if cuspages[|cuspages| - 1] == '-' || cuspages[|cuspages| - 1] == ',' {
        PageRangeError(FormatTip);
        return;
      }
      var pagesrange, error := ReadPageList(cuspages);
      if error.Some? {
        PageRangeError(error.value);
        return;
      }
      var page := CheckDuplication(pagesrange);
      previewPages := Some(page);
    }

    /** The token loop of the page-range reader: the comma-separated tokens
        are read in order, a rewritten token replaces the one read, and
        reading stops at the first rejected token. */
    static method ScanList(toks: seq<string>, total: int) returns (pagesrange: seq<int>, list: seq<string>, error: Option<Tip>)
      ensures var s := ScanTokens(toks, total);
              list == s.tokens && error == s.error && (error.None? ==> pagesrange == s.pages)
    {
      list := toks;
      pagesrange, error := [], None;
      ghost var done: seq<string> := [];
      var i := 0;
      while i < |list|
        invariant 0 <= i <= |toks| && |list| == |toks|
        invariant ScanTokens(toks[..i], total) == Scan(pagesrange, done, None)
        invariant list == done + toks[i..]
        invariant error == None
      {
        ScanStep(toks, i, total);
        assert list[i] == toks[i];
        var token;
        pagesrange, token, error := ReadToken(pagesrange, list[i], total);
        ReplaceHead(done, toks[i..], token);
        assert toks[i..][1..] == toks[i + 1..];
        list := list[i := token];
        done := done + [token];
        if error.Some? {
          ScanStopsAtError(toks, i + 1, total);
          return;
        }
        i := i + 1;
      }
      assert toks[..i] == toks;
      assert list == done;
    }

    /** Reads the page list of the edit's text; the edit shows every
        reversed range rewritten. */
    method ReadPageList(text: string) returns (pagesrange: seq<int>, error: Option<Tip>)
      requires pageRangeText == text
      modifies this
      ensures var s := ScanTokens(Split(text, ','), totalPages);
              pageRangeText == Join(s.tokens, ',') && error == s.error && (error.None? ==> pagesrange == s.pages)
      ensures (pageRangeIndex, lastPageRange, totalPages, printEnabled, alert, isOnFocus, shownTips, previewPages) ==
              old((pageRangeIndex, lastPageRange, totalPages, printEnabled, alert, isOnFocus, shownTips, previewPages))
      ensures TurnPageView() == old(TurnPageView()) && MarginView() == old(MarginView())
    {
      var list := Split(text, ',');
      JoinSplit(text, ',');
      var tokens;
      pagesrange, tokens, error := ScanList(list, totalPages);
      if tokens != list {
        pageRangeText := Join(tokens, ',');
      }
    }

    /** The turn-page buttons follow the current page and the page count
        shown in the total-page label. */
    method SetTurnPageBtnStatus()
      modifies this
      ensures var status := TurnPageStatus(old(jumpPage), ToInt(old(totalPageText)).value);
              buttons == if status.Some? then status.value else old(buttons)
      ensures (jumpPage, totalPageText) == old((jumpPage, totalPageText))
      ensures RangeView() == old(RangeView()) && MarginView() == old(MarginView())
    {
      var currentPage := jumpPage;
      var totalPage := ToInt(totalPageText).value;
      if currentPage > 1 && currentPage < totalPage {
        buttons := Buttons(true, true, true, true);
      } else if currentPage == 1 && currentPage == totalPage {
        buttons := Buttons(false, false, false, false);
      } else if currentPage == 1 {
        buttons := Buttons(false, false, true, true);
      } else if totalPage == 0 {
        buttons := Buttons(false, false, false, false);
      } else if currentPage == totalPage {
        buttons := Buttons(true, true, false, false);
      }
    }

    /** The page-range combo switched to `index` and its slot ran: the edit
        is emptied; all pages or the current page make the range legal and,
        once a document is loaded, show the target page count, hand the
        whole document to the preview and (for all pages) go to page 1; any
        other choice re-reads the last typed range, or is illegal without
        one, and empties an alerted edit; then the turn-page buttons are
        refreshed. `targetCount` and `originCount` are the preview widget's
        page counts for the new mode. */
    method PageRangeChanged(index: int, targetCount: nat, originCount: int)
      modifies this
      ensures pageRangeIndex == index && totalPages == old(totalPages) && MarginView() == old(MarginView())
      ensures var status := TurnPageStatus(jumpPage, ToInt(totalPageText).value);
              buttons == if status.Some? then status.value else old(buttons)
      ensures index == PageRangeAll || index == PageRangeCurrent ==>
                && pageRangeText == "" && printEnabled && !alert
                && (lastPageRange, isOnFocus, shownTips) == old((lastPageRange, isOnFocus, shownTips))
                && (old(totalPages) != 0 ==>
                      && totalPageText == DecimalString(targetCount)
                      && previewPages == Some(Range(1, originCount))
                      && jumpPage == if index == PageRangeAll then 1 else old(jumpPage))
                && (old(totalPages) == 0 ==> (jumpPage, totalPageText, previewPages) == old((jumpPage, totalPageText, previewPages)))
      ensures index != PageRangeAll && index != PageRangeCurrent ==>
                (jumpPage, totalPageText) == old((jumpPage, totalPageText)) && lastPageRange == old(lastPageRange)
      ensures index != PageRangeAll && index != PageRangeCurrent && old(lastPageRange) == "" ==>
                && pageRangeText == "" && !printEnabled && alert
                && (isOnFocus, shownTips, previewPages) == old((isOnFocus, shownTips, previewPages))
      ensures index == PageRangeSelect && old(lastPageRange) != "" ==>
                var out := CustomPages(old(lastPageRange), old(totalPages));
                match out.result
                case Pages(p) =>
                  && pageRangeText == out.text && printEnabled && !alert
                  && (isOnFocus, shownTips) == old((isOnFocus, shownTips))
                  && previewPages.Some? && StrictlyAscending(previewPages.value)
                  && (forall x :: x in previewPages.value <==> x in p)
                case Error(tip) =>
                  && pageRangeText == "" && !printEnabled && alert && !isOnFocus && previewPages == old(previewPages)
                  && shownTips == old(shownTips) + (if old(isOnFocus) then [tip] else [])
      ensures index != PageRangeAll && index != PageRangeCurrent && index != PageRangeSelect && old(lastPageRange) != "" ==>
                && pageRangeText == (if old(alert) then "" else old(lastPageRange))
                && (printEnabled, alert, isOnFocus, shownTips, previewPages) == old((printEnabled, alert, isOnFocus, shownTips, previewPages))
    {
      pageRangeIndex := index;
      if index == PageRangeAll || index == PageRangeCurrent {
        WholeDocument(targetCount, originCount);
      } else {
        SelectPages();
      }
      SetTurnPageBtnStatus();
    }

    /** The "all pages" and "current page" branch of the page-range slot. */
    method WholeDocument(targetCount: nat, originCount: int)
      requires !SelectingPages()
      modifies this
      ensures pageRangeText == "" && printEnabled && !alert
      ensures (pageRangeIndex, lastPageRange, totalPages, isOnFocus, shownTips) == old((pageRangeIndex, lastPageRange, totalPages, isOnFocus, shownTips))
      ensures old(totalPages) != 0 ==>
                && totalPageText == DecimalString(targetCount)
                && previewPages == Some(Range(1, originCount))
                && jumpPage == if pageRangeIndex == PageRangeAll then 1 else old(jumpPage)
      ensures old(totalPages) == 0 ==> (jumpPage, totalPageText, previewPages) == old((jumpPage, totalPageText, previewPages))
      ensures buttons == old(buttons) && MarginView() == old(MarginView())
    {
      pageRangeText := "";
      SetPageIsLegal(true);
      if totalPages != 0 {
        totalPageText := DecimalString(targetCount);
        previewPages := Some(Range(1, originCount));
        if pageRangeIndex == PageRangeAll {
          jumpPage := 1;
        }
      }
    }

    /** The "select pages" branch of the page-range slot. */
    method SelectPages()
      requires SelectingPages()
      modifies this
      ensures (pageRangeIndex, lastPageRange, totalPages) == old((pageRangeIndex, lastPageRange, totalPages))
      ensures TurnPageView() == old(TurnPageView()) && MarginView() == old(MarginView())
      ensures old(lastPageRange) == "" ==>
                && pageRangeText == "" && !printEnabled && alert
                && (isOnFocus, shownTips, previewPages) == old((isOnFocus, shownTips, previewPages))
      ensures pageRangeIndex == PageRangeSelect && old(lastPageRange) != "" ==>
                var out := CustomPages(old(lastPageRange), old(totalPages));
                match out.result
                case Pages(p) =>
                  && pageRangeText == out.text && printEnabled && !alert
                  && (isOnFocus, shownTips) == old((isOnFocus, shownTips))
                  && previewPages.Some? && StrictlyAscending(previewPages.value)
                  && (forall x :: x in previewPages.value <==> x in p)
                case Error(tip) =>
                  && pageRangeText == "" && !printEnabled && alert && !isOnFocus && previewPages == old(previewPages)
                  && shownTips == old(shownTips) + (if old(isOnFocus) then [tip] else [])
      ensures pageRangeIndex != PageRangeSelect && old(lastPageRange) != "" ==>
                && pageRangeText == (if old(alert) then "" else old(lastPageRange))
                && (printEnabled, alert, isOnFocus, shownTips, previewPages) == old((printEnabled, alert, isOnFocus, shownTips, previewPages))
    {
      pageRangeText := "";
      if lastPageRange == "" {
        SetPageIsLegal(false);
      } else {
        pageRangeText := lastPageRange;
        CustomPagesFinished();
      }
      if alert {
        pageRangeText := "";
      }
    }

    /** Each margin below its minimum is raised to it; the others stay. */
    method SetMinimumMargins()
      modifies this
      ensures margins == ClampMargins(old(margins), minMargins)
      ensures (minMargins, printerMargins, marginOld) == old((minMargins, printerMargins, marginOld))
      ensures RangeView() == old(RangeView()) && TurnPageView() == old(TurnPageView())
    {
      if margins.left < minMargins.left {
        margins := margins.(left := minMargins.left);
      }
      if margins.top < minMargins.top {
        margins := margins.(top := minMargins.top);
      }
      if margins.right < minMargins.right {
        margins := margins.(right := minMargins.right);
      }
      if margins.bottom < minMargins.bottom {
        margins := margins.(bottom := minMargins.bottom);
      }
    }

    /** A margin preset was chosen: the spin boxes and the printer get the
        preset (the printer's current minimum for anything but Normal and
        Moderate), a page selection falls back to all pages, and the preset
        is remembered as the last applied margins. */
    method PageMarginChanged(index: int, printerMin: Margins, targetCount: nat, originCount: int)
      modifies this
      ensures margins == printerMargins == MarginPreset(index, printerMin)
      ensures marginOld == Remember(old(marginOld), margins)
      ensures MarginsTracked()
      ensures minMargins == old(minMargins)
      ensures old(SelectingPages()) ==>
                && pageRangeIndex == PageRangeAll && pageRangeText == "" && printEnabled && !alert
                && (old(totalPages) != 0 ==>
                      totalPageText == DecimalString(targetCount) && previewPages == Some(Range(1, originCount)) && jumpPage == 1)
                && (old(totalPages) == 0 ==> (jumpPage, totalPageText, previewPages) == old((jumpPage, totalPageText, previewPages)))
                && var status := TurnPageStatus(jumpPage, ToInt(totalPageText).value);
                   buttons == if status.Some? then status.value else old(buttons)
      ensures !old(SelectingPages()) ==> RangeView() == old(RangeView()) && TurnPageView() == old(TurnPageView())
      ensures (lastPageRange, totalPages, isOnFocus, shownTips) == old((lastPageRange, totalPages, isOnFocus, shownTips))
    {
      if index == 1 {
        margins := Margins(NormalLeftRight, NormalModerateTopBottom, NormalLeftRight, NormalModerateTopBottom);
      } else if index == 2 {
        margins := Margins(ModerateLeftRight, NormalModerateTopBottom, ModerateLeftRight, NormalModerateTopBottom);
      } else {
        margins := printerMin;
      }
      printerMargins := margins;
      if SelectingPages() {
        PageRangeChanged(PageRangeAll, targetCount, originCount);
      }
      marginOld := Remember(marginOld, margins);
    }

    /** The spin boxes were edited: after the minimum clamp the margins go to
        the printer and are remembered, unless they equal the remembered ones;
        applied margins also end a page selection, as a preset does.
        Returns whether they were applied. */
    method AdjustMargins(targetCount: nat, originCount: int) returns (applied: bool)
      requires MarginsTracked()
      modifies this
      ensures MarginsTracked()
      ensures applied <==> margins != old(printerMargins)
      ensures margins == ClampMargins(old(margins), minMargins)
      ensures applied == !MarginsUnchanged(old(marginOld), margins)
      ensures applied ==> printerMargins == margins && marginOld == Remembered(margins)
      ensures !applied ==> (printerMargins, marginOld) == old((printerMargins, marginOld))
      ensures minMargins == old(minMargins)
      ensures applied && old(SelectingPages()) ==>
                && pageRangeIndex == PageRangeAll && pageRangeText == "" && printEnabled && !alert
                && (old(totalPages) != 0 ==>
                      totalPageText == DecimalString(targetCount) && previewPages == Some(Range(1, originCount)) && jumpPage == 1)
                && (old(totalPages) == 0 ==> (jumpPage, totalPageText, previewPages) == old((jumpPage, totalPageText, previewPages)))
                && var status := TurnPageStatus(jumpPage, ToInt(totalPageText).value);
                   buttons == if status.Some? then status.value else old(buttons)
      ensures !(applied && old(SelectingPages())) ==> RangeView() == old(RangeView()) && TurnPageView() == old(TurnPageView())
      ensures (lastPageRange, totalPages, isOnFocus, shownTips) == old((lastPageRange, totalPages, isOnFocus, shownTips))
    {
      SetMinimumMargins();
      EditedMarginsReachPrinter(marginOld, printerMargins, margins);
      if MarginsUnchanged(marginOld, margins) {
        return false;
      }
      marginOld := Remembered(margins);
      printerMargins := margins;
      if SelectingPages() {
        PageRangeChanged(PageRangeAll, targetCount, originCount);
      }
      applied := true;
    }
  }

  /** With the intended bookkeeping, edited margins are applied whenever
      they differ from the margins last given to the printer. */
  lemma EditedMarginsReachPrinter(history: seq<real>, applied: Margins, edited: Margins)
    ensures MarginsUnchanged(Remember(history, applied), edited) <==> edited == applied
  {
  }
}

=== FILE: stack_widget.dfy ===
/** DStackWidget: a stack of widgets of which one is current. Widgets are
    pushed on top or inserted below it and popped in runs; a popped widget
    is deleted at once, or put in a trash list while a slide transition
    still shows it. Widgets are represented by their identities. */
module Stacks {
  import opened Basics

  type Widget = nat

  /** The index of the first occurrence of `w`, or -1 (QList::indexOf). */
  function IndexOf(list: seq<Widget>, w: Widget): (r: int)
    ensures -1 <= r < |list|
    ensures r >= 0 ==> list[r] == w && forall k :: 0 <= k < r ==> list[k] != w
    ensures r == -1 <==> w !in list
  {
    if |list| == 0 then -1
    else if list[0] == w then 0
    else
      var r := IndexOf(list[1..], w);
      if r == -1 then -1 else r + 1
  }

  /** indexOf of a widget pointer that may be null: null is never listed. */
  function IndexOfCurrent(list: seq<Widget>, w: Option<Widget>): int
  {
    if w.None? then -1 else IndexOf(list, w.value)
  }

  /** getWidgetByIndex undoes indexOf for every widget on the stack. */
  lemma WidgetByIndexOf(list: seq<Widget>, w: Widget)
    requires w in list
    ensures 0 <= IndexOf(list, w) < |list| && list[IndexOf(list, w)] == w
  {
  }

  /** The state of a stack widget: the widget list, the current index and
      widget, the trash list awaiting the end of a transition, and the
      widgets deleted so far, in order. */
  datatype Stack = Stack(list: seq<Widget>, index: int, current: Option<Widget>, trash: seq<Widget>, deleted: seq<Widget>)

  /** The current index and widget agree: -1 with no widget, or a position
      of the list with the widget there. */
  predicate Coherent(s: Stack)
  {
    (s.index == -1 && s.current.None?) ||
    (0 <= s.index < |s.list| && s.current == Some(s.list[s.index]))
  }

  const Empty: Stack := Stack([], -1, None, [], [])

  /** The private current-index setter as written: an index equal to the
      current one returns at once, even if the list has changed under it. */
  function SetIndexAsWritten(s: Stack, index: int): Stack
  {
    if index == s.index then s
    else if 0 <= index < |s.list| then s.(index := index, current := Some(s.list[index]))
    else s.(index := -1, current := None)
  }

  /** The private current-index setter, corrected: an index in the list
      selects that widget, any other index selects none, whatever the
      index was before. */
  function SetIndex(s: Stack, index: int): (r: Stack)
    ensures Coherent(r)
    ensures 0 <= index < |s.list| ==> r.index == index && r.current == Some(s.list[index])
    ensures !(0 <= index < |s.list|) ==> r.index == -1 && r.current.None?
    ensures (r.list, r.trash, r.deleted) == (s.list, s.trash, s.deleted)
  {
    if 0 <= index < |s.list| then s.(index := index, current := Some(s.list[index]))
    else s.(index := -1, current := None)
  }

  /** The early return is harmless while the index and widget are
      coherent: it only goes wrong after the list changed under them. */
  lemma SetIndexAgreement(s: Stack, index: int)
    requires Coherent(s)
    ensures SetIndexAsWritten(s, index) == SetIndex(s, index)
  {
  }

  /** Nor does the early return matter when the index moves. */
  lemma SetIndexAgreementElsewhere(s: Stack, index: int)
    requires index != s.index
    ensures SetIndexAsWritten(s, index) == SetIndex(s, index)
  {
  }

  /** insertWidget: the widget goes in at `index`; at the top it becomes
      current, below the top the current widget stays current at its new
      position. */
  function Insert(s: Stack, index: int, w: Widget): Stack
    requires 0 <= index <= |s.list|
  {
    var list := s.list[..index] + [w] + s.list[index..];
    var t := s.(list := list);
    if index == |list| - 1 then SetIndex(t, index)
    else SetIndex(t, IndexOfCurrent(list, s.current))
  }

  /** pushWidget: insertWidget at the top. */
  function Push(s: Stack, w: Widget): Stack
  {
    Insert(s, |s.list|, w)
  }

  /** Pushing grows the stack by one, with the pushed widget on top and current. */
  lemma PushMakesTopCurrent(s: Stack, w: Widget)
    ensures var r := Push(s, w);
            r.list == s.list + [w] && r.index == |s.list| && r.current == Some(w)
  {
    assert s.list[..|s.list|] + [w] + s.list[|s.list|..] == s.list + [w];
  }

  /** Inserting below the top keeps the current widget current, at the
      position indexOf finds for it in the new list. */
  lemma InsertBelowTopKeepsCurrent(s: Stack, index: int, w: Widget)
    requires Coherent(s) && s.current.Some?
    requires 0 <= index < |s.list|
    ensures var r := Insert(s, index, w);
            r.current == s.current && r.index == IndexOf(r.list, s.current.value)
            && r.list == s.list[..index] + [w] + s.list[index..]
  {
    var list := s.list[..index] + [w] + s.list[index..];
    var c := s.current.value;
    assert list[|list| - 1] == s.list[|s.list| - 1];
    assert c in list by {
      if s.index < index {
        assert list[s.index] == c;
      } else {
        assert list[s.index + 1] == c;
      }
    }
    WidgetByIndexOf(list, c);
  }

  /** The widgets of a popped run other than the current one: those that
      are deleted at once. */
  function Discarded(run: seq<Widget>, current: Option<Widget>): seq<Widget>
  {
    if |run| == 0 then []
    else
      var pre := Discarded(run[..|run| - 1], current);
      var w := run[|run| - 1];
      if current == Some(w) then pre else pre + [w]
  }

  /** The discarded widgets are exactly the run's widgets other than the
      current one. */
  lemma {:induction false} DiscardedMembers(run: seq<Widget>, current: Option<Widget>)
    ensures forall w :: w in Discarded(run, current) <==> w in run && current != Some(w)
  {
    if |run| > 0 {
      DiscardedMembers(run[..|run| - 1], current);
      assert run == run[..|run| - 1] + [run[|run| - 1]];
    }
  }

  lemma DiscardedSnoc(run: seq<Widget>, w: Widget, current: Option<Widget>)
    ensures Discarded(run + [w], current) == Discarded(run, current) + (if current == Some(w) then [] else [w])
  {
    assert (run + [w])[..|run|] == run;
  }

  /** The popped run holds the current widget. */
  predicate HoldsCurrent(run: seq<Widget>, current: Option<Widget>)
  {
    current.Some? && current.value in run
  }

  /** The index popWidget starts from: the given widget's, or the current one. */
  function PopStart(s: Stack, widget: Option<Widget>): int
  {
    if widget.Some? then IndexOf(s.list, widget.value) else s.index
  }

  /** What popWidget demands: a run that starts inside the list does not
      run past its end. */
  predicate PopFits(s: Stack, widget: Option<Widget>, count: int)
  {
    var i := PopStart(s, widget);
    0 <= i < |s.list| ==> i + count <= |s.list|
  }

  /** A removed current widget goes to the trash while a transition is to
      show it over a non-empty stack, and is deleted otherwise. */
  function DisposeCurrent(s: Stack, transition: bool): Stack
    requires s.current.Some?
  {
    if transition && |s.list| > 0 then s.(trash := s.trash + [s.current.value])
    else s.(current := None, deleted := s.deleted + [s.current.value])
  }

  /** The removal loop of popWidget on the run of `n` widgets at `i`,
      followed by the disposal of a removed current widget. */
  function RemoveRun(s: Stack, i: nat, n: nat, isDelete: bool, transition: bool): Stack
    requires i + n <= |s.list|
  {
    var r := TakeOut(s, i, n, isDelete);
    if HoldsCurrent(s.list[i..i + n], s.current) && isDelete then DisposeCurrent(r, transition) else r
  }

  /** The removal loop of popWidget alone: the run leaves the list and,
      when deletion was asked for, all of it but the current widget is
      deleted. */
  function TakeOut(s: Stack, i: nat, n: nat, isDelete: bool): Stack
    requires i + n <= |s.list|
  {
    s.(list := s.list[..i] + s.list[i + n..],
       deleted := s.deleted + (if isDelete then Discarded(s.list[i..i + n], s.current) else []))
  }

  /** popWidget up to the call that selects the new top; a negative count
      removes nothing. */
  function PopRemove(s: Stack, widget: Option<Widget>, isDelete: bool, count: int, transition: bool): Stack
    requires PopFits(s, widget, count)
  {
    var i := PopStart(s, widget);
    if i < 0 || i >= |s.list| then s
    else RemoveRun(s, i, Max(count, 0), isDelete, transition)
  }

  /** popWidget as written, with the early-returning setter. */
  function PopAsWritten(s: Stack, widget: Option<Widget>, isDelete: bool, count: int, transition: bool): Stack
    requires PopFits(s, widget, count)
  {
    var i := PopStart(s, widget);
    if i < 0 || i >= |s.list| then s
    else
      var r := PopRemove(s, widget, isDelete, count, transition);
      SetIndexAsWritten(r, |r.list| - 1)
  }

  /** popWidget: after the removal the top widget becomes current. */
  function Pop(s: Stack, widget: Option<Widget>, isDelete: bool, count: int, transition: bool): Stack
    requires PopFits(s, widget, count)
  {
    var i := PopStart(s, widget);
    if i < 0 || i >= |s.list| then s
    else
      var r := PopRemove(s, widget, isDelete, count, transition);
      SetIndex(r, |r.list| - 1)
  }

  /** A start index outside the list makes popWidget do nothing. */
  lemma PopOutsideDoesNothing(s: Stack, widget: Option<Widget>, isDelete: bool, count: int, transition: bool)
    requires !(0 <= PopStart(s, widget) < |s.list|)
    ensures Pop(s, widget, isDelete, count, transition) == s
  {
  }

  /** popWidget's steps from a start inside the list: the removal loop
      leaves `r0` and reports `currentRemoved`, the disposal of a removed
      current widget leaves `removed`, and selecting the new top ends it. */
  lemma PopInside(s: Stack, widget: Option<Widget>, isDelete: bool, count: int, transition: bool,
                  r0: Stack, currentRemoved: bool, removed: Stack)
    requires PopFits(s, widget, count) && 0 <= PopStart(s, widget) < |s.list|
    requires r0 == TakeOut(s, PopStart(s, widget), Max(count, 0), isDelete)
    requires currentRemoved == HoldsCurrent(s.list[PopStart(s, widget)..PopStart(s, widget) + Max(count, 0)], s.current)
    requires r0.current.Some? || !currentRemoved
    requires removed == if currentRemoved && isDelete then DisposeCurrent(r0, transition) else r0
    ensures Pop(s, widget, isDelete, count, transition) == SetIndex(removed, |removed.list| - 1)
  {
    assert PopRemove(s, widget, isDelete, count, transition) == removed;
  }

  /** The removal keeps the widgets around the run and the earlier
      deletions. */
  lemma RemoveRunKeeps(s: Stack, i: nat, n: nat, isDelete: bool, transition: bool)
    requires i + n <= |s.list|
    ensures var r := RemoveRun(s, i, n, isDelete, transition);
            && r.list == s.list[..i] + s.list[i + n..]
            && r.index == s.index
            && r.deleted[..|s.deleted|] == s.deleted
  {
    var d := s.deleted + (if isDelete then Discarded(s.list[i..i + n], s.current) else []);
    assert d[..|s.deleted|] == s.deleted;
    if s.current.Some? {
      assert (d + [s.current.value])[..|s.deleted|] == s.deleted;
    }
  }

  /** The removal deletes, when asked, every widget of the run other than
      the current one. */
  lemma RemoveRunDeletes(s: Stack, i: nat, n: nat, transition: bool)
    requires i + n <= |s.list|
    ensures forall w :: w in s.list[i..i + n] && s.current != Some(w) ==> w in RemoveRun(s, i, n, true, transition).deleted
  {
    var run := s.list[i..i + n];
    var d := s.deleted + Discarded(run, s.current);
    DiscardedMembers(run, s.current);
    var r := RemoveRun(s, i, n, true, transition);
    if s.current.Some? {
      assert forall w :: w in d ==> w in d + [s.current.value];
    }
    assert forall w :: w in d ==> w in r.deleted;
  }

  /** popWidget removes exactly the run of `count` widgets at the start
      index and selects the new top (or nothing on an empty stack); the
      removed widgets other than the current one are deleted when asked. */
  lemma PopEffect(s: Stack, widget: Option<Widget>, isDelete: bool, count: int, transition: bool)
    requires PopFits(s, widget, count) && 0 <= PopStart(s, widget) < |s.list| && count >= 0
    ensures var i := PopStart(s, widget);
            var r := Pop(s, widget, isDelete, count, transition);
            && r.list == s.list[..i] + s.list[i + count..]
            && |r.list| == |s.list| - count
            && r.index == |r.list| - 1
            && Coherent(r)
            && r.deleted[..|s.deleted|] == s.deleted
            && (isDelete ==> forall w :: w in s.list[i..i + count] && s.current != Some(w) ==> w in r.deleted)
  {
    var i := PopStart(s, widget);
    var r := PopRemove(s, widget, isDelete, count, transition);
    assert r == RemoveRun(s, i, count, isDelete, transition);
    RemoveRunKeeps(s, i, count, isDelete, transition);
    if isDelete {
      RemoveRunDeletes(s, i, count, transition);
    }
    assert Pop(s, widget, isDelete, count, transition) == SetIndex(r, |r.list| - 1);
  }

  /** A removed current widget is put in the trash when a transition is to
      show it over the widgets left, and is deleted otherwise; a current
      widget that is not removed, or not deleted, stays current until the
      new top is selected. */
  lemma PopDisposesCurrent(s: Stack, widget: Option<Widget>, isDelete: bool, count: int, transition: bool)
    requires PopFits(s, widget, count) && 0 <= PopStart(s, widget) < |s.list| && count >= 0
    ensures var i := PopStart(s, widget);
            var r := PopRemove(s, widget, isDelete, count, transition);
            var gone := HoldsCurrent(s.list[i..i + count], s.current) && isDelete;
            && (gone && transition && count < |s.list| ==> r.trash == s.trash + [s.current.value] && r.current == s.current)
            && (gone && !(transition && count < |s.list|) ==> r.trash == s.trash && r.current.None? && r.deleted[|r.deleted| - 1] == s.current.value)
            && (!gone ==> r.trash == s.trash && r.current == s.current)
  {
  }

  /** With the current widget on top, which is how pushing leaves it, the
      setter as written and the intended one make popWidget agree. */
  lemma PopAgreesWhenCurrentOnTop(s: Stack, widget: Option<Widget>, isDelete: bool, count: int, transition: bool)
    requires PopFits(s, widget, count) && Coherent(s) && s.index == |s.list| - 1
    ensures PopAsWritten(s, widget, isDelete, count, transition) == Pop(s, widget, isDelete, count, transition)
  {
    var i := PopStart(s, widget);
    if 0 <= i < |s.list| {
      var r := PopRemove(s, widget, isDelete, count, transition);
      assert PopAsWritten(s, widget, isDelete, count, transition) == SetIndexAsWritten(r, |r.list| - 1);
      assert Pop(s, widget, isDelete, count, transition) == SetIndex(r, |r.list| - 1);
      assert r == RemoveRun(s, i, Max(count, 0), isDelete, transition);
      RemovedTopAgrees(s, i, Max(count, 0), isDelete, transition);
    }
  }

  /** After a removal from a stack whose top is current, both setters
      select the new top alike: a non-empty run leaves the old index,
      which is no longer the top, and an empty one leaves the stack as
      it was. */
  lemma RemovedTopAgrees(s: Stack, i: nat, n: nat, isDelete: bool, transition: bool)
    requires Coherent(s) && s.index == |s.list| - 1 && i < |s.list| && i + n <= |s.list|
    ensures var r := RemoveRun(s, i, n, isDelete, transition);
            SetIndexAsWritten(r, |r.list| - 1) == SetIndex(r, |r.list| - 1)
  {
    var r := RemoveRun(s, i, n, isDelete, transition);
    RemoveRunKeeps(s, i, n, isDelete, transition);
    if n > 0 {
      SetIndexAgreementElsewhere(r, |r.list| - 1);
    } else {
      RemoveNothing(s, i, isDelete, transition);
      SetIndexAgreement(s, |s.list| - 1);
    }
  }

  /** An empty run removes nothing. */
  lemma RemoveNothing(s: Stack, i: nat, isDelete: bool, transition: bool)
    requires i <= |s.list|
    ensures RemoveRun(s, i, 0, isDelete, transition) == s
  {
    assert s.list[i..i] == [];
    assert s.list[..i] + s.list[i..] == s.list;
  }

  /** The stack [1, 2] with widget 1 made current through setCurrentIndex(0):
      popping widget 1 with deletion and no transition leaves index 0 with no
      current widget under the setter as written, while the intended setter
      selects widget 2. */
  lemma PopAsWrittenLosesCurrent()
    ensures var s := SetIndex(Push(Push(Empty, 1), 2), 0);
            && s == Stack([1, 2], 0, Some(1), [], [])
            && PopAsWritten(s, Some(1), true, 1, false) == Stack([2], 0, None, [], [1])
            && !Coherent(PopAsWritten(s, Some(1), true, 1, false))
            && Pop(s, Some(1), true, 1, false) == Stack([2], 0, Some(2), [], [1])
  {
    var s1 := Push(Empty, 1);
    PushMakesTopCurrent(Empty, 1);
    assert s1 == Stack([1], 0, Some(1), [], []);
    var s2 := Push(s1, 2);
    PushMakesTopCurrent(s1, 2);
    assert s2 == Stack([1, 2], 1, Some(2), [], []);
    var s := SetIndex(s2, 0);
    assert s == Stack([1, 2], 0, Some(1), [], []);
    assert IndexOf([1, 2], 1) == 0;
    var run: seq<Widget> := [1, 2][0..1];
    assert run == [1];
    assert Discarded(run, Some(1)) == [];
    assert [1, 2][..0] + [1, 2][1..] == [2];
    assert PopRemove(s, Some(1), true, 1, false) == Stack([2], 0, None, [], [1]);
  }

  /** clear: every widget is deleted and nothing is current. */
  function Cleared(s: Stack): (r: Stack)
    ensures r.list == [] && r.index == -1 && r.current.None? && r.deleted == s.deleted + s.list
  {
    SetIndex(s.(list := [], deleted := s.deleted + s.list), -1)
  }

  class StackWidget {
    var list: seq<Widget>
    var currentIndex: int
    var currentWidget: Option<Widget>
    var trash: seq<Widget>
    var deleted: seq<Widget>

    ghost function State(): Stack
      reads this
    {
      Stack(list, currentIndex, currentWidget, trash, deleted)
    }

    constructor ()
      ensures State() == Empty
    {
      list, currentIndex, currentWidget, trash, deleted := [], -1, None, [], [];
    }

    function Depth(): (n: nat)
      reads this
      ensures n == |list|
    {
      |list|
    }

    function GetWidgetByIndex(index: int): Widget
      reads this
      requires 0 <= index < |list|
    {
      list[index]
    }

    function IndexOfWidget(w: Widget): (r: int)
      reads this
      ensures w in list ==> 0 <= r < |list| && GetWidgetByIndex(r) == w
      ensures w !in list <==> r == -1
    {
      IndexOf(list, w)
    }

    /** The private setter. */
    method SetIndexPrivate(index: int)
      modifies this
      ensures State() == SetIndex(old(State()), index)
    {
      var newIndex, newWidget := -1, None;
      if index >= 0 && index < |list| {
        newIndex, newWidget := index, Some(list[index]);
      }
      if newIndex == currentIndex && newWidget == currentWidget {
        return;
      }
      currentIndex, currentWidget := newIndex, newWidget;
    }

    /** setCurrentIndex without a transition (hiding and showing the
        widgets is not modelled). */
    method SetCurrentIndex(index: int)
      modifies this
      ensures State() == SetIndex(old(State()), index)
    {
      SetIndexPrivate(index);
    }

    method InsertWidget(index: int, w: Widget)
      requires 0 <= index <= |list|
      modifies this
      ensures State() == Insert(old(State()), index, w)
    {
      list := list[..index] + [w] + list[index..];
      if index == |list| - 1 {
        SetIndexPrivate(index);
      } else {
        SetIndexPrivate(IndexOfCurrent(list, currentWidget));
      }
    }

    /** Pushes the widget on top and returns its index. */
    method PushWidget(w: Widget) returns (top: int)
      modifies this
      ensures State() == Push(old(State()), w)
      ensures top == |old(list)| && list[top] == w && currentIndex == top
    {
      PushMakesTopCurrent(State(), w);
      InsertWidget(Depth(), w);
      top := Depth() - 1;
    }

    method PopWidget(widget: Option<Widget>, isDelete: bool, count: int, transition: bool)
      requires PopFits(State(), widget, count)
      modifies this
      ensures State() == Pop(old(State()), widget, isDelete, count, transition)
    {
      var i := if widget.Some? then IndexOf(list, widget.value) else currentIndex;
      if i < 0 || i >= |list| {
        PopOutsideDoesNothing(State(), widget, isDelete, count, transition);
        return;
      }
      ghost var s0 := State();
      var currentRemoved := RemoveWidgets(i, count, isDelete);
      ghost var r0 := State();
      DisposeRemoved(currentRemoved, isDelete, transition);
      PopInside(s0, widget, isDelete, count, transition, r0, currentRemoved, State());
      SetIndexPrivate(|list| - 1);
    }

    /** The end of popWidget's removal: a removed current widget is put in
        the trash or deleted, when deletion was asked for. */
    method DisposeRemoved(currentRemoved: bool, isDelete: bool, transition: bool)
      requires currentRemoved ==> currentWidget.Some?
      modifies this
      ensures State() == if currentRemoved && isDelete then DisposeCurrent(old(State()), transition) else old(State())
    {
      if currentRemoved && isDelete {
        if transition && |list| > 0 {
          trash := trash + [currentWidget.value];
        } else if currentWidget.Some? {
          deleted := deleted + [currentWidget.value];
          currentWidget := None;
        }
      }
    }

    /** popWidget's removal as it changes the widget: the list loses the
        run and the deleted record gains what the loop deletes. */
    method RemoveWidgets(i: nat, count: int, isDelete: bool) returns (currentRemoved: bool)
      requires i + Max(count, 0) <= |list|
      modifies this
      ensures State() == TakeOut(old(State()), i, Max(count, 0), isDelete)
      ensures currentRemoved == HoldsCurrent(old(list[i..i + Max(count, 0)]), currentWidget)
    {
      var rest, gone;
      rest, gone, currentRemoved := TakeRun(list, i, count, isDelete, currentWidget);
      list, deleted := rest, deleted + gone;
    }

    /** The removal loop of popWidget: `count` times, the widget at `i` is
        taken out of the list, and deleted when asked unless it is the
        current one, whose removal is reported instead. */
    static method TakeRun(widgets: seq<Widget>, i: nat, count: int, isDelete: bool, current: Option<Widget>)
      returns (rest: seq<Widget>, gone: seq<Widget>, currentRemoved: bool)
      requires i + Max(count, 0) <= |widgets|
      ensures rest == widgets[..i] + widgets[i + Max(count, 0)..]
      ensures currentRemoved == HoldsCurrent(widgets[i..i + Max(count, 0)], current)
      ensures gone == (if isDelete then Discarded(widgets[i..i + Max(count, 0)], current) else [])
    {
      ghost var n := Max(count, 0);
      ghost var done := 0;
      rest, gone := widgets, [];
      currentRemoved := false;
      var left := count;
      while left > 0
        invariant done == n - Max(left, 0) && 0 <= done <= n
        invariant rest == widgets[..i] + widgets[i + done..]
        invariant currentRemoved == HoldsCurrent(widgets[i..i + done], current)
        invariant gone == (if isDelete then Discarded(widgets[i..i + done], current) else [])
      {
        var w := rest[i];
        ghost var run := widgets[i..i + done];
        assert w == widgets[i + done];
        assert widgets[i..i + done + 1] == run + [w];
        DiscardedSnoc(run, w, current);
        assert HoldsCurrent(run + [w], current) <==> HoldsCurrent(run, current) || Some(w) == current;
        if Some(w) == current {
          currentRemoved := true;
        } else if isDelete {
          gone := gone + [w];
        }
        rest := rest[..i] + rest[i + 1..];
        assert rest == widgets[..i] + widgets[i + done + 1..];
        left := left - 1;
        done := done + 1;
      }
    }

    method Clear()
      modifies this
      ensures State() == Cleared(old(State()))
    {
      deleted := deleted + list;
      list := [];
      SetIndexPrivate(-1);
    }

    /** The end of a transition deletes the widgets in the trash. */
    method TransitionFinished()
      modifies this
      ensures State() == old(State()).(trash := [], deleted := old(deleted) + old(trash))
    {
      deleted := deleted + trash;
      trash := [];
    }
  }

  /** Every operation of the stack widget keeps the current index and the
      current widget coherent. */
  lemma OperationsKeepCoherent(s: Stack, index: int, w: Widget, widget: Option<Widget>, isDelete: bool, count: int, transition: bool)
    requires Coherent(s)
    ensures Coherent(SetIndex(s, index))
    ensures 0 <= index <= |s.list| ==> Coherent(Insert(s, index, w))
    ensures Coherent(Push(s, w))
    ensures PopFits(s, widget, count) ==> Coherent(Pop(s, widget, isDelete, count, transition))
    ensures Coherent(Cleared(s))
  {
  }
}

=== FILE: titlebar.dfy ===
/** DTitlebar: the title bar of a DTK main window. The model covers the
    decisions it takes from the window's flags and state (which buttons
    show, whether the title text shows, the maximise toggle, the disable
    flags kept in step with the window manager's Motif functions), the
    fullscreen hide and restore of its height, where added widgets go, the
    geometry of the centre area and the tab order of its widgets. */
module Titlebar {
  import opened Basics

  type Widget = nat

  /** DefaultTitlebarHeight. */
  const DefaultHeight: int := 50

  // ---------------------------------------------------------------------
  // Buttons and title

  /** The window-flag hints the title bar tests. */
  datatype Hints = Hints(title: bool, minimize: bool, maximize: bool, close: bool)

  /** Which of the minimise, maximise, close and quit-fullscreen buttons show. */
  datatype Buttons = Buttons(min: bool, max: bool, close: bool, quit: bool)

  /** updateButtonsState's choice of visible buttons. `useDXcb` says the
      window is decorated by the DTK platform plugin, `allowResize` that the
      Motif functions allow resizing; forceShow is false on every platform. */
  function ButtonsState(hints: Hints, useDXcb: bool, embedMode: bool, fullscreen: bool,
                        allowResize: bool, fullScreenButtonVisible: bool): Buttons
  {
    var forceHide := !useDXcb || embedMode || fullscreen;
    Buttons(hints.minimize && !forceHide,
            hints.maximize && !forceHide && allowResize,
            hints.close && useDXcb,
            fullscreen && useDXcb && fullScreenButtonVisible)
  }

  /** The minimise and maximise buttons never show without the platform
      decoration, in embed mode or in fullscreen, and show otherwise exactly
      when hinted (maximise also needing resize permission); the close button
      ignores embed mode and fullscreen; the quit button shows only in
      fullscreen. */
  lemma ButtonsStateRules(hints: Hints, useDXcb: bool, embedMode: bool, fullscreen: bool,
                          allowResize: bool, fullScreenButtonVisible: bool)
    ensures var b := ButtonsState(hints, useDXcb, embedMode, fullscreen, allowResize, fullScreenButtonVisible);
            && ((!useDXcb || embedMode || fullscreen) ==> !b.min && !b.max)
            && (useDXcb && !embedMode && !fullscreen ==> b.min == hints.minimize && b.max == (hints.maximize && allowResize))
            && b.close == ButtonsState(hints, useDXcb, !embedMode, !fullscreen, allowResize, fullScreenButtonVisible).close
            && (b.quit ==> fullscreen && b.quit == (useDXcb && fullScreenButtonVisible))
            && (b.min || b.max || b.close || b.quit ==> useDXcb)
  {
  }

  /** The title label (absent once a widget replaced it) and the text saved
      in the `_dtk_title` property. */
  datatype Title = Title(text: Option<string>, saved: string)

  /** The title part of updateButtonsState: showing restores the saved text,
      hiding saves the label's text and clears the label. */
  function ShowTitle(t: Title, show: bool): Title
  {
    if t.text.None? then t
    else if show then t.(text := Some(t.saved))
    else Title(Some(""), t.text.value)
  }

  /** Hiding the title and showing it again gives the label its text back,
      and showing is idempotent. */
  lemma HideThenShowRestoresTitle(t: Title)
    ensures ShowTitle(ShowTitle(t, false), true).text == t.text
    ensures ShowTitle(ShowTitle(t, true), true) == ShowTitle(t, true)
  {
  }

  /** Hiding a second time saves the already cleared label, so the text
      shown afterwards is empty until the title is set again. */
  lemma HidingTwiceLosesTitle(t: Title)
    requires t.text.Some?
    ensures ShowTitle(ShowTitle(ShowTitle(t, false), false), true).text == Some("")
  {
  }

  // ---------------------------------------------------------------------
  // Fullscreen

  /** The bar's height and the `_restore_height` property, if set. */
  datatype BarHeight = BarHeight(height: int, restore: Option<int>)

  function HiddenOnFullscreen(b: BarHeight): BarHeight
  {
    BarHeight(0, if b.height > 0 then Some(b.height) else b.restore)
  }

  function ShownOnFullscreen(b: BarHeight): BarHeight
  {
    if b.restore.Some? then BarHeight(b.restore.value, None) else b
  }

  /** isVisableOnFullscreen: no height is waiting to be restored. */
  predicate VisibleOnFullscreen(b: BarHeight)
  {
    b.restore.None?
  }

  /** Showing after hiding gives back a visible bar its height; hiding twice
      remembers the first height; the bar counts as hidden after hiding
      unless it had no height to save; showing always leaves it visible and
      changes nothing when it already was. */
  lemma FullscreenRoundTrip(b: BarHeight)
    ensures VisibleOnFullscreen(b) && b.height > 0 ==> ShownOnFullscreen(HiddenOnFullscreen(b)) == b
    ensures ShownOnFullscreen(HiddenOnFullscreen(HiddenOnFullscreen(b))) == ShownOnFullscreen(HiddenOnFullscreen(b))
    ensures VisibleOnFullscreen(HiddenOnFullscreen(b)) <==> b.height <= 0 && VisibleOnFullscreen(b)
    ensures HiddenOnFullscreen(b).height == 0
    ensures VisibleOnFullscreen(ShownOnFullscreen(b))
    ensures VisibleOnFullscreen(b) ==> ShownOnFullscreen(b) == b
  {
  }

  // ---------------------------------------------------------------------
  // Maximise toggle

  /** The window state flags the toggle reads and writes. */
  datatype WindowState = WindowState(minimized: bool, maximized: bool, fullScreen: bool)

  const NormalState: WindowState := WindowState(false, false, false)

  /** QWidget::showNormal clears the minimised, maximised and fullscreen flags. */
  function ShowNormal(s: WindowState): WindowState { NormalState }

  /** QWidget::showMaximized sets maximised and clears minimised and fullscreen. */
  function ShowMaximized(s: WindowState): WindowState { WindowState(false, true, false) }

  /** _q_toggleWindowState. */
  function ToggledWindowState(s: WindowState, maxDisabled: bool, maxVisible: bool): WindowState
  {
    if maxDisabled then s
    else if s.maximized then ShowNormal(s)
    else if !s.fullScreen && maxVisible then ShowMaximized(s)
    else s
  }

  /** With maximising allowed and its button shown, the toggle flips the
      maximised flag outside fullscreen and twice from any window that is
      neither maximised nor fullscreen ends in the normal state; a disabled maximise flag or a fullscreen, non-maximised window
      makes it do nothing. */
  lemma ToggleWindowStateRules(s: WindowState, maxDisabled: bool, maxVisible: bool)
    ensures !maxDisabled && maxVisible && !s.fullScreen ==> ToggledWindowState(s, maxDisabled, maxVisible).maximized != s.maximized
    ensures !maxDisabled && maxVisible && !s.fullScreen && !s.maximized ==>
              ToggledWindowState(ToggledWindowState(s, maxDisabled, maxVisible), maxDisabled, maxVisible) == NormalState
    ensures maxDisabled || (s.fullScreen && !s.maximized) ==> ToggledWindowState(s, maxDisabled, maxVisible) == s
    ensures !maxDisabled && s.maximized ==> ToggledWindowState(s, maxDisabled, maxVisible) == NormalState
  {
  }

  // ---------------------------------------------------------------------
  // Disable flags

  /** Window-flag bits kept in disableFlags. */
  datatype Flag = MinimizeHint | MaximizeHint | CloseHint | OtherFlag(bit: nat)

  /** The Motif functions the window manager reports. */
  datatype Motif = Motif(minimize: bool, maximize: bool, resize: bool, close: bool)

  /** Which of the minimise, maximise and close buttons are enabled. */
  datatype Enabled = Enabled(min: bool, max: bool, close: bool)

  /** The buttons enabled by a hints change: maximise needs both the
      maximise and the resize function. */
  function EnabledBy(f: Motif): Enabled
  {
    Enabled(f.minimize, f.maximize && f.resize, f.close)
  }

  function SetFlag(flags: set<Flag>, f: Flag, on: bool): (r: set<Flag>)
    ensures f in r <==> on
    ensures forall g :: g != f ==> (g in r <==> g in flags)
  {
    if on then flags + {f} else flags - {f}
  }

  /** The disable flags after a hints change: each button bit set exactly
      when that button is disabled. */
  function SyncedFlags(flags: set<Flag>, e: Enabled): (r: set<Flag>)
    ensures MinimizeHint in r <==> !e.min
    ensures MaximizeHint in r <==> !e.max
    ensures CloseHint in r <==> !e.close
    ensures forall g: Flag :: g.OtherFlag? ==> (g in r <==> g in flags)
  {
    SetFlag(SetFlag(SetFlag(flags, MinimizeHint, !e.min), MaximizeHint, !e.max), CloseHint, !e.close)
  }

  /** Once the window manager withholds maximising or resizing, the
      maximise toggle does nothing. */
  lemma NoMaximizeWithoutResize(flags: set<Flag>, f: Motif, s: WindowState, maxVisible: bool)
    requires !f.maximize || !f.resize
    ensures ToggledWindowState(s, MaximizeHint in SyncedFlags(flags, EnabledBy(f)), maxVisible) == s
  {
  }

  // ---------------------------------------------------------------------
  // Centre area and size hint

  /** QRect::center, with C++ division. */
  function CenterX(r: Rect): int { CDiv(2 * r.x + r.w - 1, 2) }
  function CenterY(r: Rect): int { CDiv(2 * r.y + r.h - 1, 2) }

  /** QRect::moveCenter keeps the size and puts the centre at (cx, cy). */
  function MoveCenter(r: Rect, cx: int, cy: int): Rect
  {
    Rect(cx - CDiv(r.w - 1, 2), cy - CDiv(r.h - 1, 2), r.w, r.h)
  }

  /** updateCenterArea's geometry: as wide as the bar less twice the wider
      side area, centred in the bar. */
  function CenterArea(width: int, height: int, leftWidth: int, rightWidth: int): Rect
  {
    var padding := Max(leftWidth, rightWidth);
    var bar := Rect(0, 0, width, height);
    MoveCenter(Rect(0, 0, width - 2 * padding, height), CenterX(bar), CenterY(bar))
  }

  /** Whenever the centre area has room, it leaves exactly the padding on
      both sides and spans the bar's height. */
  lemma CenterAreaBetweenPaddings(width: int, height: int, leftWidth: int, rightWidth: int)
    requires leftWidth >= 0 && rightWidth >= 0
    requires width - 2 * Max(leftWidth, rightWidth) >= 1 && height >= 1
    ensures var r := CenterArea(width, height, leftWidth, rightWidth);
            var padding := Max(leftWidth, rightWidth);
            r.x == padding && r.Right() == width - 1 - padding && r.y == 0 && r.h == height
  {
    var padding := Max(leftWidth, rightWidth);
    var a := width - 1;
    assert (a - 2 * padding) / 2 == a / 2 - padding;
    var bar := Rect(0, 0, width, height);
    assert 2 * bar.x + bar.w - 1 == a && 2 * bar.y + bar.h - 1 == height - 1;
    assert CenterX(bar) == a / 2;
    assert CenterY(bar) == (height - 1) / 2;
    assert CDiv(width - 2 * padding - 1, 2) == (a - 2 * padding) / 2;
  }

  /** DTitlebar::sizeHint: with the centre area hidden the frame's own hint,
      else room for the centre area's hint, the spacing on both sides and
      the wider side area twice, at the default height. */
  function SizeHint(centerHidden: bool, frameHint: Size, leftHint: int, rightHint: int,
                    centerHint: int, spacing: int): (r: Size)
    ensures !centerHidden ==> r.h == DefaultHeight
    ensures !centerHidden ==> r.w - 2 * Max(leftHint, rightHint) == centerHint + 2 * spacing
  {
    if centerHidden then frameHint
    else
      var padding := Max(leftHint, rightHint);
      Size(centerHint + 2 * spacing + 2 * padding, DefaultHeight)
  }

  /** At its hinted width, with the side areas at their hinted widths, the
      bar gives the centre area its hinted width plus the spacing on both
      sides, between the paddings. */
  lemma HintedWidthFitsCenter(frameHint: Size, leftHint: int, rightHint: int, centerHint: int, spacing: int)
    requires leftHint >= 0 && rightHint >= 0 && centerHint + 2 * spacing >= 1
    ensures var w := SizeHint(false, frameHint, leftHint, rightHint, centerHint, spacing).w;
            var r := CenterArea(w, DefaultHeight, leftHint, rightHint);
            r.w == centerHint + 2 * spacing && r.x == Max(leftHint, rightHint)
  {
    var w := SizeHint(false, frameHint, leftHint, rightHint, centerHint, spacing).w;
    CenterAreaBetweenPaddings(w, DefaultHeight, leftHint, rightHint);
  }

  // ---------------------------------------------------------------------
  // Layouts and tab order

  /** A layout item: a widget or a spacer, and whether the widget takes
      focus by tab. */
  datatype Item = Item(widget: Option<Widget>, tabFocus: bool, alignment: bv32)

  /** A tab-order participant: the title bar itself or one of its widgets. */
  datatype Node = Bar | Child(w: Widget)

  /** Qt::AlignLeft and Qt::AlignRight. */
  const AlignLeft: bv32 := 0x1
  const AlignRight: bv32 := 0x2

  /** The tab-focusable widgets of a layout, in order. */
  function Focusable(items: seq<Item>): seq<Widget>
  {
    if |items| == 0 then []
    else
      var last := items[|items| - 1];
      Focusable(items[..|items| - 1]) + (if last.widget.Some? && last.tabFocus then [last.widget.value] else [])
  }

  /** The tab-focusable widgets of several layouts, layout after layout. */
  function FocusOrder(layouts: seq<seq<Item>>): seq<Widget>
  {
    if |layouts| == 0 then [] else FocusOrder(layouts[..|layouts| - 1]) + Focusable(layouts[|layouts| - 1])
  }

  /** A widget is in a layout's focus list exactly when the layout holds it
      with tab focus. */
  lemma {:induction false} FocusableMembers(items: seq<Item>, w: Widget)
    ensures w in Focusable(items) <==> exists k :: 0 <= k < |items| && items[k].widget == Some(w) && items[k].tabFocus
  {
    if |items| > 0 {
      var pre := items[..|items| - 1];
      FocusableMembers(pre, w);
      if w in Focusable(pre) {
        var k :| 0 <= k < |pre| && pre[k].widget == Some(w) && pre[k].tabFocus;
        assert items[k] == pre[k];
      }
      if exists k :: 0 <= k < |items| && items[k].widget == Some(w) && items[k].tabFocus {
        var k :| 0 <= k < |items| && items[k].widget == Some(w) && items[k].tabFocus;
        if k < |pre| {
          assert pre[k] == items[k];
        }
      }
    }
  }

  /** The calls of updateTabOrder: the bar before the first widget, then
      each widget before the next. */
  predicate IsChain(links: seq<(Node, Node)>, order: seq<Widget>)
  {
    && |links| == |order|
    && (|order| > 0 ==> links[0] == (Bar, Child(order[0])))
    && forall k :: 0 <= k < |order| - 1 ==> links[k + 1] == (Child(order[k]), Child(order[k + 1]))
  }

  /** The chain's links lead from the bar through every widget of the order. */
  lemma {:induction false} ChainReachesAll(links: seq<(Node, Node)>, order: seq<Widget>, k: nat)
    requires IsChain(links, order) && k < |order|
    ensures links[k].1 == Child(order[k])
  {
    if k > 0 {
      assert links[(k - 1) + 1] == (Child(order[k - 1]), Child(order[k]));
    }
  }

  class TitleBar {
    var title: Title
    var titleVisible: bool
    var embedMode: bool
    var fullScreenButtonVisible: bool
    var buttons: Buttons
    var enabled: Enabled
    var disableFlags: set<Flag>
    var window: WindowState
    var bar: BarHeight
    var centerHidden: bool
    var centerGeometry: Rect
    var left: seq<Item>
    var center: seq<Item>
    var right: seq<Item>
    var tabLinks: seq<(Node, Node)>

    /** A title bar as init leaves it: the default height, empty layouts,
        and the centre area as the title label holding the application
        name, after the closing setEmbedMode(!isDXcbPlatform) has run
        updateButtonsState with the bar's own window flags `hints`. That
        step either saves the name and clears the label, or shows the
        still empty saved title; either way the label ends up empty. */
    constructor (appName: string, dxcbPlatform: bool, hints: Hints, useDXcb: bool, allowResize: bool, tablet: bool)
      ensures title.text == Some("") && title.saved == (if hints.title && dxcbPlatform then "" else appName)
      ensures embedMode == !dxcbPlatform
      ensures var b := ButtonsState(hints, useDXcb, !dxcbPlatform, false, allowResize, true);
              buttons == b.(quit := if tablet then false else b.quit)
      ensures bar == BarHeight(DefaultHeight, None) && window == NormalState && !centerHidden
      ensures left == [] && center == [] && right == [] && tabLinks == [] && disableFlags == {}
    {
      var t, b := ButtonsUpdate(Title(Some(appName), ""), Buttons(false, false, false, false), hints, useDXcb,
                                !dxcbPlatform, false, allowResize, true, tablet);
      title := t;
      titleVisible := true;
      embedMode := !dxcbPlatform;
      fullScreenButtonVisible := true;
      buttons := b;
      enabled := Enabled(true, true, true);
      disableFlags := {};
      window := NormalState;
      bar := BarHeight(DefaultHeight, None);
      centerHidden := false;
      centerGeometry := Rect(0, 0, 0, 0);
      left, center, right := [], [], [];
      tabLinks := [];
    }

    /** updateButtonsState, with the target window's fullscreen state read
        from `window`. */
    method UpdateButtonsState(hints: Hints, useDXcb: bool, allowResize: bool, tablet: bool)
      modifies this
      ensures title == ShowTitle(old(title), hints.title && !embedMode)
      ensures var b := ButtonsState(hints, useDXcb, embedMode, window.fullScreen, allowResize, fullScreenButtonVisible);
              buttons == b.(quit := if tablet then old(buttons.quit) else b.quit)
      ensures (titleVisible, embedMode, fullScreenButtonVisible, enabled, disableFlags, window, bar) ==
              old((titleVisible, embedMode, fullScreenButtonVisible, enabled, disableFlags, window, bar))
      ensures (centerHidden, centerGeometry, left, center, right, tabLinks) ==
              old((centerHidden, centerGeometry, left, center, right, tabLinks))
    {
      var t, b := ButtonsUpdate(title, buttons, hints, useDXcb, embedMode, window.fullScreen, allowResize,
                                fullScreenButtonVisible, tablet);
      title, buttons := t, b;
    }

    /** The body of updateButtonsState on the label and the buttons it
        changes: the label shows its text exactly when the title hint is
        set outside embed mode, and the buttons follow the visibility
        rules, the quit button except in the tablet environment. */
    static method ButtonsUpdate(title: Title, buttons: Buttons, hints: Hints, useDXcb: bool, embedMode: bool,
                                fullscreen: bool, allowResize: bool, fullScreenButtonVisible: bool, tablet: bool)
      returns (t: Title, b: Buttons)
      ensures t == ShowTitle(title, hints.title && !embedMode)
      ensures var s := ButtonsState(hints, useDXcb, embedMode, fullscreen, allowResize, fullScreenButtonVisible);
              b == s.(quit := if tablet then buttons.quit else s.quit)
    {
      var showTitle := hints.title && !embedMode;
      t := title;
      if t.text.Some? {
        if showTitle {
          t := t.(text := Some(t.saved));
        } else {
          t := Title(Some(""), t.text.value);
        }
      }
      var forceHide := !useDXcb || embedMode || fullscreen;
      var showMin := hints.minimize && !forceHide;
      var showMax := hints.maximize && !forceHide && allowResize;
      var showClose := hints.close && useDXcb;
      var showQuit := fullscreen && useDXcb && fullScreenButtonVisible;
      b := buttons.(min := showMin, max := showMax, close := showClose);
      if !tablet {
        b := b.(quit := showQuit);
      }
    }

    /** _q_onTopWindowMotifHintsChanged for this window: without DXcb
        nothing changes; otherwise the hints are applied. */
    method OnMotifHintsChanged(decorTitle: bool, hints: Hints, useDXcb: bool, f: Motif, tablet: bool)
      modifies this
      ensures !useDXcb ==> title == old(title) && (titleVisible, buttons, enabled, disableFlags) == old((titleVisible, buttons, enabled, disableFlags))
      ensures useDXcb ==> title == ShowTitle(old(title), hints.title && !old(embedMode))
      ensures useDXcb ==> titleVisible == (if old(title.text).Some? then decorTitle else old(titleVisible))
      ensures var b := ButtonsState(hints, true, old(embedMode), old(window.fullScreen), f.resize, old(fullScreenButtonVisible));
              useDXcb ==> buttons == b.(quit := if tablet then old(buttons.quit) else b.quit)
      ensures useDXcb ==> enabled == EnabledBy(f) && disableFlags == SyncedFlags(old(disableFlags), EnabledBy(f))
      ensures (embedMode, fullScreenButtonVisible, window, bar, centerHidden, centerGeometry) ==
              old((embedMode, fullScreenButtonVisible, window, bar, centerHidden, centerGeometry))
      ensures (left, center, right, tabLinks) == old((left, center, right, tabLinks))
    {
      if useDXcb {
        ApplyMotifHints(decorTitle, hints, f, tablet);
      }
    }

    /** The hints applied with DXcb on: the title label follows the title
        decoration, the buttons are re-evaluated as updateButtonsState does,
        enabled by the Motif functions, and the disable flags follow. */
    method ApplyMotifHints(decorTitle: bool, hints: Hints, f: Motif, tablet: bool)
      modifies this
      ensures title == ShowTitle(old(title), hints.title && !old(embedMode))
      ensures titleVisible == (if old(title.text).Some? then decorTitle else old(titleVisible))
      ensures var b := ButtonsState(hints, true, old(embedMode), old(window.fullScreen), f.resize, old(fullScreenButtonVisible));
              buttons == b.(quit := if tablet then old(buttons.quit) else b.quit)
      ensures enabled == EnabledBy(f) && disableFlags == SyncedFlags(old(disableFlags), EnabledBy(f))
      ensures (embedMode, fullScreenButtonVisible, window, bar, centerHidden, centerGeometry) ==
              old((embedMode, fullScreenButtonVisible, window, bar, centerHidden, centerGeometry))
      ensures (left, center, right, tabLinks) == old((left, center, right, tabLinks))
    {
      if title.text.Some? {
        titleVisible := decorTitle;
      }
      UpdateButtonsState(hints, true, f.resize, tablet);
      var e := Enabled(f.minimize, f.maximize && f.resize, f.close);
      var flags := SyncButtonFlags(disableFlags, e);
      enabled, disableFlags := e, flags;
    }

    /** The "sync button state" step: each button's disable bit follows
        whether the button is enabled. */
    static method SyncButtonFlags(flags: set<Flag>, e: Enabled) returns (r: set<Flag>)
      ensures r == SyncedFlags(flags, e)
    {
      r := SetFlag(flags, MinimizeHint, !e.min);
      r := SetFlag(r, MaximizeHint, !e.max);
      r := SetFlag(r, CloseHint, !e.close);
    }

    method ToggleWindowState()
      modifies this
      ensures window == ToggledWindowState(old(window), MaximizeHint in disableFlags, buttons.max)
      ensures MaximizeHint in disableFlags ==> window == old(window)
      ensures title == old(title) && (titleVisible, embedMode, fullScreenButtonVisible) == old((titleVisible, embedMode, fullScreenButtonVisible)) && (buttons, enabled, disableFlags) == old((buttons, enabled, disableFlags))
      ensures bar == old(bar) && (centerHidden, centerGeometry) == old((centerHidden, centerGeometry)) && (left, center, right, tabLinks) == old((left, center, right, tabLinks))
    {
      if MaximizeHint in disableFlags {
        return;
      }
      if window.maximized {
        window := ShowNormal(window);
      } else if !window.fullScreen && buttons.max {
        window := ShowMaximized(window);
      }
    }

    predicate IsVisibleOnFullscreen()
      reads this
    {
      VisibleOnFullscreen(bar)
    }

    method HideOnFullscreen()
      modifies this
      ensures !IsVisibleOnFullscreen() <==> old(bar.height) > 0 || !old(IsVisibleOnFullscreen())
      ensures bar == HiddenOnFullscreen(old(bar))
      ensures title == old(title) && (titleVisible, embedMode, fullScreenButtonVisible) == old((titleVisible, embedMode, fullScreenButtonVisible)) && (buttons, enabled, disableFlags) == old((buttons, enabled, disableFlags))
      ensures window == old(window) && (centerHidden, centerGeometry) == old((centerHidden, centerGeometry)) && (left, center, right, tabLinks) == old((left, center, right, tabLinks))
    {
      if bar.height > 0 {
        bar := bar.(restore := Some(bar.height));
      }
      bar := bar.(height := 0);
    }

    method ShowOnFullscreen()
      modifies this
      ensures bar == ShownOnFullscreen(old(bar)) && IsVisibleOnFullscreen()
      ensures title == old(title) && (titleVisible, embedMode, fullScreenButtonVisible) == old((titleVisible, embedMode, fullScreenButtonVisible)) && (buttons, enabled, disableFlags) == old((buttons, enabled, disableFlags))
      ensures window == old(window) && (centerHidden, centerGeometry) == old((centerHidden, centerGeometry)) && (left, center, right, tabLinks) == old((left, center, right, tabLinks))
    {
      if bar.restore.Some? {
        bar := BarHeight(bar.restore.value, None);
      }
    }

    method UpdateCenterArea(width: int, leftWidth: int, rightWidth: int)
      modifies this
      ensures centerGeometry == (if centerHidden then old(centerGeometry) else CenterArea(width, bar.height, leftWidth, rightWidth))
      ensures title == old(title) && (titleVisible, embedMode, fullScreenButtonVisible) == old((titleVisible, embedMode, fullScreenButtonVisible)) && (buttons, enabled, disableFlags) == old((buttons, enabled, disableFlags))
      ensures (window, bar, centerHidden) == old((window, bar, centerHidden)) && (left, center, right, tabLinks) == old((left, center, right, tabLinks))
    {
      if centerHidden {
        return;
      }
      var padding := Max(leftWidth, rightWidth);
      var whole := Rect(0, 0, width, bar.height);
      centerGeometry := MoveCenter(Rect(0, 0, width - 2 * padding, bar.height), CenterX(whole), CenterY(whole));
    }

    /** addWidget: a left alignment (winning over right) goes to the left
        layout without its left bit, a right one to the right layout without
        its right bit, anything else to the centre, which then drops the
        title label and its text; the tab order is rebuilt. */
    method AddWidget(w: Widget, tabFocus: bool, alignment: bv32)
      modifies this
      ensures alignment & AlignLeft != 0 ==>
                left == old(left) + [Item(Some(w), tabFocus, alignment & !AlignLeft)] && (center, right, title) == old((center, right, title))
      ensures alignment & AlignLeft == 0 && alignment & AlignRight != 0 ==>
                right == old(right) + [Item(Some(w), tabFocus, alignment & !AlignRight)] && (left, center, title) == old((left, center, title))
      ensures alignment & (AlignLeft | AlignRight) == 0 ==>
                center == old(center) + [Item(Some(w), tabFocus, alignment)] && (left, right) == old((left, right))
                && title == Title(None, old(title.saved))
      ensures var order := FocusOrder([left, center, right]);
              (|order| == 0 ==> tabLinks == old(tabLinks)) && (|order| > 0 ==> IsChain(tabLinks, order))
      ensures tabFocus ==> exists k :: 0 <= k < |tabLinks| && tabLinks[k].1 == Child(w)
      ensures (titleVisible, embedMode, fullScreenButtonVisible) == old((titleVisible, embedMode, fullScreenButtonVisible)) && (buttons, enabled, disableFlags) == old((buttons, enabled, disableFlags))
      ensures (window, bar) == old((window, bar)) && (centerHidden, centerGeometry) == old((centerHidden, centerGeometry))
    {
      AppendItem(w, tabFocus, alignment);
      UpdateTabOrder();
      if tabFocus {
        ghost var order := FocusOrder([left, center, right]);
        ghost var k :| 0 <= k < |order| && order[k] == w;
        ChainReachesAll(tabLinks, order, k);
      }
    }

    /** The layout step of addWidget, before the tab order is rebuilt. */
    method AppendItem(w: Widget, tabFocus: bool, alignment: bv32)
      modifies this
      ensures alignment & AlignLeft != 0 ==>
                left == old(left) + [Item(Some(w), tabFocus, alignment & !AlignLeft)] && (center, right, title) == old((center, right, title))
      ensures alignment & AlignLeft == 0 && alignment & AlignRight != 0 ==>
                right == old(right) + [Item(Some(w), tabFocus, alignment & !AlignRight)] && (left, center, title) == old((left, center, title))
      ensures alignment & (AlignLeft | AlignRight) == 0 ==>
                center == old(center) + [Item(Some(w), tabFocus, alignment)] && (left, right) == old((left, right))
                && title == Title(None, old(title.saved))
      ensures tabFocus ==> w in FocusOrder([left, center, right])
      ensures (titleVisible, embedMode, fullScreenButtonVisible) == old((titleVisible, embedMode, fullScreenButtonVisible)) && (buttons, enabled, disableFlags) == old((buttons, enabled, disableFlags))
      ensures (window, bar) == old((window, bar)) && (centerHidden, centerGeometry) == old((centerHidden, centerGeometry))
      ensures tabLinks == old(tabLinks)
    {
      var item: Item;
      if alignment & AlignLeft != 0 {
        item := Item(Some(w), tabFocus, alignment & !AlignLeft);
        left := left + [item];
        assert left[|left| - 1] == item;
      } else if alignment & AlignRight != 0 {
        item := Item(Some(w), tabFocus, alignment & !AlignRight);
        right := right + [item];
        assert right[|right| - 1] == item;
      } else {
        item := Item(Some(w), tabFocus, alignment);
        center := center + [item];
        assert center[|center| - 1] == item;
        title := Title(None, title.saved);
      }
      if tabFocus {
        ghost var layouts := [left, center, right];
        ghost var j := if alignment & AlignLeft != 0 then 0 else if alignment & AlignRight != 0 then 2 else 1;
        FocusableMembers(layouts[j], w);
        assert layouts[j][|layouts[j]| - 1] == item;
        FocusOrderMembers(layouts, w);
      }
    }

    /** updateTabOrder. */
    method UpdateTabOrder()
      modifies this
      ensures var order := FocusOrder([left, center, right]);
              (|order| == 0 ==> tabLinks == old(tabLinks)) && (|order| > 0 ==> IsChain(tabLinks, order))
      ensures title == old(title) && (titleVisible, embedMode, fullScreenButtonVisible) == old((titleVisible, embedMode, fullScreenButtonVisible)) && (buttons, enabled, disableFlags) == old((buttons, enabled, disableFlags))
      ensures (window, bar) == old((window, bar)) && (centerHidden, centerGeometry) == old((centerHidden, centerGeometry))
      ensures (left, center, right) == old((left, center, right))
    {
      var order := CollectFocusable([left, center, right]);
      if |order| == 0 {
        return;
      }
      tabLinks := ChainTabOrder(order);
    }

    /** The widgets of the layouts that take focus by tab, layout after
        layout, each in its layout's order. */
    static method CollectFocusable(layouts: seq<seq<Item>>) returns (order: seq<Widget>)
      ensures order == FocusOrder(layouts)
    {
      order := [];
      for li := 0 to |layouts|
        invariant order == FocusOrder(layouts[..li])
      {
        var items := layouts[li];
        ghost var before := order;
        for i := 0 to |items|
          invariant order == before + Focusable(items[..i])
        {
          assert items[..i + 1][..i] == items[..i];
          var it := items[i];
          if it.widget.Some? && it.tabFocus {
            order := order + [it.widget.value];
          }
        }
        assert items[..|items|] == items;
        assert layouts[..li + 1][..li] == layouts[..li];
      }
      assert layouts[..|layouts|] == layouts;
    }

    /** The setTabOrder calls: the bar before the first widget, then each
        widget before its successor. */
    static method ChainTabOrder(order: seq<Widget>) returns (links: seq<(Node, Node)>)
      requires |order| > 0
      ensures IsChain(links, order)
    {
      links := [(Bar, Child(order[0]))];
      for i := 0 to |order| - 1
        invariant |links| == i + 1 && links[0] == (Bar, Child(order[0]))
        invariant forall k :: 0 <= k < i ==> links[k + 1] == (Child(order[k]), Child(order[k + 1]))
      {
        links := links + [(Child(order[i]), Child(order[i + 1]))];
      }
    }
  }

  /** A widget is in the focus order of several layouts exactly when one of
      them holds it with tab focus. */
  lemma {:induction false} FocusOrderMembers(layouts: seq<seq<Item>>, w: Widget)
    ensures w in FocusOrder(layouts) <==> exists j :: 0 <= j < |layouts| && w in Focusable(layouts[j])
  {
    if |layouts| > 0 {
      var pre := layouts[..|layouts| - 1];
      FocusOrderMembers(pre, w);
      if w in FocusOrder(pre) {
        var j :| 0 <= j < |pre| && w in Focusable(pre[j]);
        assert layouts[j] == pre[j];
      }
      if exists j :: 0 <= j < |layouts| && w in Focusable(layouts[j]) {
        var j :| 0 <= j < |layouts| && w in Focusable(layouts[j]);
        if j < |pre| {
          assert pre[j] == layouts[j];
        }
      }
    }
  }
}
